=== FILE: README.md ===
# AutoAtt admin dashboard — a Dafny model of its logic

The AutoAtt dashboard is a React front end used by administrators and
super-administrators. This project models the logic under its screens as
pure Dafny functions over immutable records:

- **Session.** The session state kept in browser storage and in the auth
  slice: login, logout, token refresh, `getMe`, `clearAuth` and the
  password flows.
- **HTTP client.** The shared client attaches the bearer token. A 401 on a
  request not yet retried, with a refresh token stored, triggers one
  refresh: a new token is stored and the request replayed under it, while a
  refresh that throws clears the session. Other errors are normalised into
  `{message, status, data}`.
- **Admin profile slice.** Its flag discipline, with pending, fulfilled and
  rejected cases.
- **Access decisions.** The role predicates, the private and super-admin
  route guards, the root redirect and the catch-all route, the login page's
  redirect, and where logout lands.
- **Request builders.** The query strings and per-id paths of the
  super-admin and notification services.
- **Paging and filtering.** Conversion between 1-based server pages and
  the 0-based paginator, client-side page slices, the rows-per-page reset,
  render precedence, and the filter and dialog state of the admin
  management page.
- **Notifications.** The notifications page and drawer: the tab's read
  filter, load-more, mark-as-read on click, and fetching only while the
  drawer is open.
- **Display helpers.** The breadcrumb trail, the session-duration text, the
  changed-field rows of an edit, and the attendance chips.
- **Forms.** The field rules of the profile, create-admin, login and
  reset-password forms. The multipart data the two admin forms send. The
  shared image picker, the avatar address, and when each submit button is
  enabled.
- **Attendance.** The attendance form's gating and payload, and the
  employee search and check-in/check-out choice of the mark-attendance
  page.

I/O is replaced by parameters:

- Storage is a `map<string, Entry>`.
- A backend call is an input outcome: an answered envelope, or the
  normalised error the client rejected with.
- The refresh endpoint and the server are functions passed in.
- Environment variables are `Option<string>` parameters.
- Timestamps are integer milliseconds.

Numbers that JavaScript treats as falsy when zero, such as coordinates and
pagination fields, are `Option<int>`. Both `None` and `Some(0)` are falsy.
`JsCore` models the JavaScript operations the logic relies on:

- truthiness and `||` fallbacks;
- `Math.floor` and the truncating `%`;
- `Array.prototype.slice`;
- `split` and `join`;
- ASCII case conversion and `includes`;
- `.length`, counted in UTF-16 code units.

Each module follows one area of the source: `jscore.dfy`, `records.dfy`,
`storage.dfy`, `api.dfy`, `auth_service.dfy`, `auth_slice.dfy`,
`profile_slice.dfy`, `access.dfy`, `queries.dfy`, `paging.dfy`,
`notifications.dfy`, `breadcrumbs.dfy`, `tables.dfy`, `forms.dfy` and
`attendance.dfy`.

## Model

| member | source | states |
|---|---|---|
| Storage.ClearSession | src/features/auth/authSlice.js:150-152 | `token`, `refreshToken` and `user` are gone afterwards; every other key is kept with its value |
| Api.BaseUrl | src/services/api.js:5 | the configured API URL when it is set and non-empty, otherwise `http://localhost:5000/api` |
| Api.RefreshUrl | src/services/api.js:49-52 | corrected refresh address: the same base URL as every other call, followed by `/auth/refresh-token` |
| Api.RefreshUrlAsWritten | src/services/api.js:50 | the address ends in `/auth/refresh-token`; with a non-empty variable it is the corrected address, with an empty one the bare path, and with none `undefined/auth/refresh-token` |
| Api.RefreshUrlAsWrittenMissesDefault | src/services/api.js:50 | with `REACT_APP_API_URL` unset, the address the interceptor posts to differs from the API every other call uses |
| Api.RefreshUrlAgreesWhenConfigured | src/services/api.js:50 | with the variable set to a non-empty value, the written and corrected refresh addresses coincide |
| Api.AttachToken | src/services/api.js:4-25 | the request's headers are laid over the client's default headers, the request's own value winning. A non-empty stored token then sets `Authorization: Bearer <token>`. Without one, `Authorization` is the request's own, else the default's. URL and retry flag are unchanged |
| Api.AttachTokenIdempotent | src/services/api.js:13-25 | attaching the token to an already attached request changes nothing |
| Api.StoredTokenDecides | src/services/api.js:16-19 | with a token stored, the `Authorization` sent is the same whatever the defaults and the request carried |
| Api.StaleBearerOutlivesSession | src/services/api.js:59-63 | after a refresh replay, clearing the session does not stop requests from carrying the refreshed Bearer, because it was written into the client's defaults |
| Api.ErrorMessage | src/services/api.js:87-90 | the server's message, else the transport message, else 'An unexpected error occurred'; never empty |
| Api.Normalize | src/services/api.js:98-102 | the rejection carries that message, the response status and the response body |
| Api.ShouldRefresh | src/services/api.js:41 | a refresh is tried only for a 401, never for a request already marked `_retry`, and always for a 401 on a fresh request |
| Api.OnError | src/services/api.js:37-103 | for a 401 not yet retried with a stored refresh token: a refresh answering a token stores it, writes it as Bearer into the client's defaults and replays the request under it with `_retry` set; a refresh that throws clears the session, goes to `/login` and rejects with the refresh error as thrown; an answer without a token rejects normally with storage untouched. Every other failure, including a missing refresh token, rejects normally with storage untouched, and only these cases occur |
| Api.Send | src/services/api.js:13-104 | a call puts at most two requests on the wire and refreshes at most once; a request already marked `_retry` is sent once. A second request is sent only after a 401, carries the retry flag and the newly stored token, and goes to the same URL; the defaults change only then, to the new Bearer. A resolved or normally rejected call reports the last reply, its error normalised |
| Api.Outcome | src/services/api.js:86-102 | a reply's body resolves the call; an error reply rejects it with its status, its body and a non-empty message |
| Api.SendRetried | src/services/api.js:41 | a request already marked `_retry` is sent once, its reply decides the outcome, and storage and defaults are untouched |
| Api.SendReplaysAfterRefresh | src/services/api.js:41-68 | a 401 on a fresh request with a refresh token stored and a refresh answering a token: exactly two requests and one refresh, the second marked `_retry`, to the same URL, under the new Bearer; the token is stored and made the default, and the second reply decides the outcome |
| Api.SendRefreshFailureSignsOut | src/services/api.js:41-82 | a 401 on a fresh request whose refresh throws: one request, one refresh, the session cleared, defaults untouched, and the refresh error rejected as thrown |
| Api.UploadHeaders | src/services/api.js:161-167 | `Content-Type: multipart/form-data` unless the caller's headers set it; the caller's headers always win |
| AuthService.Login | src/features/auth/authService.js:15-30 | the three session keys are written only for `success` with data, and nothing else in storage changes; a failure is re-thrown with storage unchanged |
| AuthService.Logout | src/features/auth/authService.js:33-51 | the session keys are removed whether the backend succeeds or throws, and other keys are kept; a failure is re-thrown |
| AuthService.RefreshToken | src/features/auth/authService.js:54-74 | success overwrites only `token` with the new access token; failure removes all three keys and re-throws |
| AuthService.GetMe | src/features/auth/authService.js:77-90 | the stored user is replaced only by a successful answer with data, and then reads back as that data |
| AuthService.GetMeKeepsToken | src/features/auth/authService.js:77-90 | `getMe` never touches the token or refresh token, so after a successful answer the visitor is signed in exactly when a token was stored, and otherwise the verdict is unchanged |
| AuthService.LoginThenGetMe | src/features/auth/authService.js:15-90 | a successful login with a non-empty token followed by a successful `getMe` signs the visitor in as the user `getMe` returned |
| AuthService.IsAuthenticated | src/features/auth/authService.js:134-144 | true exactly when a non-empty token and a parsed user are both stored |
| AuthService.ResetPasswordUrl | src/features/auth/authService.js:120-125 | the reset path, then `/`, then exactly the token |
| AuthService.ResetTokenOfUrl | src/features/auth/authService.js:120-125 | an address has a token exactly when it starts with the reset path and `/`, and is then that prefix followed by the token |
| AuthService.ResetPasswordUrlRoundTrip | src/features/auth/authService.js:120-125 | the token reads back from its reset address, so different tokens post to different addresses |
| AuthService.LogoutSignsOut | src/features/auth/authService.js:33-51 | after logout the service never considers the visitor signed in, whatever the backend did |
| AuthService.LoginSignsIn | src/features/auth/authService.js:19-24 | a successful login with a non-empty token signs in; a failed one leaves the signed-in verdict as it was |
| AuthService.RefreshFailureSignsOut | src/features/auth/authService.js:60-73 | a failed refresh signs out; a successful refresh keeps the stored user |
| AuthSlice.Fallback | src/features/auth/authSlice.js:22-117 | every thunk has a non-empty fallback rejection message |
| AuthSlice.RejectValue | src/features/auth/authSlice.js:29-30 | the rejection payload is the error's message when non-empty, else the thunk's fallback; never empty |
| AuthSlice.NormalizedRejectKeepsMessage | src/features/auth/authSlice.js:29-30 | for an error normalised by the client, the thunk passes the client's message on unchanged |
| AuthSlice.RejectedAction | src/features/auth/authSlice.js:22-117 | each thunk's failure becomes its own rejected action carrying a non-empty message |
| AuthSlice.Initial | src/features/auth/authSlice.js:4-17 | signed in exactly when a non-empty token and a user are stored; user and token come from storage; all flags are off and the message is empty |
| AuthSlice.InitialAgreesWithService | src/features/auth/authSlice.js:9-12 | the slice starts out agreeing with the service's `isAuthenticated` |
| AuthSlice.Reduce | src/features/auth/authSlice.js:119-275 | reset clears the status fields and keeps the session; clearError changes only `isError` and `message`; clearAuth signs out. Login and password pending clear the error, while logout and getMe pending only raise `isLoading`. Logout clears the session on both outcomes. A refresh success changes only `token`; a refresh failure clears only the session fields |
| AuthSlice.ReducerStorage | src/features/auth/authSlice.js:136-153 | `updateUser` stores the user, `clearAuth` removes the three session keys, and no other reducer writes storage |
| AuthSlice.RejectionIsReported | src/features/auth/authSlice.js:170-208 | every failed thunk except refresh reports a non-empty error; a refresh failure signs out silently; login and logout failures clear the session |
| AuthSlice.ReduceKeepsSound | src/features/auth/authSlice.js:155-273 | "signed in implies a user and a token" survives every action except a fulfilled `getMe` without data |
| AuthSlice.GetMeWithoutDataBreaksSound | src/features/auth/authSlice.js:214-217 | a data-less `getMe` answer leaves a signed-in state without a user |
| AuthSlice.SoundAlways | src/features/auth/authSlice.js:9-17 | from start-up on, any run of actions that avoids that case keeps the invariant |
| AuthSlice.SoundFrom | src/features/auth/authSlice.js:155-273 | the invariant is preserved along any such run of actions |
| AuthSlice.LoginMirrorsStorage | src/features/auth/authSlice.js:163-169 | after a successful login, the slice's token and user equal the ones the service stored |
| ProfileSlice.Reduce | src/features/admin/adminProfileSlice.js:132-238 | a pending case raises only `isLoading`. A fulfilled case sets success and writes only its own data field. A rejected case records the error and keeps every data field. An image deletion nulls the image only when a profile exists. reset and clearError clear their fields |
| ProfileSlice.Fallback | src/features/admin/adminProfileSlice.js:7-119 | every thunk has a non-empty fallback message |
| ProfileSlice.RejectValue | src/features/admin/adminProfileSlice.js:16-20 | the server's message when present, else the thunk's fallback; never empty |
| ProfileSlice.RejectValueIgnoresTransport | src/features/admin/adminProfileSlice.js:17-19 | where the shared client would report the transport message, these thunks report their fallback instead |
| ProfileSlice.ThunkUrl | src/features/admin/adminProfileSlice.js:4-111 | each thunk calls its own path under the configured base URL |
| ProfileSlice.DirectAuthorization | src/features/admin/adminProfileSlice.js:11-14 | the header is Bearer plus the stored token, or `Bearer null` when none is stored |
| ProfileSlice.DirectAuthorizationDiffersWithoutToken | src/features/admin/adminProfileSlice.js:11-14 | without a stored token the shared client sends `Authorization` only when its defaults hold one (none at start-up, a stale Bearer after a refresh), while these thunks always send `Bearer null` |
| ProfileSlice.ImageDeletionKeepsDetails | src/features/admin/adminProfileSlice.js:224-231 | deleting the image keeps the profile's name, username, email, department and job role |
| ProfileSlice.ThunkRunWritesOwnField | src/features/admin/adminProfileSlice.js:147-237 | a whole thunk run (pending, then fulfilled or rejected) ends with loading off and touches at most the thunk's own data field |
| Access.SuperAdminIsAdmin | src/hooks/useAuth.js:100-107 | a super-admin is an admin; with no user neither predicate holds; an admin who is not a super-admin has role 'admin' |
| Access.PrivateGuard | src/routes/PrivateRoute.jsx:4-12 | the outlet renders exactly for a signed-in state with a user; otherwise the guard redirects to `/login` |
| Access.SuperAdminGuard | src/routes/SuperAdminRoute.jsx:4-16 | the outlet renders exactly for role 'superadmin'; without a session or a user the guard goes to `/login`; any other role goes to `/dashboard` |
| Access.SuperAdminGuardImpliesPrivate | src/routes/SuperAdminRoute.jsx:7-15 | whoever passes the super-admin guard passes the private guard |
| Access.PrivateGuardIgnoresRole | src/routes/PrivateRoute.jsx:5-11 | changing the user's role never changes the private guard's decision |
| Access.RootTarget | src/routes/AppRoutes.jsx:24-32 | the root sends a signed-in super-admin to `/super-admin/dashboard`, another signed-in user to `/dashboard`, and everyone else to `/login` |
| Access.RouteKey | src/routes/AppRoutes.jsx:36-61 | the key a path is matched on: trailing slashes dropped and letters lower-cased, a path of slashes only being the root; each fixed route is its own key |
| Access.ResetToken | src/routes/AppRoutes.jsx:44 | the `:token` parameter of a reset path is non-empty, has no '/', and keeps its case |
| Access.ResetPathIsNoOtherRoute | src/routes/AppRoutes.jsx:38-44 | the key of a `/reset-password/:token` path is none of the fixed routes |
| Access.Resolve | src/routes/AppRoutes.jsx:36-61 | the route table, matched as React Router does, ignoring case and trailing slashes: the root redirect, each guard applied to its nested route, the token read from the reset path, and `/` for every unmatched path |
| Access.TrailingSlashIgnored | src/routes/AppRoutes.jsx:36-61 | a trailing slash never changes the screen a path resolves to |
| Access.TrimSlashesLower | src/routes/AppRoutes.jsx:36-61 | dropping trailing slashes commutes with lower-casing |
| Access.RouteKeyIgnoresCase | src/routes/AppRoutes.jsx:36-61 | a path and its lower-cased form have the same key |
| Access.ResetTestIgnoresCase | src/routes/AppRoutes.jsx:44 | a path is a reset path exactly when its lower-cased form is, and its token is lower-cased with it |
| Access.CaseIgnored | src/routes/AppRoutes.jsx:36-61 | lower-casing a path changes nothing except the case of a reset token |
| Access.ResetLinkRoundTrip | src/routes/AppRoutes.jsx:44 | `/reset-password/` followed by a non-empty token without '/' is a reset path whose token is exactly that token |
| Access.LoginRouteIsLenient | src/routes/AppRoutes.jsx:42 | `/login/` and `/LOGIN` show the login page |
| Access.ResetRouteIsLenient | src/routes/AppRoutes.jsx:44 | `/reset-password/abc/` shows the reset page for the token `abc` |
| Access.RootTargetRenders | src/routes/AppRoutes.jsx:24-57 | the root's target renders a page without a further redirect |
| Access.EveryPathSettles | src/routes/AppRoutes.jsx:36-61 | every path reaches a page within three redirects |
| Access.SettleFromTarget | src/routes/AppRoutes.jsx:38-57 | each redirect target reaches a page within two further redirects |
| Access.LoginRedirectAsWrittenLoops | src/pages/auth/LoginPage.jsx:89-97 | in the state a data-less `getMe` leaves, the login page sends the visitor to `/dashboard`, whose guard sends them back to `/login` |
| Access.LoginRedirect | src/pages/auth/LoginPage.jsx:89-97 | corrected login-page redirect: it fires exactly for a signed-in state with a user, goes where the root would, and picks the super-admin dashboard exactly for a super-admin |
| Access.LoginRedirectRenders | src/pages/auth/LoginPage.jsx:89-97 | the corrected redirect always lands on a page that renders |
| Access.LoginRedirectAgreesWithUser | src/pages/auth/LoginPage.jsx:89-97 | whenever a user is present, the written and corrected redirects agree |
| Access.LoginRedirectAsWritten | src/pages/auth/LoginPage.jsx:89-97 | the page redirects exactly when the state is signed in, with no test of the user; to `/super-admin/dashboard` exactly for a super-admin, else `/dashboard`; when the slice reports success it is the post-login navigation |
| Access.AfterLoginTarget | src/pages/auth/LoginPage.jsx:66-76 | the page navigates exactly when the slice reports success and a signed-in state, with no test of the user; it goes to `/super-admin/dashboard` exactly for a super-admin and to `/dashboard` otherwise |
| Access.AfterLoginTargetAsWrittenLoops | src/pages/auth/LoginPage.jsx:66-76 | after a login and a data-less `getMe`, the page still navigates to `/dashboard`, whose guard sends the visitor back to `/login` |
| Access.AfterLoginTargetCorrected | src/pages/auth/LoginPage.jsx:66-76 | corrected navigation: it fires exactly for success with a signed-in state and a user, and goes where the root would |
| Access.AfterLoginSettles | src/pages/auth/LoginPage.jsx:66-76 | right after a successful login both versions go where the root would, to the super-admin dashboard exactly for a super-admin, and land on a page that renders |
| Access.AfterLoginTargetAgreesWithUser | src/pages/auth/LoginPage.jsx:66-76 | whenever a user is present, the written and corrected navigations agree |
| Access.HandleLogout | src/hooks/useAuth.js:39-47 | logout navigates to `/login` with replace, with or without backend success; the session is cleared in both slice and storage; a failure is reported with its message |
| Access.LogoutLandsOnLogin | src/hooks/useAuth.js:39-47 | after logout the visitor sees the login page, is not redirected away from it, and the dashboard sends them back to it |
| Queries.Build | src/features/superAdmin/superAdminService.js:33-39 | the query of an object literal with conditional spreads has at most one pair per property |
| Queries.BuildLookup | src/features/superAdmin/superAdminService.js:33-39 | with distinct keys, a key's value in the built query is the property's value exactly when it was spread in, and absent otherwise |
| Queries.BuildInOrder | src/features/superAdmin/superAdminService.js:33-39 | the built query keeps the literal's key order, and no key appears twice |
| Queries.BuildFacts | src/features/superAdmin/superAdminService.js:33-39 | both facts together, for every literal with distinct keys |
| Queries.AdminsQuery | src/features/superAdmin/superAdminService.js:30-43 | `page` and `limit` always lead, with defaults 1 and 10; `search` and `department` are sent only when non-empty; `isActive` is sent unless it is ''; the order is page, limit, search, department, isActive |
| Queries.InactiveFilterIsSent | src/features/superAdmin/superAdminService.js:38 | the status filter 'false' is sent |
| Queries.LoginLogsQuery | src/features/superAdmin/superAdminService.js:113-126 | `page`/`limit` always, with defaults 1 and 10; `adminId`, `startDate` and `endDate` only when non-empty; literal order |
| Queries.AdminPath | src/features/superAdmin/superAdminService.js:50-110 | `/super-admin/admin/`, then the id, then the optional `/password-info` or `/reset-password` suffix |
| Queries.ParseAdminPathRoundTrip | src/features/superAdmin/superAdminService.js:50-110 | reading a per-admin path back gives its id and resource, for any single-segment id |
| Queries.AdminPathInjective | src/features/superAdmin/superAdminService.js:50-110 | distinct admins or resources never share a path |
| Queries.AdminCall | src/features/superAdmin/superAdminService.js:16-141 | the list, delete, reset-password and login-log calls return the whole envelope and the rest return `.data`; create and update are multipart POSTs; each call uses its query and path |
| Queries.MultipartCallHeaders | src/features/superAdmin/superAdminService.js:62-73 | a multipart call with no caller headers carries `multipart/form-data` |
| Queries.NotificationsQuery | src/features/notifications/notificationService.js:15-33 | `page`/`limit` always, with defaults 1 and 10; `type`/`priority` only when non-empty; `isRead` exactly when it is not ''; literal order |
| Queries.NotificationCall | src/features/notifications/notificationService.js:14-101 | only the by-id and stats calls return `.data`; mark-read is a PUT to `/notifications/<id>/read`; delete is a DELETE of `/notifications/<id>` |
| Queries.FixedPathsShadowIds | src/features/notifications/notificationService.js:4-11 | the fixed endpoints share the per-id pattern, so deleting the id 'delete-read' is the delete-all-read call |
| Paging.TablePager | src/components/superAdmin/AdminTable.jsx:223-225 | the paginator shows the total or 0, the limit or 10, and the server page minus one (0 when the page is missing or 0) |
| Paging.FromTablePage | src/components/superAdmin/AdminTable.jsx:226 | a paginator page is handed back as the next 1-based page |
| Paging.PageConversionRoundTrip | src/components/superAdmin/AdminTable.jsx:225-226 | the two conversions are inverse in both directions |
| Paging.VisibleRows | src/components/admin/LoginHistoryTable.jsx:121-122 | at most `rowsPerPage` rows, in data order from the page's first index; a full page when the data reaches that far, the remainder on the last page, and none past the end |
| Paging.PagesFromCover | src/components/admin/EditHistoryTable.jsx:191-192 | paging on from any page shows the rest of the data exactly once, in order |
| Paging.PagesCoverData | src/components/admin/LoginHistoryTable.jsx:121-122 | reading all pages in turn shows the whole data exactly once, in order |
| Paging.ChangeRowsPerPage | src/components/admin/LoginHistoryTable.jsx:32-35 | a new page size returns to the first page |
| Paging.ChangePage | src/components/admin/LoginHistoryTable.jsx:28-30 | a page change keeps the page size |
| Paging.SizeChangeShowsFirstRows | src/components/admin/EditHistoryTable.jsx:142-145 | after a size change, the first rows of the data are on screen |
| Paging.RenderHistory | src/components/admin/LoginHistoryTable.jsx:65-89 | spinner while loading, then the error, then the placeholder for empty data, then the current page's rows with `data.length` as the count |
| Paging.RenderLogs | src/components/superAdmin/LoginLogsTable.jsx:47-65 | the same precedence, with the server page's rows and the paginator's total as the count |
| Paging.RenderedFromIsPages | src/components/admin/LoginHistoryTable.jsx:65-122 | on each page, the rows the history table renders are the pager's slice of the data |
| Paging.RenderedPagesCoverData | src/components/admin/LoginHistoryTable.jsx:65-122 | paging through the rendered history table from the first page shows every row once, in order |
| Paging.RenderLogsIsOneClientPage | src/components/superAdmin/LoginLogsTable.jsx:47-65 | the log table renders the server page as the history table renders a single client page holding it: the same view and rows, only the count differs |
| Paging.FilteredTableAsWrittenStrandsFilter | src/components/superAdmin/AdminTable.jsx:80-88 | a search that matches nothing renders a screen without the filter controls |
| Paging.FilteredTableAsWritten | src/components/superAdmin/AdminTable.jsx:80-88 | the placeholder alone, without filter controls, exactly for missing or empty data; otherwise the rows as given |
| Paging.FilteredTable | src/components/superAdmin/AdminTable.jsx:80-93 | corrected table: the filter controls are offered in every state; the placeholder shows exactly for missing or empty data, and otherwise the rows |
| Paging.FilteredTableAgreesWhenNonEmpty | src/components/superAdmin/AdminTable.jsx:80-93 | for non-empty data the written and corrected tables agree |
| Paging.FilterInput | src/components/superAdmin/AdminTable.jsx:50-72 | the typed value is kept locally and forwarded unchanged exactly when a handler is given |
| Paging.ApplyFilter | src/pages/superAdmin/ManageAdminsPage.jsx:63-67 | a page change sets only the page; a size, search, department or status change sets its own field and returns to page 1, keeping the rest |
| Paging.InitialQuery | src/pages/superAdmin/ManageAdminsPage.jsx:23-27 | the first list request asks for page 1 of 10 and nothing else |
| Paging.SearchReachesQuery | src/components/superAdmin/AdminTable.jsx:50-56 | a typed search term reaches the request from page 1, sent exactly when non-empty, with the page size and department kept |
| Paging.Handle | src/pages/superAdmin/ManageAdminsPage.jsx:25-96 | filter changes re-request with the new filters. A success message while a submitting dialog is open closes the four submitting dialogs and clears the selection, leaving the details dialog as it was, and re-requests with the current filters. Row actions select the admin and open their dialog |
| Paging.RequestsUseCurrentFilters | src/pages/superAdmin/ManageAdminsPage.jsx:25-40 | every list request carries the filters in force after the event; a filter event makes exactly one request, and no event makes more |
| Notifications.TabFilter | src/pages/notifications/NotificationsPage.jsx:16 | tab 1 gives 'false', tab 2 gives 'true', any other tab gives '' |
| Notifications.ListQuery | src/pages/notifications/NotificationsPage.jsx:15-19 | the request carries the view's page and size, no type or priority, and the read filter exactly on the Unread and Read tabs |
| Notifications.Next | src/pages/notifications/NotificationsPage.jsx:25-51 | a tab change selects the tab and returns to page 1 of 10; load-more advances the page by one and keeps the size; nothing else changes the view |
| Notifications.Direct | src/pages/notifications/NotificationsPage.jsx:26-51 | a click on an unread item marks exactly that item read, and a click on a read one sends nothing; refresh re-fetches the current view |
| Notifications.PageStep | src/pages/notifications/NotificationsPage.jsx:15-51 | a tab change or load-more re-fetches the list for the new view, and the counts |
| Notifications.DrawerStep | src/components/notifications/NotificationDrawer.jsx:15-32 | the drawer re-fetches the list only while open and never the counts; its handlers dispatch as the page does |
| Notifications.DrawerToggled | src/components/notifications/NotificationDrawer.jsx:15-20 | opening fetches the current view, closing fetches nothing |
| Notifications.ClosedDrawerNeverFetches | src/components/notifications/NotificationDrawer.jsx:15-20 | a closed drawer never asks for the list |
| Notifications.OpenDrawerAgreesWithPage | src/components/notifications/NotificationDrawer.jsx:15-32 | an open drawer moves to the same view as the page, and requests the same list |
| Notifications.HasMore | src/pages/notifications/NotificationsPage.jsx:51 | more is offered only when both the page and the page count are known, and the page is below the count |
| Notifications.LoadMoreStaysInRange | src/pages/notifications/NotificationsPage.jsx:51 | when more is offered for the page on screen, load-more requests a later page that the server has |
| Notifications.LoadMoreAdvances | src/pages/notifications/NotificationsPage.jsx:51 | n load-mores advance the page by n and keep the tab and size |
| Notifications.TabThenLoadMore | src/pages/notifications/NotificationsPage.jsx:25-51 | after a tab switch and n load-mores, the view is page n+1 of 10 under that tab, wherever it was before |
| Breadcrumbs.Segments | src/components/common/Breadcrumbs.jsx:7 | the segments are non-empty and contain no '/' |
| Breadcrumbs.RouteName | src/components/common/Breadcrumbs.jsx:26-28 | a known segment gets its table name; an unknown one is shown with its first character upper-cased and the rest kept |
| Breadcrumbs.SegmentCrumb | src/components/common/Breadcrumbs.jsx:56-77 | a segment's crumb is text exactly when the segment is last, and otherwise a link to its prefix; both use the readable name |
| Breadcrumbs.Trail | src/components/common/Breadcrumbs.jsx:30-78 | nothing renders exactly when there are no segments or the path is exactly `/login`; otherwise Home (`/dashboard`) comes first, then one crumb per segment, and the last crumb is text |
| Breadcrumbs.OnlyLastIsText | src/components/common/Breadcrumbs.jsx:58-77 | only the last crumb is plain text; every earlier one is a link |
| Breadcrumbs.RouteToExtends | src/components/common/Breadcrumbs.jsx:57 | each link is the previous link, then '/', then the next segment, so each link is a prefix of the next |
| Breadcrumbs.RouteToSegments | src/components/common/Breadcrumbs.jsx:57 | the page a crumb links to has the first i+1 segments as its own segments |
| Breadcrumbs.CrumbLinksLeadToPrefixes | src/components/common/Breadcrumbs.jsx:56-57 | the same, for the trail of any path |
| Breadcrumbs.LoginIsHiddenOnlyVerbatim | src/components/common/Breadcrumbs.jsx:31-33 | `/login` has no trail, but `/login/` has one |
| Tables.CalculateDuration | src/components/admin/LoginHistoryTable.jsx:46-63 | '-' exactly when either time is missing; hours are shown only when positive |
| Tables.DurationMeasuresSession | src/components/superAdmin/LoginLogsTable.jsx:31-41 | for logout at or after login, the shown hours and minutes add up to the elapsed whole minutes, the minute part is in [0,60), and hours show exactly from one hour on |
| Tables.NegativeDurationDropsHours | src/components/admin/LoginHistoryTable.jsx:51-59 | a logout 61 minutes before login shows minus one minute, not minus 61 |
| Tables.DurationText | src/components/admin/LoginHistoryTable.jsx:56-59 | the text is '-' exactly for the missing case and otherwise ends in 'm' |
| Tables.NegativeDurationText | src/components/admin/LoginHistoryTable.jsx:51-59 | that case renders as "-1m" |
| Tables.ParseNatText | src/components/admin/EditHistoryTable.jsx:84 | a count printed in decimal reads back as the same count |
| Tables.Status | src/components/superAdmin/LoginLogsTable.jsx:123-128 | 'Completed' exactly when the logout time is present |
| Tables.LogoutColumn | src/components/superAdmin/LoginLogsTable.jsx:110-112 | 'Still Active' exactly when the logout time is absent, and otherwise that time |
| Tables.SessionCellsAgree | src/components/superAdmin/LoginLogsTable.jsx:110-128 | an active session has 'Still Active' and no duration; a completed one with a login time has a duration |
| Tables.EditedFields | src/components/admin/EditHistoryTable.jsx:39-54 | no rows for missing `editedFields`, otherwise one row per entry; no shown value is empty |
| Tables.EditedFieldsKeepEntries | src/components/admin/EditHistoryTable.jsx:45-52 | row i keeps entry i's key, and each value is kept when present or replaced by '-' |
| Tables.FieldsLabel | src/components/admin/EditHistoryTable.jsx:84 | the chip starts with the count and ends in 's' exactly when the count is not 1 |
| Tables.FieldsLabelCountsRows | src/components/admin/EditHistoryTable.jsx:84 | the number on the chip reads back as the number of rows in the changes table |
| Tables.StatusColor | src/components/attendance/AttendanceTable.jsx:48-57 | present, absent, late and half-day map to success, error, warning and info; every other status gets the default |
| Tables.StatusOfColor | src/components/attendance/AttendanceTable.jsx:48-57 | the default colour stands for no status and every other colour for one |
| Tables.StatusColorRoundTrip | src/components/attendance/AttendanceTable.jsx:48-57 | a known status reads back from its colour, an unknown one reads back as none, and each non-default colour is its status's colour |
| Tables.CheckOutColumn | src/components/attendance/AttendanceTable.jsx:126-133 | the 'Active' chip exactly when there is no check-out time, and otherwise that time |
| Tables.CheckOutColumnRoundTrip | src/components/attendance/AttendanceTable.jsx:126-133 | the check-out time reads back from the cell, so records with different check-out times never share a cell |
| Tables.WorkingHoursCell | src/components/attendance/AttendanceTable.jsx:135 | the working hours when present, and '-' otherwise |
| Tables.WorkingHoursCellRoundTrip | src/components/attendance/AttendanceTable.jsx:135 | truthy hours other than '-' read back from the cell, missing or empty hours read back as none, and stored hours of '-' look the same as missing ones |
| Forms.StrongPasswordMeaning | src/components/superAdmin/CreateAdminForm.jsx:27 | a strong password has at least 8 UTF-16 code units, with a lower-case letter, an upper-case letter and a digit; for a single line the converse holds too |
| Forms.DigitAfterLineBreakIgnored | src/components/superAdmin/CreateAdminForm.jsx:27 | a digit after a line break does not satisfy the pattern's lookahead |
| Forms.FirstLineStopsAtBreak | src/components/superAdmin/CreateAdminForm.jsx:27 | the pattern's lookaheads see exactly the text before the first line break |
| Forms.ProfileErrors | src/components/admin/ProfileEditForm.jsx:25-40 | lengths counted in UTF-16 code units: name 2..50; username 3..30 of letters, digits and '_'; a required e-mail; department and job role at most 50. Each field is reported exactly when its rule fails, and the form is valid exactly when all rules hold |
| Forms.ProfileFormData | src/components/admin/ProfileEditForm.jsx:60-72 | the form data holds exactly the truthy fields in key order, plus `profileImage` exactly when a file is selected |
| Forms.ProfileInitialValues | src/components/admin/ProfileEditForm.jsx:49-55 | the form starts with the loaded profile's name, username, e-mail, department and job role, and with five empty fields when no profile is loaded |
| Forms.UntouchedProfileFormResubmits | src/components/admin/ProfileEditForm.jsx:48-75 | submitting the untouched form for a profile that passes the rules, with no file chosen, sends its name, username and e-mail, its department and job role when non-empty, and no image |
| Forms.EmptyProfileFormRefused | src/components/admin/ProfileEditForm.jsx:26-55 | with no profile loaded the form starts empty and cannot be sent |
| Forms.AdminErrors | src/components/superAdmin/CreateAdminForm.jsx:23-30 | the same field rules, lengths in UTF-16 code units; the password is reported exactly when it is not strong; the form is valid exactly when all six rules hold |
| Forms.AdminFormExtendsProfileForm | src/components/superAdmin/CreateAdminForm.jsx:23-30 | apart from the password, the create-admin form reports exactly what the profile form would |
| Forms.AdminFormData | src/components/superAdmin/CreateAdminForm.jsx:49-57 | every string field is sent unless it is ''; `isActive` is always sent, including false; `profileImage` is sent exactly when a file is selected; key order |
| Forms.SendTestsDiffer | src/components/superAdmin/CreateAdminForm.jsx:50-54 | on strings the two forms' tests agree; an inactive flag is falsy and still sent by the create-admin form |
| Forms.Pick | src/components/admin/ProfileEditForm.jsx:78-118 | type before size; a rejected file leaves the picker unchanged with its alert; an accepted file is selected; remove and close clear file and preview |
| Forms.PickerStaysSound | src/components/admin/ProfileEditForm.jsx:78-118 | the picker never holds a file of a wrong type or over 5 MiB, whatever the events |
| Forms.FiveMebibytesAccepted | src/components/admin/ProfileEditForm.jsx:88-92 | a file of exactly 5·1024·1024 bytes is accepted and one byte more is refused |
| Forms.ImageUrl | src/components/superAdmin/AdminTable.jsx:74-78 | null for a missing or empty image; an address starting with 'http' is kept; otherwise the base text followed by the image path |
| Forms.ImageUrlKeepsPath | src/components/superAdmin/AdminTable.jsx:74-78 | for every base and non-empty image, the address ends with the image path; a relative path gives the base text followed by the path, so different relative paths get different addresses |
| Forms.MissingBaseIsUndefined | src/components/superAdmin/AdminTable.jsx:77 | with the base variable unset the address starts with the text 'undefined' |
| Forms.ProfileAvatar | src/components/admin/ProfileEditForm.jsx:120-131 | the local preview wins; otherwise the profile image address |
| Forms.SubmitProfile | src/components/admin/ProfileEditForm.jsx:48-75 | the form sends data exactly when the name, username, e-mail, department and job-role rules all hold; the sent data carries an image exactly when a file is selected |
| Forms.AstralCharacterCountsTwice | src/components/admin/ProfileEditForm.jsx:26 | one character outside the Basic Multilingual Plane counts as two units, so a single emoji passes the two-character minimum for a name |
| Forms.SubmittedProfileIsComplete | src/components/admin/ProfileEditForm.jsx:25-75 | whatever is sent has a valid name, username and e-mail, and only an acceptable image |
| Forms.SubmitAdmin | src/components/superAdmin/CreateAdminForm.jsx:37-59 | the form sends data exactly when all six field rules hold, the strong password included; the sent data carries an image exactly when a file is selected |
| Forms.SubmittedAdminIsComplete | src/components/superAdmin/CreateAdminForm.jsx:23-59 | whatever is sent carries a strong password and the status flag |
| Forms.EmptyAdminFormRefused | src/components/superAdmin/CreateAdminForm.jsx:38-47 | the initial form cannot be sent |
| Forms.LoginDisabled | src/pages/auth/LoginPage.jsx:200 | the login button is enabled exactly when not loading and the form is valid |
| Forms.LoginValid | src/pages/auth/LoginPage.jsx:24-32 | valid exactly when the e-mail or user name has at least 3 UTF-16 units and the password at least 6; `required` adds nothing beyond those minimums |
| Forms.ResetValid | src/pages/auth/ResetPasswordPage.jsx:24-35 | valid exactly when the password is strong and the confirmation equals it; swapping the two fields keeps a valid form valid |
| Forms.ResetDisabled | src/pages/auth/ResetPasswordPage.jsx:227 | the reset button is enabled exactly when not loading, valid and not yet successful |
| Forms.SubmitReset | src/pages/auth/ResetPasswordPage.jsx:24-64 | a request is sent exactly when the password is strong and confirmed; it goes to the token's reset address with both fields |
| Forms.UntouchedResetFormSendsNothing | src/pages/auth/ResetPasswordPage.jsx:53-69 | the untouched form's button is enabled, but submitting it sends nothing |
| Forms.SentResetIsConsistent | src/pages/auth/ResetPasswordPage.jsx:24-35 | every sent reset carries two equal passwords that the login form also accepts |
| Attendance.Step | src/components/attendance/AttendanceForm.jsx:45-134 | a located device fills in the office address; a fingerprint read verifies and stores the reading; closing resets everything; opening clears the location error |
| Attendance.EmployeeKey | src/components/attendance/AttendanceForm.jsx:101 | the employee's `_id`, falling back to `employeeId` |
| Attendance.Submit | src/components/attendance/AttendanceForm.jsx:89-125 | a falsy latitude or longitude (0 included) is refused first with 'Location is required', then a missing fingerprint; otherwise the body carries the location as check-in or check-out by kind, with the fingerprint and remarks |
| Attendance.SubmittedIsComplete | src/components/attendance/AttendanceForm.jsx:100-122 | a sent body comes only from a located, verified form and carries exactly one of the two locations |
| Attendance.SubmitDisabled | src/components/attendance/AttendanceForm.jsx:287 | the button is enabled exactly when not loading, the latitude is truthy and the fingerprint is verified |
| Attendance.EnabledButRefused | src/components/attendance/AttendanceForm.jsx:287 | with a longitude of 0, the enabled button still reports the location as missing |
| Attendance.EnabledSubmits | src/components/attendance/AttendanceForm.jsx:89-125 | with both coordinates truthy, an enabled button always submits |
| Attendance.ClosedFormStartsOver | src/components/attendance/AttendanceForm.jsx:127-134 | a closed and reopened form has forgotten the fingerprint, remarks and location, and refuses to submit |
| Attendance.Offered | src/pages/attendance/MarkAttendancePage.jsx:90-94 | check-out is offered exactly to employees with an open attendance |
| Attendance.Filtered | src/pages/attendance/MarkAttendancePage.jsx:51-54 | an employee is kept exactly when its lower-cased name or employee id contains the lower-cased term |
| Attendance.FilteredConcat | src/pages/attendance/MarkAttendancePage.jsx:51-54 | filtering keeps the original order: filtering a concatenation concatenates the filtered parts |
| Attendance.EmptySearchKeepsAll | src/pages/attendance/MarkAttendancePage.jsx:51-54 | the empty term keeps every employee, in order |
| Attendance.SearchIgnoresCase | src/pages/attendance/MarkAttendancePage.jsx:51-54 | lower-casing the term does not change the result |
| Attendance.PageStep | src/pages/attendance/MarkAttendancePage.jsx:26-49 | a click selects the employee with the offered action and opens the form. Check-in dispatches the data. Check-out dispatches it with the selected employee's attendance id, and nothing without a selection. Success and close clear the selection |
| Attendance.ClickThenSubmit | src/pages/attendance/MarkAttendancePage.jsx:35-47 | picking an employee and completing the form sends check-in, or check-out of their open attendance, with the location in the matching field and their key as `employeeId` |

## Left out

- I/O. These are parameters or are left out:
  - axios transport and timeouts, `console` output, `window.location`
    redirects, and navigation timers (the reset page's two-second
    redirect);
  - toasts and `alert` texts (the image alerts differ between the two
    forms), and Yup's validation messages;
  - `FileReader`, geolocation, and the bell's polling interval.
- Concurrency. Overlapping 401s that each refresh, and races between
  in-flight list requests, are not modelled.
- Library internals:
  - JSON serialisation of the stored user is the identity.
  - `URLSearchParams` percent-encoding and number-to-string conversion
    are not modelled; a query is an ordered list of typed pairs.
  - Yup's e-mail check is the abstract parameter `isEmail`.
  - Formik's touched bookkeeping is reduced to `Validation`: not yet
    validated, or validated with an error count.
- Randomness and floats. The simulated device id and match score are
  inputs. The fingerprint `template` string is not kept. Coordinates and
  accuracy are integers; only their falsy zero matters.
- Dates. Timestamps are integer milliseconds; date formatting and the
  attendance calendar are left out.
- Prototype keys are not modelled. The status-colour table and the
  route-name table are plain lookups, so a segment or status such as
  `constructor` is treated like any unknown one.
- The attendance slice of this snapshot defines only `reset`. The
  `markAttendance`/`markCheckout` thunks that MarkAttendancePage imports
  are not part of this model; the page's dispatch choice is modelled as
  written. The other slices with only a `reset` reducer (super-admin,
  notification, admin, fingerprint) and `store.js` and `adminService.js`
  are left out for the same reason.
- Display-only pages and components (layouts, header, sidebar, cards,
  dialogs, statistics pages) are left out. Their copies of `getAvatarUrl`
  are identical to AdminTable's and are modelled once as `Forms.ImageUrl`.
- Quirks that are modelled as written:
  - The interceptor reads `token` from the refresh answer, while
    `authService.refreshToken` reads `data.accessToken`.
  - A fulfilled login or refresh without data makes the reducer throw, so
    the state is unchanged (`AuthSlice.Reduce`).
  - `apiService.upload` always POSTs, so updating an admin is a POST.
  - The notification endpoints with fixed names share the per-id pattern
    (`Queries.FixedPathsShadowIds`).
  - The success effect of the admin management page does not close the
    details dialog.
  - A negative session duration renders as "-1m" rather than "-1h -1m".
  - The image limit is inclusive, although the alert says "less than
    5MB".
  - The attendance button tests only the latitude
    (`Attendance.EnabledButRefused`).
  - A refresh writes the new Bearer into the client's defaults, where it
    outlives a later logout (`Api.StaleBearerOutlivesSession`).
- Attendance.Filtered: `toLowerCase` is modelled on ASCII letters only, so
  a search folds 'É' to 'é' in JavaScript but not here. Unicode case
  tables are beyond this model.
- Breadcrumbs.RouteName: `toUpperCase` is modelled on ASCII letters only,
  for the same reason.
- Access.Resolve: percent-decoding of the path and of the `:token`
  parameter is not modelled; the token is the raw segment.
- Notifications.HasMore: states only the direction that matters to
  load-more. Both directions together would just restate the comparison.
- Attendance.PageStep: a check-out with no selected employee throws
  inside the handler's `try`, which is modelled as dispatching nothing.

## Findings

| source | as written | input that shows it | evidently intended | confidence | as-written member | corrected member |
|---|---|---|---|---|---|---|
| src/services/api.js:50 | the refresh call interpolates `REACT_APP_API_URL` directly, without the `'http://localhost:5000/api'` fallback every other call gets | `REACT_APP_API_URL` unset: the refresh goes to `undefined/auth/refresh-token` | refresh under the same base URL as the rest of the client | not executed | Api.RefreshUrlAsWrittenMissesDefault | Api.RefreshUrl |
| src/pages/auth/LoginPage.jsx:89-97 | the already-signed-in redirect tests only `isAuthenticated`, while the guards also require a user | a signed-in session whose `getMe` answer had no data (authSlice.js:214-217): `/login` sends to `/dashboard`, whose guard sends back to `/login` | redirect only when a user is present, as `RedirectRoot` does | not executed | Access.LoginRedirectAsWrittenLoops | Access.LoginRedirect |
| src/components/superAdmin/AdminTable.jsx:80-88 | empty data returns the placeholder before the filter controls are rendered (likewise AttendanceTable.jsx:59-65) | type a search term that matches no admin: the list is replaced by 'No admins found' and the search box disappears, so the term cannot be cleared | keep the filter controls above the empty placeholder | not executed | Paging.FilteredTableAsWrittenStrandsFilter | Paging.FilteredTable |
| src/pages/auth/LoginPage.jsx:66-76 | the post-login navigation tests `isSuccess && isAuthenticated`, not the user | a successful login followed by a data-less `getMe` answer: the page navigates to `/dashboard`, whose guard sends back to `/login` | navigate only when a user is present, as the root redirect does | not executed | Access.AfterLoginTargetAsWrittenLoops | Access.AfterLoginTargetCorrected |

=== FILE: access.dfy ===
/** Access decisions: the role predicates of the auth hook, the two route
    guards, the route table with its root redirect and catch-all, the login
    page's role-based redirect and the logout handler's navigation. */
module Access {
  import opened JsCore
  import opened Records
  import opened Storage
  import Api
  import AuthService
  import opened AuthSlice

  const SuperAdminRole: string := "superadmin"
  const AdminRole: string := "admin"

  const LoginRoute: string := "/login"
  const ForgotPasswordRoute: string := "/forgot-password"
  const ResetPasswordPrefix: string := "/reset-password/"
  const DashboardRoute: string := "/dashboard"
  const SuperAdminDashboardRoute: string := "/super-admin/dashboard"
  const RootRoute: string := "/"

  /** `user?.role === 'superadmin'`. */
  predicate IsSuperAdmin(user: Option<User>) {
    user.Some? && user.value.role == SuperAdminRole
  }

  /** `user?.role === 'admin' || user?.role === 'superadmin'`. */
  predicate IsAdmin(user: Option<User>) {
    user.Some? && (user.value.role == AdminRole || user.value.role == SuperAdminRole)
  }

  lemma SuperAdminIsAdmin(user: Option<User>)
    ensures IsSuperAdmin(user) ==> IsAdmin(user)
    ensures user.None? ==> !IsSuperAdmin(user) && !IsAdmin(user)
    ensures IsAdmin(user) && !IsSuperAdmin(user) ==> user.value.role == AdminRole
  {
  }

  /** A guard either renders the nested route or redirects. */
  datatype GuardResult = Outlet | Redirect(to: string)

  /** `PrivateRoute`: signed in with a user, whatever the role. */
  function PrivateGuard(s: AuthState): (g: GuardResult)
    ensures g.Outlet? <==> s.isAuthenticated && s.user.Some?
    ensures g.Redirect? ==> g.to == LoginRoute
  {
    if !s.isAuthenticated || s.user.None? then Redirect(LoginRoute) else Outlet
  }

  /** `SuperAdminRoute`: signed in with a user whose role is exactly
      `superadmin`; other signed-in roles go to the admin dashboard. */
  function SuperAdminGuard(s: AuthState): (g: GuardResult)
    ensures g.Outlet? <==> s.isAuthenticated && IsSuperAdmin(s.user)
    ensures g == Redirect(LoginRoute) <==> !s.isAuthenticated || s.user.None?
    ensures g == Redirect(DashboardRoute) <==> s.isAuthenticated && s.user.Some? && !IsSuperAdmin(s.user)
  {
    if !s.isAuthenticated || s.user.None? then Redirect(LoginRoute)
    else if s.user.value.role != SuperAdminRole then Redirect(DashboardRoute)
    else Outlet
  }

  /** Whoever passes the super-admin guard passes the private guard. */
  lemma SuperAdminGuardImpliesPrivate(s: AuthState)
    ensures SuperAdminGuard(s).Outlet? ==> PrivateGuard(s).Outlet?
  {
  }

  /** The private guard never looks at the role. */
  lemma PrivateGuardIgnoresRole(s: AuthState, role: string)
    requires s.user.Some?
    ensures PrivateGuard(s.(user := Some(s.user.value.(role := role)))) == PrivateGuard(s)
  {
  }

  /** `RedirectRoot`. */
  function RootTarget(s: AuthState): (to: string)
    ensures to == SuperAdminDashboardRoute <==> s.isAuthenticated && IsSuperAdmin(s.user)
    ensures to == DashboardRoute <==> s.isAuthenticated && s.user.Some? && !IsSuperAdmin(s.user)
    ensures to == LoginRoute <==> !s.isAuthenticated || s.user.None?
  {
    if s.isAuthenticated && s.user.Some? then
      if s.user.value.role == SuperAdminRole then SuperAdminDashboardRoute else DashboardRoute
    else LoginRoute
  }

  /** What a path renders. */
  datatype Screen =
    | Navigate(to: string)
    | LoginPage
    | ForgotPasswordPage
    | ResetPasswordPage(token: string)
    | DashboardPage
    | SuperAdminDashboardPage

  /** The path with every trailing '/' removed. */
  function TrimSlashes(path: string): (t: string)
    ensures |t| <= |path| && t == path[..|t|]
    ensures t == "" || t[|t| - 1] != '/'
    ensures forall i :: |t| <= i < |path| ==> path[i] == '/'
    decreases |path|
  {
    if |path| > 0 && path[|path| - 1] == '/' then TrimSlashes(path[..|path| - 1]) else path
  }

  const FixedRoutes: set<string> :=
    {RootRoute, LoginRoute, ForgotPasswordRoute, DashboardRoute, SuperAdminDashboardRoute}

  /** The form in which React Router compares a path with the fixed routes.
      Each route pattern is compiled to a case-insensitive regular
      expression that accepts any number of slashes before the end, so
      trailing slashes are dropped and letters compared without case, and
      a path of slashes only is the root. The
      `i` flag without `u` never folds a non-ASCII character onto an ASCII
      one, so ASCII folding is exact against these all-ASCII routes. */
  function RouteKey(path: string): (k: string)
    ensures path in FixedRoutes ==> k == path
  {
    FixedRoutesAreOwnKeys(path);
    var t := TrimSlashes(path);
    if t == "" then RootRoute else ToLower(t)
  }

  lemma FixedRoutesAreOwnKeys(path: string)
    ensures path in FixedRoutes && path != RootRoute ==>
              TrimSlashes(path) == path && path != "" && ToLower(path) == path
    ensures path == RootRoute ==> TrimSlashes(path) == ""
  {
    if path in FixedRoutes && path != RootRoute {
      assert path[|path| - 1] != '/';
      ToLowerOfLower(path);
    }
    if path == RootRoute {
      assert TrimSlashes(path) == TrimSlashes("");
    }
  }

  /** `/reset-password/:token`: the prefix in any case, then one non-empty
      segment, then any number of slashes. */
  predicate IsResetPasswordPath(path: string) {
    var t := TrimSlashes(path);
    && |t| > |ResetPasswordPrefix|
    && ToLower(t[..|ResetPasswordPrefix|]) == ResetPasswordPrefix
    && '/' !in t[|ResetPasswordPrefix|..]
  }

  /** The `:token` parameter, with its case kept. */
  function ResetToken(path: string): (token: string)
    requires IsResetPasswordPath(path)
    ensures token != "" && '/' !in token
  {
    TrimSlashes(path)[|ResetPasswordPrefix|..]
  }

  /** A reset-password path is none of the fixed routes. */
  lemma {:induction false} ResetPathIsNoOtherRoute(path: string)
    requires IsResetPasswordPath(path)
    ensures RouteKey(path) !in FixedRoutes
  {
    var t := TrimSlashes(path);
    var k := RouteKey(path);
    assert k == ToLower(t);
    assert k[1] == ToLower(t[..|ResetPasswordPrefix|])[1] == 'r';
    assert |k| > |ResetPasswordPrefix|;
  }

  /** The route table, with each guard applied to its nested routes. */
  function Resolve(path: string, s: AuthState): (sc: Screen)
    ensures RouteKey(path) == RootRoute ==> sc == Navigate(RootTarget(s))
    ensures RouteKey(path) == LoginRoute ==> sc == LoginPage
    ensures RouteKey(path) == ForgotPasswordRoute ==> sc == ForgotPasswordPage
    ensures RouteKey(path) == DashboardRoute ==>
              (if PrivateGuard(s).Outlet? then sc == DashboardPage else sc == Navigate(PrivateGuard(s).to))
    ensures RouteKey(path) == SuperAdminDashboardRoute ==>
              (if SuperAdminGuard(s).Outlet? then sc == SuperAdminDashboardPage
               else sc == Navigate(SuperAdminGuard(s).to))
    ensures IsResetPasswordPath(path) ==> sc == ResetPasswordPage(ResetToken(path))
    ensures RouteKey(path) !in FixedRoutes && !IsResetPasswordPath(path) ==> sc == Navigate(RootRoute)
    ensures sc.ResetPasswordPage? ==> sc.token != "" && '/' !in sc.token
  {
    var key := RouteKey(path);
    if key == RootRoute then Navigate(RootTarget(s))
    else if key == LoginRoute then LoginPage
    else if key == ForgotPasswordRoute then ForgotPasswordPage
    else if IsResetPasswordPath(path) then
      ResetPathIsNoOtherRoute(path);
      ResetPasswordPage(ResetToken(path))
    else if key == DashboardRoute then
      match PrivateGuard(s)
      case Outlet => DashboardPage
      case Redirect(to) => Navigate(to)
    else if key == SuperAdminDashboardRoute then
      match SuperAdminGuard(s)
      case Outlet => SuperAdminDashboardPage
      case Redirect(to) => Navigate(to)
    else Navigate(RootRoute)
  }

  /** A trailing slash never changes what a path renders. */
  lemma TrailingSlashIgnored(path: string, s: AuthState)
    ensures Resolve(path + "/", s) == Resolve(path, s)
  {
    assert (path + "/")[..|path|] == path;
    assert TrimSlashes(path + "/") == TrimSlashes(path);
  }

  /** The login page answers to its path with a trailing slash and in
      capitals too. */
  lemma LoginRouteIsLenient(s: AuthState)
    ensures Resolve("/login/", s) == LoginPage
    ensures Resolve("/LOGIN", s) == LoginPage
  {
    TrailingSlashIgnored(LoginRoute, s);
    var upper := "/LOGIN";
    assert upper[|upper| - 1] == 'N';
    assert TrimSlashes(upper) == upper;
    assert ToLower(upper) == LoginRoute;
    assert RouteKey(upper) == LoginRoute;
  }

  /** Lower-casing commutes with dropping trailing slashes. */
  lemma {:induction false} TrimSlashesLower(path: string)
    ensures TrimSlashes(ToLower(path)) == ToLower(TrimSlashes(path))
    decreases |path|
  {
    var low := ToLower(path);
    if |path| > 0 && path[|path| - 1] == '/' {
      assert low[..|path| - 1] == ToLower(path[..|path| - 1]);
      TrimSlashesLower(path[..|path| - 1]);
    } else if |path| > 0 {
      assert low[|low| - 1] == LowerChar(path[|path| - 1]) != '/';
    }
  }

  /** The route key of a path does not depend on its letter case. */
  lemma {:induction false} RouteKeyIgnoresCase(path: string)
    ensures RouteKey(ToLower(path)) == RouteKey(path)
  {
    TrimSlashesLower(path);
    ToLowerIdempotent(TrimSlashes(path));
  }

  /** Nor does the reset-password test; the token is lower-cased with the
      path. */
  lemma {:induction false} ResetTestIgnoresCase(path: string)
    ensures IsResetPasswordPath(ToLower(path)) <==> IsResetPasswordPath(path)
    ensures IsResetPasswordPath(path) ==> ResetToken(ToLower(path)) == ToLower(ResetToken(path))
  {
    var t := TrimSlashes(path);
    TrimSlashesLower(path);
    var t' := TrimSlashes(ToLower(path));
    var n := |ResetPasswordPrefix|;
    if |t| > n {
      assert t'[..n] == ToLower(t[..n]);
      ToLowerIdempotent(t[..n]);
      assert t'[n..] == ToLower(t[n..]);
      forall i | 0 <= i < |t| - n
        ensures t'[n..][i] == '/' <==> t[n..][i] == '/'
      {
      }
      assert ('/' in t'[n..]) <==> ('/' in t[n..]);
    }
  }

  /** Letter case never changes what a path renders, except that a reset
      token arrives lower-cased when the whole path was. */
  lemma CaseIgnored(path: string, s: AuthState)
    ensures !IsResetPasswordPath(path) ==> Resolve(ToLower(path), s) == Resolve(path, s)
    ensures IsResetPasswordPath(path) ==>
              Resolve(ToLower(path), s) == ResetPasswordPage(ToLower(ResetToken(path)))
  {
    RouteKeyIgnoresCase(path);
    ResetTestIgnoresCase(path);
  }

  /** A reset link built from a single-segment token is routed to the
      reset page with exactly that token. */
  lemma {:induction false} ResetLinkRoundTrip(token: string)
    requires token != "" && '/' !in token
    ensures IsResetPasswordPath(ResetPasswordPrefix + token)
    ensures ResetToken(ResetPasswordPrefix + token) == token
  {
    var p := ResetPasswordPrefix + token;
    assert p[|p| - 1] == token[|token| - 1];
    assert TrimSlashes(p) == p;
    assert p[..|ResetPasswordPrefix|] == ResetPasswordPrefix;
    ToLowerOfLower(ResetPasswordPrefix);
    assert p[|ResetPasswordPrefix|..] == token;
  }

  /** A reset link with a trailing slash still carries its token. */
  lemma ResetRouteIsLenient(s: AuthState)
    ensures Resolve("/reset-password/abc/", s) == ResetPasswordPage("abc")
  {
    var r := ResetPasswordPrefix + "abc";
    ResetLinkRoundTrip("abc");
    TrailingSlashIgnored(r, s);
    assert r + "/" == "/reset-password/abc/";
  }

  /** Follows redirects, at most `hops` of them. */
  function Settle(path: string, s: AuthState, hops: nat): Screen
    decreases hops
  {
    var sc := Resolve(path, s);
    if sc.Navigate? && hops > 0 then Settle(sc.to, s, hops - 1) else sc
  }

  /** The root redirect is never chained: its target renders a page at once. */
  lemma {:induction false} RootTargetRenders(s: AuthState)
    ensures !Resolve(RootTarget(s), s).Navigate?
  {
    if s.isAuthenticated && s.user.Some? {
      if s.user.value.role == SuperAdminRole {
        assert SuperAdminGuard(s).Outlet?;
      } else {
        assert PrivateGuard(s).Outlet?;
      }
    }
  }

  /** Every path ends on a page within three redirects: an unknown path
      goes to the root, the root to its target, and a guard either admits or
      sends the visitor to a page that is not guarded. */
  lemma {:induction false} EveryPathSettles(path: string, s: AuthState)
    ensures !Settle(path, s, 3).Navigate?
  {
    var sc := Resolve(path, s);
    if sc.Navigate? {
      assert sc.to in {RootRoute, LoginRoute, DashboardRoute, SuperAdminDashboardRoute};
      SettleFromTarget(sc.to, s);
    }
  }

  lemma {:induction false} SettleFromTarget(path: string, s: AuthState)
    requires path in {RootRoute, LoginRoute, DashboardRoute, SuperAdminDashboardRoute}
    ensures !Settle(path, s, 2).Navigate?
  {
    if path == SuperAdminDashboardRoute {
      var sc := Resolve(path, s);
      if sc.Navigate? {
        if sc.to == LoginRoute {
          assert Settle(LoginRoute, s, 1) == LoginPage;
        } else {
          assert sc.to == DashboardRoute && PrivateGuard(s).Outlet?;
          assert Settle(DashboardRoute, s, 1) == DashboardPage;
        }
      }
    } else
    if path == RootRoute {
      RootTargetRenders(s);
      assert !Resolve(RootTarget(s), s).Navigate?;
      assert Settle(RootTarget(s), s, 1) == Resolve(RootTarget(s), s);
    } else if path == DashboardRoute {
      var sc := Resolve(path, s);
      if sc.Navigate? {
        assert sc.to == LoginRoute;
        assert Settle(LoginRoute, s, 1) == LoginPage;
      }
    }
  }

  /** The login page's redirect for a signed-in visitor, as written: it asks
      only `isAuthenticated` and then `isSuperAdmin()`, so a signed-in state
      without a user is sent to the admin dashboard. */
  function LoginRedirectAsWritten(s: AuthState): (r: Option<string>)
    ensures r.Some? <==> s.isAuthenticated
    ensures r.Some? ==> (r.value == SuperAdminDashboardRoute <==> IsSuperAdmin(s.user))
    ensures r.Some? ==> r.value in {SuperAdminDashboardRoute, DashboardRoute}
    ensures s.isSuccess ==> r == AfterLoginTarget(s)
  {
    if s.isAuthenticated then
      Some(if IsSuperAdmin(s.user) then SuperAdminDashboardRoute else DashboardRoute)
    else None
  }

  /** In the state a data-less `getMe` answer leaves behind, the login page
      sends the visitor to `/dashboard`, whose guard sends them back to
      `/login`: the two redirects chase each other. */
  lemma LoginRedirectAsWrittenLoops(s: AuthState)
    requires s.isAuthenticated
    ensures var bad := Reduce(s, GetMeFulfilled(None));
            && LoginRedirectAsWritten(bad) == Some(DashboardRoute)
            && Resolve(DashboardRoute, bad) == Navigate(LoginRoute)
            && Resolve(LoginRoute, bad) == LoginPage
  {
  }

  /** The login page's redirect with the same test as the root redirect:
      a signed-in visitor with a user goes where the root would send them. */
  function LoginRedirect(s: AuthState): (r: Option<string>)
    ensures r.Some? <==> s.isAuthenticated && s.user.Some?
    ensures r.Some? ==> r.value == RootTarget(s)
    ensures r.Some? ==> (r.value == SuperAdminDashboardRoute <==> IsSuperAdmin(s.user))
  {
    if s.isAuthenticated && s.user.Some? then
      Some(if IsSuperAdmin(s.user) then SuperAdminDashboardRoute else DashboardRoute)
    else None
  }

  /** Wherever the login page sends a visitor, the target renders a page. */
  lemma LoginRedirectRenders(s: AuthState)
    ensures LoginRedirect(s).Some? ==> !Resolve(LoginRedirect(s).value, s).Navigate?
  {
    if LoginRedirect(s).Some? {
      RootTargetRenders(s);
    }
  }

  /** For a state with a user the two versions agree. */
  lemma LoginRedirectAgreesWithUser(s: AuthState)
    requires s.user.Some?
    ensures LoginRedirectAsWritten(s) == LoginRedirect(s)
  {
  }

  /** The login page's post-login effect as written: it fires on
      `isSuccess && isAuthenticated` and sends a super-admin to the
      super-admin dashboard and everyone else, a visitor without a user
      included, to `/dashboard`. */
  function AfterLoginTarget(s: AuthState): (r: Option<string>)
    ensures r.Some? <==> s.isSuccess && s.isAuthenticated
    ensures r.Some? ==> (r.value == SuperAdminDashboardRoute <==> IsSuperAdmin(s.user))
    ensures r.Some? ==> r.value in {SuperAdminDashboardRoute, DashboardRoute}
  {
    if s.isSuccess && s.isAuthenticated then
      Some(if IsSuperAdmin(s.user) then SuperAdminDashboardRoute else DashboardRoute)
    else None
  }

  /** The post-login effect with the corrected test: it fires only when a
      user is present, and then goes where the root redirect would. */
  function AfterLoginTargetCorrected(s: AuthState): (r: Option<string>)
    ensures r.Some? <==> s.isSuccess && s.isAuthenticated && s.user.Some?
    ensures r.Some? ==> r.value == RootTarget(s)
  {
    if s.isSuccess then LoginRedirect(s) else None
  }

  /** Right after a successful login the effect sends the visitor to the
      dashboard of their role, which renders; the written and corrected
      effects agree there. */
  lemma AfterLoginSettles(s: AuthState, d: AuthService.LoginData)
    ensures var t := Reduce(s, LoginFulfilled(Some(d)));
            && AfterLoginTarget(t) == AfterLoginTargetCorrected(t)
            && AfterLoginTarget(t) == Some(RootTarget(t))
            && (AfterLoginTarget(t) == Some(SuperAdminDashboardRoute) <==> d.admin.role == SuperAdminRole)
            && !Resolve(AfterLoginTarget(t).value, t).Navigate?
  {
  }

  /** Whenever a user is present the written and corrected effects agree. */
  lemma AfterLoginTargetAgreesWithUser(s: AuthState)
    requires s.user.Some?
    ensures AfterLoginTarget(s) == AfterLoginTargetCorrected(s)
  {
  }

  /** A login followed by a `getMe` answer without data leaves a successful,
      signed-in state without a user: the written effect sends the visitor to
      `/dashboard`, whose guard sends them back to `/login`, while the
      corrected effect stays put. */
  lemma AfterLoginTargetAsWrittenLoops(s: AuthState, d: AuthService.LoginData)
    ensures var bad := Reduce(Reduce(s, LoginFulfilled(Some(d))), GetMeFulfilled(None));
            && AfterLoginTarget(bad) == Some(DashboardRoute)
            && Resolve(DashboardRoute, bad) == Navigate(LoginRoute)
            && AfterLoginTargetCorrected(bad).None?
  {
  }

  /** A navigation: target and whether it replaces the history entry. */
  datatype Navigation = Navigation(to: string, replace: bool)

  /** `handleLogout`: the logout thunk runs (pending, then fulfilled or
      rejected after the service cleared storage) and the visitor is sent to
      `/login` either way. */
  function HandleLogout(s: AuthState, st: Store, call: AuthService.Call<bool>): (r: (AuthState, Store, Navigation))
    ensures r.2 == Navigation(LoginRoute, true)
    ensures SessionCleared(r.0) && !r.0.isLoading
    ensures !AuthService.IsAuthenticated(r.1)
    ensures forall k :: k in SessionKeys ==> k !in r.1
    ensures call.Failed? ==> r.0.isError && r.0.message == RejectValue(Api.Normalized(call.error), Fallback(LogoutThunk))
    ensures call.Answered? ==> r.0.isSuccess && r.0.message == s.message
  {
    var pending := Reduce(s, LogoutPending);
    var eff := AuthService.Logout(st, call);
    var done := match eff.outcome
      case Returned(_) => Reduce(pending, LogoutFulfilled)
      case Threw(e) => Reduce(pending, RejectedAction(LogoutThunk, Api.Normalized(e)));
    (done, eff.store, Navigation(LoginRoute, true))
  }

  /** After logging out, the visitor lands on the login page and stays there. */
  lemma LogoutLandsOnLogin(s: AuthState, st: Store, call: AuthService.Call<bool>)
    ensures var r := HandleLogout(s, st, call);
            && Resolve(r.2.to, r.0) == LoginPage
            && LoginRedirect(r.0).None?
            && Resolve(DashboardRoute, r.0) == Navigate(LoginRoute)
  {
  }
}

=== FILE: api.dfy ===
/** The shared HTTP client: the request interceptor that attaches the bearer
    token, the response interceptor that refreshes an expired token once and
    replays the request, error normalisation, and the upload headers.
    The backend and the refresh endpoint are parameters. */
module Api {
  import opened JsCore
  import opened Storage

  const Authorization: string := "Authorization"
  const ContentType: string := "Content-Type"
  const DefaultApiUrl: string := "http://localhost:5000/api"
  const RefreshPath: string := "/auth/refresh-token"
  const UnexpectedError: string := "An unexpected error occurred"

  function Bearer(token: string): string {
    "Bearer " + token
  }

  /** An outgoing request; `retry` is the `_retry` flag on its config. */
  datatype Request = Request(url: string, headers: map<string, string>, retry: bool)

  /** The body of an error response (`error.response.data`). */
  datatype ErrorBody = ErrorBody(message: Option<string>)

  /** A failed call as axios reports it: `status` and `body` are missing when
      there was no response at all. */
  datatype HttpError = HttpError(
    status: Option<int>,
    body: Option<ErrorBody>,
    message: Option<string>,
    config: Request)

  /** The normalised failure every caller sees: `{message, status, data}`. */
  datatype ApiError = ApiError(message: string, status: Option<int>, data: Option<ErrorBody>)

  /** What the backend answers to one request. */
  datatype Reply =
    | Ok(body: string)
    | Err(status: Option<int>, errorBody: Option<ErrorBody>, errorMessage: Option<string>)

  /** What the refresh endpoint does: throws, or answers with a body whose
      `token` field may be missing. */
  datatype RefreshReply = RefreshThrew(error: HttpError) | RefreshAnswered(token: Option<string>)

  /** Why a call was rejected: a normalised error, or the refresh error as thrown. */
  datatype Rejection = Normalized(apiError: ApiError) | Raw(thrown: HttpError)

  /** `process.env.REACT_APP_API_URL || 'http://localhost:5000/api'`. */
  function BaseUrl(env: Option<string>): (u: string)
    ensures Present(env) ==> u == env.value
    ensures !Present(env) ==> u == DefaultApiUrl
  {
    OrElse(env, DefaultApiUrl)
  }

  /** The refresh URL as the interceptor writes it: the environment value is
      interpolated directly, so a missing one becomes the text `undefined`. */
  function RefreshUrlAsWritten(env: Option<string>): (u: string)
    ensures |u| >= |RefreshPath| && u[|u| - |RefreshPath|..] == RefreshPath
    ensures Present(env) ==> u == RefreshUrl(env)
    ensures env == Some("") ==> u == RefreshPath
    ensures env.None? ==> u == "undefined" + RefreshPath
  {
    (if env.Some? then env.value else "undefined") + RefreshPath
  }

  /** The refresh endpoint under the same base URL as every other call. */
  function RefreshUrl(env: Option<string>): (u: string)
    ensures StartsWith(u, BaseUrl(env))
    ensures u[|BaseUrl(env)|..] == RefreshPath
  {
    BaseUrl(env) + RefreshPath
  }

  /** With `REACT_APP_API_URL` unset the refresh call misses the API the other
      calls go to. */
  lemma RefreshUrlAsWrittenMissesDefault()
    ensures RefreshUrlAsWritten(None) != RefreshUrl(None)
  {
    assert RefreshUrlAsWritten(None)[0] == 'u';
    assert RefreshUrl(None)[0] == 'h';
  }

  /** When the variable is set to a non-empty value the two agree. */
  lemma RefreshUrlAgreesWhenConfigured(env: Option<string>)
    requires Present(env)
    ensures RefreshUrlAsWritten(env) == RefreshUrl(env)
  {
  }

  /** The instance's default headers as `axios.create` sets them. A
      successful refresh later adds an `Authorization` entry, which stays
      for the life of the page. */
  const InitialDefaults: map<string, string> := map[ContentType := "application/json"]

  /** Request interceptor. axios first merges the client's default headers
      under the request's own, then the interceptor sets
      `Authorization: Bearer <token>` when a non-empty token is stored.
      Without one, whatever `Authorization` the merge produced goes out
      unchanged, a default left by an earlier refresh included. */
  function AttachToken(st: Store, defaults: map<string, string>, req: Request): (r: Request)
    ensures r.url == req.url && r.retry == req.retry
    ensures forall k :: k != Authorization ==> (k in r.headers <==> k in req.headers || k in defaults)
    ensures forall k :: k != Authorization && k in req.headers ==> r.headers[k] == req.headers[k]
    ensures forall k :: k != Authorization && k !in req.headers && k in defaults ==> r.headers[k] == defaults[k]
    ensures Present(StoredToken(st)) ==>
              Authorization in r.headers && r.headers[Authorization] == Bearer(StoredToken(st).value)
    ensures !Present(StoredToken(st)) ==>
              (Authorization in r.headers <==> Authorization in req.headers || Authorization in defaults)
    ensures !Present(StoredToken(st)) && Authorization in req.headers ==>
              r.headers[Authorization] == req.headers[Authorization]
    ensures !Present(StoredToken(st)) && Authorization !in req.headers && Authorization in defaults ==>
              r.headers[Authorization] == defaults[Authorization]
  {
    var merged := defaults + req.headers;
    var token := StoredToken(st);
    if Present(token) then req.(headers := merged[Authorization := Bearer(token.value)])
    else req.(headers := merged)
  }

  /** Attaching twice changes nothing more: a request the interceptor has
      seen already goes out as it is, so a replay is not altered by being
      passed through the client again. */
  lemma AttachTokenIdempotent(st: Store, defaults: map<string, string>, req: Request)
    ensures AttachToken(st, defaults, AttachToken(st, defaults, req)) == AttachToken(st, defaults, req)
  {
    var once := AttachToken(st, defaults, req);
    var twice := AttachToken(st, defaults, once);
    assert twice.headers.Keys == once.headers.Keys;
    assert forall k :: k in once.headers ==> twice.headers[k] == once.headers[k];
  }

  /** While a token is stored, the header sent does not depend on the
      defaults or on the caller's own `Authorization`. */
  lemma StoredTokenDecides(st: Store, d1: map<string, string>, d2: map<string, string>, r1: Request, r2: Request)
    requires Present(StoredToken(st))
    ensures AttachToken(st, d1, r1).headers[Authorization] == AttachToken(st, d2, r2).headers[Authorization]
  {
  }

  /** The message of a normalised error: the server's message, else the
      transport message, else a fixed fallback. */
  function ErrorMessage(e: HttpError): (m: string)
    ensures m != ""
    ensures e.body.Some? && Present(e.body.value.message) ==> m == e.body.value.message.value
    ensures !(e.body.Some? && Present(e.body.value.message)) && Present(e.message) ==> m == e.message.value
    ensures !(e.body.Some? && Present(e.body.value.message)) && !Present(e.message) ==> m == UnexpectedError
  {
    if e.body.Some? && Present(e.body.value.message) then e.body.value.message.value
    else OrElse(e.message, UnexpectedError)
  }

  /** Error normalisation: `{message, status, data}` built from the failure. */
  function Normalize(e: HttpError): (r: ApiError)
    ensures r.message != "" && r.message == ErrorMessage(e)
    ensures r.status == e.status && r.data == e.body
  {
    ApiError(ErrorMessage(e), e.status, e.body)
  }

  /** The interceptor's verdict on one failed call. */
  datatype Handling =
    | Replay(request: Request, store: Store, defaults: map<string, string>)
    | Reject(reason: Rejection, store: Store, toLogin: bool, refreshed: bool)

  /** The refresh is attempted only for a 401 on a request not yet retried. */
  function ShouldRefresh(e: HttpError): (b: bool)
    ensures b ==> e.status == Some(401)
    ensures e.config.retry ==> !b
    ensures e.status == Some(401) && !e.config.retry ==> b
  {
    e.status == Some(401) && !e.config.retry
  }

  /** Response interceptor for a failed call. `refresh` is what the refresh
      endpoint would answer; it is consulted only when a refresh token is
      stored. A refresh that answers with a token stores it, makes it the
      client's default `Authorization` and replays the request under it. A
      refresh that throws clears the session and rejects with the refresh
      error; a missing refresh token or a refresh answer without a token
      falls through to normal rejection and keeps storage as it is. */
  function OnError(st: Store, defaults: map<string, string>, e: HttpError, refresh: RefreshReply): (h: Handling)
    ensures h.Replay? ==> ShouldRefresh(e) && h.request.retry
    ensures h.Replay? ==> h.request.url == e.config.url
    ensures h.Replay? ==>
              refresh.RefreshAnswered? && Present(refresh.token)
              && h.store == st[TokenKey := Text(refresh.token.value)]
              && h.defaults == defaults[Authorization := Bearer(refresh.token.value)]
              && Authorization in h.request.headers
              && h.request.headers[Authorization] == Bearer(refresh.token.value)
    ensures h.Reject? && h.reason.Raw? ==>
              ShouldRefresh(e) && refresh.RefreshThrew? && h.reason.thrown == refresh.error
              && h.store == ClearSession(st) && h.toLogin
    ensures h.Reject? && h.reason.Normalized? ==>
              h.reason.apiError == Normalize(e) && h.store == st && !h.toLogin
    ensures !ShouldRefresh(e) ==> h == Reject(Normalized(Normalize(e)), st, false, false)
    ensures !Present(GetText(st, RefreshTokenKey)) ==> h == Reject(Normalized(Normalize(e)), st, false, false)
    ensures h.Reject? ==> (h.refreshed <==> ShouldRefresh(e) && Present(GetText(st, RefreshTokenKey)))
    ensures ShouldRefresh(e) && Present(GetText(st, RefreshTokenKey)) && refresh.RefreshThrew? ==>
              h == Reject(Raw(refresh.error), ClearSession(st), true, true)
    ensures ShouldRefresh(e) && Present(GetText(st, RefreshTokenKey)) && refresh.RefreshAnswered? && Present(refresh.token) ==>
              h.Replay?
    ensures ShouldRefresh(e) && Present(GetText(st, RefreshTokenKey)) && refresh.RefreshAnswered? && !Present(refresh.token) ==>
              h == Reject(Normalized(Normalize(e)), st, false, true)
  {
    if ShouldRefresh(e) && Present(GetText(st, RefreshTokenKey)) then
      var cfg := e.config.(retry := true);
      match refresh
      case RefreshThrew(re) => Reject(Raw(re), ClearSession(st), true, true)
      case RefreshAnswered(token) =>
        if Present(token) then
          Replay(cfg.(headers := cfg.headers[Authorization := Bearer(token.value)]),
                 st[TokenKey := Text(token.value)],
                 defaults[Authorization := Bearer(token.value)])
        else Reject(Normalized(Normalize(e)), st, false, true)
    else Reject(Normalized(Normalize(e)), st, false, false)
  }

  /** The default header a refresh leaves behind outlives the session: once
      the session is cleared, a request without its own `Authorization`
      still carries the refreshed bearer. */
  lemma StaleBearerOutlivesSession(st: Store, defaults: map<string, string>, e: HttpError, token: string, req: Request)
    requires ShouldRefresh(e) && Present(GetText(st, RefreshTokenKey)) && token != ""
    requires Authorization !in req.headers
    ensures var h := OnError(st, defaults, e, RefreshAnswered(Some(token)));
            && h.Replay?
            && !Present(StoredToken(ClearSession(h.store)))
            && AttachToken(ClearSession(h.store), h.defaults, req).headers[Authorization] == Bearer(token)
  {
  }

  /** The outcome of a whole call as its caller sees it. */
  datatype CallResult = Resolved(body: string) | Rejected(reason: Rejection)

  /** What the caller sees when `reply` is the last answer to `out`: its body,
      or its error normalised. */
  function Outcome(out: Request, reply: Reply): (c: CallResult)
    ensures c.Resolved? <==> reply.Ok?
    ensures c.Resolved? ==> c.body == reply.body
    ensures c.Rejected? ==>
              c.reason.Normalized? && c.reason.apiError.status == reply.status && c.reason.apiError.data == reply.errorBody
              && c.reason.apiError.message != ""
  {
    match reply
    case Ok(body) => Resolved(body)
    case Err(status, errorBody, errorMessage) => Rejected(Normalized(Normalize(HttpError(status, errorBody, errorMessage, out))))
  }

  /** Every request put on the wire, the number of refresh calls made, the
      outcome and the storage afterwards. */
  datatype Trace = Trace(sent: seq<Request>, refreshes: nat, result: CallResult, store: Store, defaults: map<string, string>)

  /** One call through the client, replays included. `server` answers each
      request put on the wire; `refresher` answers the refresh call for the
      stored refresh token. Because a replayed request carries the `_retry`
      flag, the call sends at most two requests and refreshes at most once. */
  function Send(st: Store, defaults: map<string, string>, req: Request,
                server: Request -> Reply, refresher: string -> RefreshReply): (t: Trace)
    decreases if req.retry then 0 else 1
    ensures 1 <= |t.sent| <= 2
    ensures t.sent[0] == AttachToken(st, defaults, req)
    ensures t.refreshes <= 1 && |t.sent| <= 1 + t.refreshes
    ensures req.retry ==> |t.sent| == 1 && t.refreshes == 0
    ensures |t.sent| == 1 ==> t.defaults == defaults
    ensures |t.sent| == 2 ==>
              server(t.sent[0]).Err? && server(t.sent[0]).status == Some(401)
              && t.sent[1].retry && t.sent[1].url == req.url
              && Present(StoredToken(t.store))
              && Authorization in t.sent[1].headers
              && t.sent[1].headers[Authorization] == Bearer(StoredToken(t.store).value)
              && t.defaults == defaults[Authorization := Bearer(StoredToken(t.store).value)]
    ensures t.result.Resolved? ==> server(t.sent[|t.sent| - 1]) == Ok(t.result.body)
    ensures t.result.Rejected? && t.result.reason.Raw? ==>
              |t.sent| == 1 && t.refreshes == 1 && t.store == ClearSession(st)
    ensures !Present(GetText(st, RefreshTokenKey)) ==> t.store == st && |t.sent| == 1 && t.refreshes == 0
    ensures t.result.Resolved? || t.result.reason.Normalized? ==> t.result == Outcome(t.sent[|t.sent| - 1], server(t.sent[|t.sent| - 1]))
  {
    var out := AttachToken(st, defaults, req);
    match server(out)
    case Ok(body) => Trace([out], 0, Resolved(body), st, defaults)
    case Err(status, errorBody, errorMessage) =>
      var e := HttpError(status, errorBody, errorMessage, out);
      var rt := GetText(st, RefreshTokenKey);
      var h := OnError(st, defaults, e, if rt.Some? then refresher(rt.value) else RefreshAnswered(None));
      match h
      case Replay(next, st', defaults') =>
        var t := Send(st', defaults', next, server, refresher);
        Trace([out] + t.sent, 1 + t.refreshes, t.result, t.store, t.defaults)
      case Reject(reason, st', _, refreshed) =>
        Trace([out], if refreshed then 1 else 0, Rejected(reason), st', defaults)
  }

  /** A request already marked `_retry` goes out once: its reply decides the
      outcome, and storage and the default headers stay as they were. */
  lemma SendRetried(st: Store, defaults: map<string, string>, req: Request,
                    server: Request -> Reply, refresher: string -> RefreshReply)
    requires req.retry
    ensures var out := AttachToken(st, defaults, req);
            Send(st, defaults, req, server, refresher) == Trace([out], 0, Outcome(out, server(out)), st, defaults)
  {
  }

  /** A 401 on a fresh request, with a refresh token stored and a refresh
      that answers with a token: the token is stored and made the default,
      the request is sent again under it with `_retry` set, and the second
      reply decides the outcome. */
  lemma SendReplaysAfterRefresh(st: Store, defaults: map<string, string>, req: Request,
                                server: Request -> Reply, refresher: string -> RefreshReply)
    requires !req.retry
    requires server(AttachToken(st, defaults, req)).Err? && server(AttachToken(st, defaults, req)).status == Some(401)
    requires Present(GetText(st, RefreshTokenKey))
    requires refresher(GetText(st, RefreshTokenKey).value).RefreshAnswered?
    requires Present(refresher(GetText(st, RefreshTokenKey).value).token)
    ensures var token := refresher(GetText(st, RefreshTokenKey).value).token.value;
            var t := Send(st, defaults, req, server, refresher);
            && |t.sent| == 2 && t.refreshes == 1
            && t.sent[1].retry && t.sent[1].url == req.url
            && Authorization in t.sent[1].headers && t.sent[1].headers[Authorization] == Bearer(token)
            && t.store == st[TokenKey := Text(token)]
            && t.defaults == defaults[Authorization := Bearer(token)]
            && t.result == Outcome(t.sent[1], server(t.sent[1]))
  {
    var out := AttachToken(st, defaults, req);
    var rt := GetText(st, RefreshTokenKey);
    var r := server(out);
    var e := HttpError(r.status, r.errorBody, r.errorMessage, out);
    var h := OnError(st, defaults, e, refresher(rt.value));
    assert h.Replay?;
    SendRetried(h.store, h.defaults, h.request, server, refresher);
  }

  /** A 401 on a fresh request whose refresh throws: one request was sent,
      the session is cleared, the default headers are untouched, and the
      caller gets the refresh error as thrown. */
  lemma SendRefreshFailureSignsOut(st: Store, defaults: map<string, string>, req: Request,
                                   server: Request -> Reply, refresher: string -> RefreshReply)
    requires !req.retry
    requires server(AttachToken(st, defaults, req)).Err? && server(AttachToken(st, defaults, req)).status == Some(401)
    requires Present(GetText(st, RefreshTokenKey))
    requires refresher(GetText(st, RefreshTokenKey).value).RefreshThrew?
    ensures Send(st, defaults, req, server, refresher)
            == Trace([AttachToken(st, defaults, req)], 1,
                     Rejected(Raw(refresher(GetText(st, RefreshTokenKey).value).error)), ClearSession(st), defaults)
    ensures !Present(StoredToken(Send(st, defaults, req, server, refresher).store))
  {
  }

  /** Headers of `apiService.upload`: multipart unless the caller's own
      headers say otherwise; the caller's headers always win. */
  function UploadHeaders(caller: map<string, string>): (h: map<string, string>)
    ensures h.Keys == caller.Keys + {ContentType}
    ensures forall k :: k in caller ==> h[k] == caller[k]
    ensures ContentType !in caller ==> h[ContentType] == "multipart/form-data"
  {
    map[ContentType := "multipart/form-data"] + caller
  }
}

=== FILE: attendance.dfy ===
/** Marking attendance: the page that lists employees, lets the operator
    search them and offers check-in or check-out, and the form that gathers
    a location and a fingerprint before building the request. Coordinates
    are fixed-point integers; 0 is falsy as in JavaScript. */
module Attendance {
  import opened JsCore
  import opened Records

  datatype Kind = CheckIn | CheckOut

  // ---- the attendance form ----------------------------------------------------

  datatype Location = Location(latitude: Option<int>, longitude: Option<int>, address: string, accuracy: Option<int>)

  const NoLocation: Location := Location(None, None, "", None)
  const OfficeAddress: string := "Office Location"
  const LocationRequired: string := "Location is required"

  datatype Fingerprint = Fingerprint(deviceId: string, matchScore: int)

  const NoFingerprint: Fingerprint := Fingerprint("", 0)

  datatype Form = Form(location: Location, locationError: string, verified: bool, fingerprint: Fingerprint, remarks: string)

  const EmptyForm: Form := Form(NoLocation, "", false, NoFingerprint, "")

  /** What reaches the form: the device's answers (position or failure,
      fingerprint reading) are parameters of the events. */
  datatype FormEvent =
    | Opened
    | Located(latitude: int, longitude: int, accuracy: int)
    | LocationFailed(error: string)
    | FingerprintRead(deviceId: string, matchScore: int)
    | RemarksTyped(remarks: string)
    | Closed

  function Step(f: Form, e: FormEvent): (r: Form)
    ensures e.Located? ==> r.location == Location(Some(e.latitude), Some(e.longitude), OfficeAddress, Some(e.accuracy))
    ensures e.FingerprintRead? ==> r.verified && r.fingerprint == Fingerprint(e.deviceId, e.matchScore)
    ensures e.Closed? ==> r == EmptyForm
    ensures e.Opened? ==> r == f.(locationError := "")
    ensures !e.Closed? && !e.FingerprintRead? ==> r.verified == f.verified && r.fingerprint == f.fingerprint
  {
    match e
    case Opened => f.(locationError := "")
    case Located(lat, lon, acc) => f.(location := Location(Some(lat), Some(lon), OfficeAddress, Some(acc)))
    case LocationFailed(m) => f.(locationError := m)
    case FingerprintRead(d, m) => f.(verified := true, fingerprint := Fingerprint(d, m))
    case RemarksTyped(t) => f.(remarks := t)
    case Closed => EmptyForm
  }

  /** The body handed to the page on submit. */
  datatype AttendanceData = AttendanceData(
    employeeId: Option<string>,
    checkInLocation: Option<Location>,
    checkOutLocation: Option<Location>,
    fingerprintData: Fingerprint,
    remarks: string)

  datatype Submission = LocationMissing | FingerprintMissing | Submitted(data: AttendanceData)

  /** `employee?._id || employee?.employeeId`. */
  function EmployeeKey(e: Option<Employee>): (k: Option<string>)
    ensures e.None? ==> k.None?
    ensures e.Some? && Present(e.value.id) ==> k == e.value.id
    ensures e.Some? && !Present(e.value.id) ==> k == Some(e.value.employeeId)
  {
    if e.None? then None
    else if Present(e.value.id) then e.value.id
    else Some(e.value.employeeId)
  }

  /** `handleSubmit`: the location is checked first (a zero coordinate counts
      as missing and sets the location error), then the fingerprint; a
      complete form yields the body for its kind. */
  function Submit(f: Form, employee: Option<Employee>, kind: Kind): (r: (Form, Submission))
    ensures r.1.LocationMissing? <==> !NumTruthy(f.location.latitude) || !NumTruthy(f.location.longitude)
    ensures r.1.LocationMissing? ==> r.0 == f.(locationError := LocationRequired)
    ensures r.1.FingerprintMissing? <==> !r.1.LocationMissing? && !f.verified
    ensures !r.1.LocationMissing? ==> r.0 == f
    ensures r.1.Submitted? ==>
              var d := r.1.data;
              && d.employeeId == EmployeeKey(employee)
              && (d.checkInLocation.Some? <==> kind == CheckIn)
              && (d.checkOutLocation.Some? <==> kind == CheckOut)
              && (d.checkInLocation.Some? ==> d.checkInLocation.value == f.location)
              && (d.checkOutLocation.Some? ==> d.checkOutLocation.value == f.location)
              && d.fingerprintData == f.fingerprint && d.remarks == f.remarks
  {
    if !NumTruthy(f.location.latitude) || !NumTruthy(f.location.longitude) then
      (f.(locationError := LocationRequired), LocationMissing)
    else if !f.verified then (f, FingerprintMissing)
    else
      var loc := f.location;
      var d := if kind == CheckIn
        then AttendanceData(EmployeeKey(employee), Some(loc), None, f.fingerprint, f.remarks)
        else AttendanceData(EmployeeKey(employee), None, Some(loc), f.fingerprint, f.remarks);
      (f, Submitted(d))
  }

  /** A body is only ever built from a located, verified form, and carries
      exactly one of the two locations. */
  lemma {:induction false} SubmittedIsComplete(f: Form, employee: Option<Employee>, kind: Kind)
    requires Submit(f, employee, kind).1.Submitted?
    ensures NumTruthy(f.location.latitude) && NumTruthy(f.location.longitude) && f.verified
    ensures var d := Submit(f, employee, kind).1.data;
            d.checkInLocation.Some? != d.checkOutLocation.Some?
  {
  }

  /** The submit button's `disabled`: loading, no latitude, or no fingerprint. */
  function SubmitDisabled(isLoading: bool, f: Form): (d: bool)
    ensures !d <==> !isLoading && NumTruthy(f.location.latitude) && f.verified
  {
    isLoading || !NumTruthy(f.location.latitude) || !f.verified
  }

  /** The button tests only the latitude: with a longitude of 0 it is
      enabled, yet pressing it reports the location as missing. */
  lemma {:induction false} EnabledButRefused(f: Form, employee: Option<Employee>, kind: Kind)
    requires !SubmitDisabled(false, f) && f.location.longitude == Some(0)
    ensures Submit(f, employee, kind).1.LocationMissing?
  {
  }

  /** With both coordinates truthy, an enabled button always submits. */
  lemma {:induction false} EnabledSubmits(f: Form, employee: Option<Employee>, kind: Kind)
    requires !SubmitDisabled(false, f) && NumTruthy(f.location.longitude)
    ensures Submit(f, employee, kind).1.Submitted?
  {
  }

  /** A closed and reopened form has forgotten location and fingerprint. */
  lemma {:induction false} ClosedFormStartsOver(f: Form, employee: Option<Employee>, kind: Kind)
    ensures var g := Step(Step(f, Closed), Opened);
            && !g.verified && g.remarks == "" && g.locationError == ""
            && Submit(g, employee, kind).1.LocationMissing?
  {
  }

  // ---- the mark-attendance page -------------------------------------------------

  /** The action the list offers: check-out to someone already checked in,
      check-in to everyone else. */
  function Offered(e: Employee): (k: Kind)
    ensures k == CheckOut <==> e.hasActiveAttendance
  {
    if e.hasActiveAttendance then CheckOut else CheckIn
  }

  /** The search test: the lower-cased name or employee id contains the
      lower-cased term. */
  predicate Matches(e: Employee, term: string) {
    Includes(ToLower(e.name), ToLower(term)) || Includes(ToLower(e.employeeId), ToLower(term))
  }

  /** `filteredEmployees`: the matching employees, in list order. */
  function Filtered(es: seq<Employee>, term: string): (r: seq<Employee>)
    ensures |r| <= |es|
    ensures forall e :: e in r <==> e in es && Matches(e, term)
    decreases |es|
  {
    if |es| == 0 then []
    else
      var rest := Filtered(es[1..], term);
      assert forall e :: e in es <==> e == es[0] || e in es[1..];
      if Matches(es[0], term) then [es[0]] + rest else rest
  }

  /** Filtering a list in two parts filters each part in place: the
      matches keep the order they had in the list. */
  lemma {:induction false} FilteredConcat(a: seq<Employee>, b: seq<Employee>, term: string)
    ensures Filtered(a + b, term) == Filtered(a, term) + Filtered(b, term)
    decreases |a|
  {
    if |a| == 0 {
      assert a + b == b;
    } else {
      assert (a + b)[0] == a[0];
      assert (a + b)[1..] == a[1..] + b;
      FilteredConcat(a[1..], b, term);
    }
  }

  /** An empty search keeps every employee. */
  lemma {:induction false} EmptySearchKeepsAll(es: seq<Employee>)
    ensures Filtered(es, "") == es
    decreases |es|
  {
    if |es| > 0 {
      assert StartsWith(ToLower(es[0].name)[0..], "");
      assert ToLower("") == "";
      EmptySearchKeepsAll(es[1..]);
      assert [es[0]] + es[1..] == es;
    }
  }

  /** The search ignores the case of the term. */
  lemma {:induction false} SearchIgnoresCase(es: seq<Employee>, term: string)
    ensures Filtered(es, ToLower(term)) == Filtered(es, term)
    decreases |es|
  {
    ToLowerIdempotent(term);
    if |es| > 0 {
      SearchIgnoresCase(es[1..], term);
    }
  }

  datatype Page = Page(selected: Option<Employee>, formOpen: bool, kind: Kind, search: string)

  const InitialPage: Page := Page(None, false, CheckIn, "")

  /** What a form submission dispatches. */
  datatype Dispatch = MarkAttendance(data: AttendanceData) | MarkCheckout(attendanceId: Option<string>, checkoutData: AttendanceData)

  datatype PageEvent =
    | Searched(term: string)
    | ActionClicked(employee: Employee)
    | FormSubmitted(data: AttendanceData)
    | FormClosed
    | Settled(isSuccess: bool, message: string)

  /** One page event: the new page and what it dispatches. A click selects
      the employee with the offered action and opens the form; a check-out
      needs the selected employee's attendance id (with no selection the
      handler throws and nothing is sent); a success message closes the form
      and clears the selection. */
  function PageStep(p: Page, e: PageEvent): (r: (Page, seq<Dispatch>))
    ensures e.ActionClicked? ==> r == (p.(selected := Some(e.employee), kind := Offered(e.employee), formOpen := true), [])
    ensures e.FormSubmitted? && p.kind == CheckIn ==> r == (p, [MarkAttendance(e.data)])
    ensures e.FormSubmitted? && p.kind == CheckOut && p.selected.Some? ==>
              r == (p, [MarkCheckout(p.selected.value.attendanceId, e.data)])
    ensures e.FormSubmitted? && p.kind == CheckOut && p.selected.None? ==> r == (p, [])
    ensures e.FormClosed? ==> r == (p.(formOpen := false, selected := None), [])
    ensures e.Settled? && e.isSuccess && e.message != "" ==> r == (p.(formOpen := false, selected := None), [])
    ensures e.Settled? && !(e.isSuccess && e.message != "") ==> r == (p, [])
    ensures e.Searched? ==> r == (p.(search := e.term), [])
  {
    match e
    case Searched(t) => (p.(search := t), [])
    case ActionClicked(emp) => (p.(selected := Some(emp), kind := Offered(emp), formOpen := true), [])
    case FormSubmitted(d) =>
      if p.kind == CheckIn then (p, [MarkAttendance(d)])
      else if p.selected.Some? then (p, [MarkCheckout(p.selected.value.attendanceId, d)])
      else (p, [])
    case FormClosed => (p.(formOpen := false, selected := None), [])
    case Settled(ok, m) =>
      if ok && m != "" then (p.(formOpen := false, selected := None), []) else (p, [])
  }

  /** Picking an employee from the list and completing the form sends
      check-in for an employee without an open attendance, and check-out of
      that employee's open attendance otherwise, with the location in the
      matching field. */
  lemma {:induction false} ClickThenSubmit(p: Page, emp: Employee, f: Form)
    requires NumTruthy(f.location.latitude) && NumTruthy(f.location.longitude) && f.verified
    ensures var ready := PageStep(p, ActionClicked(emp)).0;
            var sub := Submit(f, ready.selected, ready.kind);
            && sub.1.Submitted?
            && sub.1.data.employeeId == EmployeeKey(Some(emp))
            && (!emp.hasActiveAttendance ==>
                  (PageStep(ready, FormSubmitted(sub.1.data)).1 == [MarkAttendance(sub.1.data)]
                   && sub.1.data.checkInLocation == Some(f.location)))
            && (emp.hasActiveAttendance ==>
                  (PageStep(ready, FormSubmitted(sub.1.data)).1 == [MarkCheckout(emp.attendanceId, sub.1.data)]
                   && sub.1.data.checkOutLocation == Some(f.location)))
  {
  }
}

=== FILE: auth_service.dfy ===
/** The auth service: the storage effects of login, logout, token refresh
    and `getMe`, the `isAuthenticated` check and the reset-password path.
    Each backend call's outcome is a parameter: an answered envelope, or the
    normalised error the client rejected with. */
module AuthService {
  import opened JsCore
  import opened Records
  import opened Storage
  import opened Api

  const LoginPath: string := "/auth/login"
  const LogoutPath: string := "/auth/logout"
  const MePath: string := "/auth/me"
  const ChangePasswordPath: string := "/auth/change-password"
  const ForgotPasswordPath: string := "/auth/forgot-password"
  const ResetPasswordPath: string := "/auth/reset-password"

  /** The backend envelope `{success, data}`; `data` is `None` when falsy. */
  datatype Envelope<T> = Envelope(success: bool, data: Option<T>)

  /** The outcome of one backend call. */
  datatype Call<T> = Answered(envelope: Envelope<T>) | Failed(error: ApiError)

  /** What a service function hands back: a value, or the error it re-throws. */
  datatype Outcome<T> = Returned(value: T) | Threw(error: ApiError)

  /** The storage after a service call, and its outcome. */
  datatype Effect<T> = Effect(store: Store, outcome: Outcome<T>)

  /** `data` of a successful login. */
  datatype LoginData = LoginData(accessToken: string, refreshToken: string, admin: User)

  /** `data` of a successful refresh. */
  datatype RefreshData = RefreshData(accessToken: string)

  /** Session entries are written only for `success` with data. */
  predicate Succeeded<T>(env: Envelope<T>) {
    env.success && env.data.Some?
  }

  /** `login`: writes `token`, `refreshToken` and `user` only for a
      successful envelope with data; returns `data`, or re-throws. */
  function Login(st: Store, call: Call<LoginData>): (r: Effect<Option<LoginData>>)
    ensures call.Failed? ==> r == Effect(st, Threw(call.error))
    ensures call.Answered? ==> r.outcome == Returned(call.envelope.data)
    ensures call.Answered? && !Succeeded(call.envelope) ==> r.store == st
    ensures call.Answered? && Succeeded(call.envelope) ==>
              var d := call.envelope.data.value;
              && StoredToken(r.store) == Some(d.accessToken)
              && GetText(r.store, RefreshTokenKey) == Some(d.refreshToken)
              && StoredUser(r.store) == Some(d.admin)
              && r.store.Keys == st.Keys + SessionKeys
              && (forall k :: k in st && k !in SessionKeys ==> r.store[k] == st[k])
  {
    match call
    case Failed(e) => Effect(st, Threw(e))
    case Answered(env) =>
      if Succeeded(env) then
        var d := env.data.value;
        Effect(st[TokenKey := Text(d.accessToken)][RefreshTokenKey := Text(d.refreshToken)][UserKey := UserJson(d.admin)],
               Returned(env.data))
      else Effect(st, Returned(env.data))
  }

  /** `logout`: the three session keys are removed whether the backend call
      succeeded or threw; a failure is re-thrown after clearing. */
  function Logout(st: Store, call: Call<bool>): (r: Effect<bool>)
    ensures forall k :: k in SessionKeys ==> k !in r.store
    ensures forall k :: k in st && k !in SessionKeys ==> k in r.store && r.store[k] == st[k]
    ensures call.Failed? <==> r.outcome.Threw?
    ensures call.Failed? ==> r.outcome.error == call.error
    ensures call.Answered? ==> r.outcome == Returned(true)
  {
    match call
    case Answered(_) => Effect(ClearSession(st), Returned(true))
    case Failed(e) => Effect(ClearSession(st), Threw(e))
  }

  /** `refreshToken`: a successful answer overwrites only `token`; a failure
      removes all three session keys and re-throws. */
  function RefreshToken(st: Store, call: Call<RefreshData>): (r: Effect<Option<RefreshData>>)
    ensures call.Answered? && Succeeded(call.envelope) ==>
              r.store == st[TokenKey := Text(call.envelope.data.value.accessToken)]
    ensures call.Answered? && !Succeeded(call.envelope) ==> r.store == st
    ensures call.Answered? ==> r.outcome == Returned(call.envelope.data)
    ensures call.Failed? ==> r == Effect(ClearSession(st), Threw(call.error))
  {
    match call
    case Failed(e) => Effect(ClearSession(st), Threw(e))
    case Answered(env) =>
      if Succeeded(env) then Effect(st[TokenKey := Text(env.data.value.accessToken)], Returned(env.data))
      else Effect(st, Returned(env.data))
  }

  /** `getMe`: overwrites the stored user only on a successful answer with data. */
  function GetMe(st: Store, call: Call<User>): (r: Effect<Option<User>>)
    ensures call.Answered? && Succeeded(call.envelope) ==>
              r.store == st[UserKey := UserJson(call.envelope.data.value)]
              && StoredUser(r.store) == call.envelope.data
    ensures !(call.Answered? && Succeeded(call.envelope)) ==> r.store == st
    ensures call.Failed? <==> r.outcome.Threw?
  {
    match call
    case Failed(e) => Effect(st, Threw(e))
    case Answered(env) =>
      if Succeeded(env) then Effect(st[UserKey := UserJson(env.data.value)], Returned(env.data))
      else Effect(st, Returned(env.data))
  }

  /** `isAuthenticated`: a non-empty token and a parsed user are both stored. */
  function IsAuthenticated(st: Store): (b: bool)
    ensures b <==> Present(StoredToken(st)) && StoredUser(st).Some?
  {
    Present(StoredToken(st)) && StoredUser(st).Some?
  }

  /** `resetPassword` posts to the reset path followed by `/` and the token. */
  function ResetPasswordUrl(token: string): (u: string)
    ensures StartsWith(u, ResetPasswordPath + "/")
    ensures u[|ResetPasswordPath| + 1..] == token
  {
    ResetPasswordPath + "/" + token
  }

  /** Reads the token back out of a reset-password URL: the text after the
      reset path and its `/`, or `None` for any other URL. */
  function ResetTokenOfUrl(u: string): (t: Option<string>)
    ensures t.Some? <==> StartsWith(u, ResetPasswordPath + "/")
    ensures t.Some? ==> u == ResetPasswordPath + "/" + t.value
  {
    var prefix := ResetPasswordPath + "/";
    if StartsWith(u, prefix) then
      assert u == prefix + u[|prefix|..];
      Some(u[|prefix|..])
    else None
  }

  /** The reset URL carries its token unchanged: reading it back gives the
      token, so two different tokens never post to the same URL. */
  lemma ResetPasswordUrlRoundTrip(token: string, other: string)
    ensures ResetTokenOfUrl(ResetPasswordUrl(token)) == Some(token)
    ensures ResetPasswordUrl(token) == ResetPasswordUrl(other) ==> token == other
  {
    var prefix := ResetPasswordPath + "/";
    assert ResetPasswordUrl(token) == prefix + token;
    assert (prefix + token)[|prefix|..] == token;
    if ResetPasswordUrl(token) == ResetPasswordUrl(other) {
      assert (prefix + other)[|prefix|..] == other;
    }
  }

  /** `getMe` never touches the token, so after a successful answer the
      visitor is signed in exactly when a token was already stored; any other
      answer leaves the verdict as it was. */
  lemma GetMeKeepsToken(st: Store, call: Call<User>)
    ensures StoredToken(GetMe(st, call).store) == StoredToken(st)
    ensures GetText(GetMe(st, call).store, RefreshTokenKey) == GetText(st, RefreshTokenKey)
    ensures call.Answered? && Succeeded(call.envelope) ==>
              (IsAuthenticated(GetMe(st, call).store) <==> Present(StoredToken(st)))
    ensures !(call.Answered? && Succeeded(call.envelope)) ==>
              IsAuthenticated(GetMe(st, call).store) == IsAuthenticated(st)
  {
  }

  /** A successful login with a non-empty token, followed by a successful
      `getMe`, leaves the visitor signed in as the user `getMe` returned. */
  lemma LoginThenGetMe(st: Store, d: LoginData, u: User)
    requires d.accessToken != ""
    ensures var s1 := Login(st, Answered(Envelope(true, Some(d)))).store;
            var s2 := GetMe(s1, Answered(Envelope(true, Some(u)))).store;
            IsAuthenticated(s2) && StoredUser(s2) == Some(u) && StoredToken(s2) == Some(d.accessToken)
  {
  }

  /** After a logout, whatever the backend did, the service reports the
      visitor as signed out. */
  lemma LogoutSignsOut(st: Store, call: Call<bool>)
    ensures !IsAuthenticated(Logout(st, call).store)
  {
  }

  /** After a successful login with a non-empty token the visitor counts as
      signed in; a failed login leaves that verdict as it was. */
  lemma LoginSignsIn(st: Store, call: Call<LoginData>)
    ensures call.Answered? && Succeeded(call.envelope) && call.envelope.data.value.accessToken != "" ==>
              IsAuthenticated(Login(st, call).store)
    ensures call.Failed? ==> IsAuthenticated(Login(st, call).store) == IsAuthenticated(st)
  {
  }

  /** A refresh failure signs the visitor out; a successful refresh keeps the
      stored user. */
  lemma RefreshFailureSignsOut(st: Store, call: Call<RefreshData>)
    ensures call.Failed? ==> !IsAuthenticated(RefreshToken(st, call).store)
    ensures StoredUser(RefreshToken(st, call).store) == (if call.Failed? then None else StoredUser(st))
  {
  }
}

=== FILE: auth_slice.dfy ===
/** The auth slice: its initial state read from storage, its four plain
    reducers and the pending/fulfilled/rejected cases of its seven thunks,
    as one transition function, plus the storage writes two reducers make. */
module AuthSlice {
  import opened JsCore
  import opened Records
  import opened Storage
  import Api
  import AuthService

  datatype AuthState = AuthState(
    user: Option<User>,
    token: Option<string>,
    isAuthenticated: bool,
    isLoading: bool,
    isSuccess: bool,
    isError: bool,
    message: string)

  /** The three password flows share one shape of reducer cases. */
  datatype PasswordFlow = ChangePassword | ForgotPassword | ResetPassword

  /** The actions the slice handles. A fulfilled login or refresh carries the
      service's return value, which is `None` when the envelope had no data. */
  datatype AuthAction =
    | Reset
    | ClearError
    | UpdateUser(user: User)
    | ClearAuth
    | LoginPending
    | LoginFulfilled(login: Option<AuthService.LoginData>)
    | LoginRejected(error: string)
    | LogoutPending
    | LogoutFulfilled
    | LogoutRejected(error: string)
    | RefreshPending
    | RefreshFulfilled(refresh: Option<AuthService.RefreshData>)
    | RefreshRejected(error: string)
    | GetMePending
    | GetMeFulfilled(me: Option<User>)
    | GetMeRejected(error: string)
    | PasswordPending(flow: PasswordFlow)
    | PasswordFulfilled(flow: PasswordFlow)
    | PasswordRejected(flow: PasswordFlow, error: string)

  /** The seven async thunks of the slice. */
  datatype Thunk = LoginThunk | LogoutThunk | RefreshThunk | GetMeThunk | PasswordThunk(flow: PasswordFlow)

  /** The fallback message of each thunk's rejection. */
  function Fallback(t: Thunk): (m: string)
    ensures m != ""
  {
    match t
    case LoginThunk => "Login failed"
    case LogoutThunk => "Logout failed"
    case RefreshThunk => "Token refresh failed"
    case GetMeThunk => "Failed to fetch user data"
    case PasswordThunk(ChangePassword) => "Password change failed"
    case PasswordThunk(ForgotPassword) => "Failed to send reset email"
    case PasswordThunk(ResetPassword) => "Password reset failed"
  }

  /** The success message of each password flow. */
  function PasswordMessage(flow: PasswordFlow): string {
    match flow
    case ChangePassword => "Password changed successfully"
    case ForgotPassword => "Password reset email sent successfully"
    case ResetPassword => "Password reset successfully"
  }

  /** The value a thunk rejects with: `error.message || fallback`. */
  function RejectValue(reason: Api.Rejection, fallback: string): (m: string)
    requires fallback != ""
    ensures m != ""
    ensures reason.Normalized? && reason.apiError.message != "" ==> m == reason.apiError.message
    ensures reason.Normalized? && reason.apiError.message == "" ==> m == fallback
    ensures reason.Raw? && Present(reason.thrown.message) ==> m == reason.thrown.message.value
    ensures reason.Raw? && !Present(reason.thrown.message) ==> m == fallback
  {
    match reason
    case Normalized(e) => if Truthy(e.message) then e.message else fallback
    case Raw(e) => OrElse(e.message, fallback)
  }

  /** A normalised error never falls back: the thunk passes on the gateway's
      message unchanged. */
  lemma NormalizedRejectKeepsMessage(e: Api.HttpError, fallback: string)
    requires fallback != ""
    ensures RejectValue(Api.Normalized(Api.Normalize(e)), fallback) == Api.ErrorMessage(e)
  {
  }

  /** The rejected action a thunk dispatches when its service call throws. */
  function RejectedAction(t: Thunk, reason: Api.Rejection): (a: AuthAction)
    ensures t.LoginThunk? <==> a.LoginRejected?
    ensures t.LogoutThunk? <==> a.LogoutRejected?
    ensures t.RefreshThunk? <==> a.RefreshRejected?
    ensures t.GetMeThunk? <==> a.GetMeRejected?
    ensures t.PasswordThunk? <==> a.PasswordRejected?
    ensures t.PasswordThunk? ==> a.flow == t.flow
    ensures a.error == RejectValue(reason, Fallback(t)) && a.error != ""
  {
    var m := RejectValue(reason, Fallback(t));
    match t
    case LoginThunk => LoginRejected(m)
    case LogoutThunk => LogoutRejected(m)
    case RefreshThunk => RefreshRejected(m)
    case GetMeThunk => GetMeRejected(m)
    case PasswordThunk(flow) => PasswordRejected(flow, m)
  }

  /** The state read from storage at start-up. */
  function Initial(st: Store): (s: AuthState)
    ensures s.isAuthenticated <==> Present(StoredToken(st)) && StoredUser(st).Some?
    ensures s.user == StoredUser(st)
    ensures s.token.Some? <==> Present(StoredToken(st))
    ensures s.token.Some? ==> s.token == StoredToken(st)
    ensures !s.isLoading && !s.isSuccess && !s.isError && s.message == ""
  {
    var token := StoredToken(st);
    var user := StoredUser(st);
    AuthState(user, if Present(token) then token else None,
              Present(token) && user.Some?, false, false, false, "")
  }

  /** The slice starts out agreeing with the service's own check. */
  lemma InitialAgreesWithService(st: Store)
    ensures Initial(st).isAuthenticated == AuthService.IsAuthenticated(st)
  {
  }

  /** The session fields `user`, `token`, `isAuthenticated` are untouched. */
  predicate SessionKept(s: AuthState, r: AuthState) {
    r.user == s.user && r.token == s.token && r.isAuthenticated == s.isAuthenticated
  }

  /** The session fields are cleared. */
  predicate SessionCleared(r: AuthState) {
    r.user == None && r.token == None && !r.isAuthenticated
  }

  /** The slice's reducer. */
  function Reduce(s: AuthState, a: AuthAction): (r: AuthState)
    // reset: the four status fields are cleared, the session is kept
    ensures a.Reset? ==> SessionKept(s, r) && !r.isLoading && !r.isSuccess && !r.isError && r.message == ""
    // clearError: only isError and message change
    ensures a.ClearError? ==> r == s.(isError := false, message := "")
    ensures a.UpdateUser? ==> r == s.(user := Some(a.user))
    // clearAuth: everything back to signed out
    ensures a.ClearAuth? ==>
              SessionCleared(r) && !r.isLoading && !r.isSuccess && !r.isError && r.message == ""
    // pending cases of login and the password flows clear the error; logout
    // and getMe only raise isLoading
    ensures a.LoginPending? || a.PasswordPending? ==>
              r == s.(isLoading := true, isError := false, message := "")
    ensures a.LogoutPending? || a.GetMePending? ==> r == s.(isLoading := true)
    ensures a.LoginFulfilled? && a.login.Some? ==>
              && r.isAuthenticated && r.user == Some(a.login.value.admin)
              && r.token == Some(a.login.value.accessToken)
              && !r.isLoading && r.isSuccess && r.isError == s.isError && r.message == s.message
    ensures a.LoginRejected? ==>
              SessionCleared(r) && !r.isLoading && r.isError && r.message == a.error && r.isSuccess == s.isSuccess
    // logout clears the session whatever the backend did
    ensures a.LogoutFulfilled? ==> SessionCleared(r) && !r.isLoading && r.isSuccess && r.message == s.message
    ensures a.LogoutRejected? ==> SessionCleared(r) && !r.isLoading && r.isError && r.message == a.error
    // refresh: success changes only the token, failure only the session fields
    ensures a.RefreshFulfilled? && a.refresh.Some? ==> r == s.(token := Some(a.refresh.value.accessToken))
    ensures a.RefreshRejected? ==>
              SessionCleared(r) && r.isLoading == s.isLoading && r.isSuccess == s.isSuccess
              && r.isError == s.isError && r.message == s.message
    ensures a.GetMeFulfilled? ==> r == s.(isLoading := false, user := a.me)
    ensures a.GetMeRejected? || a.PasswordRejected? ==>
              r == s.(isLoading := false, isError := true, message := a.error)
    ensures a.PasswordFulfilled? ==>
              r == s.(isLoading := false, isSuccess := true, message := PasswordMessage(a.flow))
    // a fulfilled login or refresh without data throws in the reducer and
    // leaves the state as it was; so does the unhandled refresh pending case
    ensures (a.RefreshPending? || (a.LoginFulfilled? && a.login.None?)
             || (a.RefreshFulfilled? && a.refresh.None?)) ==> r == s
  {
    match a
    case Reset => s.(isLoading := false, isSuccess := false, isError := false, message := "")
    case ClearError => s.(isError := false, message := "")
    case UpdateUser(u) => s.(user := Some(u))
    case ClearAuth => AuthState(None, None, false, false, false, false, "")
    case LoginPending => s.(isLoading := true, isError := false, message := "")
    case LoginFulfilled(d) =>
      if d.Some? then
        s.(isLoading := false, isSuccess := true, isAuthenticated := true,
           user := Some(d.value.admin), token := Some(d.value.accessToken))
      else s
    case LoginRejected(m) =>
      s.(isLoading := false, isError := true, message := m, user := None, token := None, isAuthenticated := false)
    case LogoutPending => s.(isLoading := true)
    case LogoutFulfilled =>
      s.(isLoading := false, isSuccess := true, user := None, token := None, isAuthenticated := false)
    case LogoutRejected(m) =>
      s.(isLoading := false, isError := true, message := m, user := None, token := None, isAuthenticated := false)
    case RefreshPending => s
    case RefreshFulfilled(d) => if d.Some? then s.(token := Some(d.value.accessToken)) else s
    case RefreshRejected(_) => s.(user := None, token := None, isAuthenticated := false)
    case GetMePending => s.(isLoading := true)
    case GetMeFulfilled(me) => s.(isLoading := false, user := me)
    case GetMeRejected(m) => s.(isLoading := false, isError := true, message := m)
    case PasswordPending(_) => s.(isLoading := true, isError := false, message := "")
    case PasswordFulfilled(flow) => s.(isLoading := false, isSuccess := true, message := PasswordMessage(flow))
    case PasswordRejected(_, m) => s.(isLoading := false, isError := true, message := m)
  }

  /** The storage writes of the plain reducers: `updateUser` stores the user,
      `clearAuth` removes the three session keys, nothing else writes. */
  function ReducerStorage(st: Store, a: AuthAction): (r: Store)
    ensures a.UpdateUser? ==> StoredUser(r) == Some(a.user) && StoredToken(r) == StoredToken(st)
    ensures a.ClearAuth? ==> r == ClearSession(st) && !AuthService.IsAuthenticated(r)
    ensures !a.UpdateUser? && !a.ClearAuth? ==> r == st
  {
    match a
    case UpdateUser(u) => st[UserKey := UserJson(u)]
    case ClearAuth => ClearSession(st)
    case _ => st
  }

  /** A failed thunk is always reported with a non-empty message, except the
      refresh, whose failure silently signs the visitor out. */
  lemma RejectionIsReported(s: AuthState, t: Thunk, reason: Api.Rejection)
    ensures var r := Reduce(s, RejectedAction(t, reason));
            && (!t.RefreshThunk? ==> r.isError && r.message != "" && !r.isLoading)
            && (t.RefreshThunk? ==> SessionCleared(r) && r.message == s.message && r.isError == s.isError)
            && (t.LoginThunk? || t.LogoutThunk? ==> SessionCleared(r))
  {
  }

  /** Signed in implies a user and a token are held. */
  predicate Sound(s: AuthState) {
    s.isAuthenticated ==> s.user.Some? && s.token.Some?
  }

  /** Every transition keeps `Sound`, except a fulfilled `getMe` whose
      response had no data, which drops the user but not the flag. */
  lemma {:induction false} ReduceKeepsSound(s: AuthState, a: AuthAction)
    requires Sound(s)
    requires !(a.GetMeFulfilled? && a.me.None?)
    ensures Sound(Reduce(s, a))
  {
    match a
    case GetMeFulfilled(me) => assert me.Some?;
    case _ =>
  }

  /** The exception: a signed-in state with an empty `getMe` answer. */
  lemma GetMeWithoutDataBreaksSound(s: AuthState)
    requires s.isAuthenticated
    ensures !Sound(Reduce(s, GetMeFulfilled(None)))
  {
  }

  /** Sound holds from start-up on, for any sequence of actions that avoids
      the exception above. */
  function ReduceAll(s: AuthState, actions: seq<AuthAction>): AuthState
    decreases |actions|
  {
    if |actions| == 0 then s else ReduceAll(Reduce(s, actions[0]), actions[1..])
  }

  lemma {:induction false} SoundAlways(st: Store, actions: seq<AuthAction>)
    requires forall i :: 0 <= i < |actions| ==> !(actions[i].GetMeFulfilled? && actions[i].me.None?)
    ensures Sound(ReduceAll(Initial(st), actions))
  {
    SoundFrom(Initial(st), actions);
  }

  lemma {:induction false} SoundFrom(s: AuthState, actions: seq<AuthAction>)
    requires Sound(s)
    requires forall i :: 0 <= i < |actions| ==> !(actions[i].GetMeFulfilled? && actions[i].me.None?)
    ensures Sound(ReduceAll(s, actions))
    decreases |actions|
  {
    if |actions| > 0 {
      ReduceKeepsSound(s, actions[0]);
      SoundFrom(Reduce(s, actions[0]), actions[1..]);
    }
  }

  /** A login that succeeds end to end leaves the slice's token equal to the
      stored one and the slice signed in exactly as the service sees it. */
  lemma LoginMirrorsStorage(s: AuthState, st: Store, call: AuthService.Call<AuthService.LoginData>)
    requires call.Answered? && AuthService.Succeeded(call.envelope)
    ensures var eff := AuthService.Login(st, call);
            var r := Reduce(s, LoginFulfilled(eff.outcome.value));
            r.token == StoredToken(eff.store) && r.user == StoredUser(eff.store)
  {
  }
}

=== FILE: breadcrumbs.dfy ===
/** The breadcrumb trail above every page: the path is cut at '/', empty
    pieces dropped, and each piece becomes a crumb linking to the path up to
    and including it, except the last, which is plain text. */
module Breadcrumbs {
  import opened JsCore

  const Slash: char := '/'
  const HomeRoute: string := "/dashboard"
  const HiddenRoute: string := "/login"

  /** `pathname.split('/').filter((x) => x)`. */
  function Segments(path: string): (segs: seq<string>)
    ensures forall i :: 0 <= i < |segs| ==> segs[i] != "" && Slash !in segs[i]
  {
    var segs := NonEmpty(Split(path, Slash));
    assert forall i :: 0 <= i < |segs| ==> segs[i] in Split(path, Slash);
    segs
  }

  /** The readable names of the known segments. */
  const RouteNames: map<string, string> := map[
    "dashboard" := "Dashboard",
    "profile" := "Profile",
    "login-history" := "Login History",
    "edit-history" := "Edit History",
    "super-admin" := "Super Admin",
    "admins" := "Manage Admins",
    "create-admin" := "Create Admin",
    "statistics" := "Statistics",
    "login-logs" := "Login Logs",
    "notifications" := "Notifications",
    "attendance" := "Attendance",
    "reports" := "Reports",
    "settings" := "Settings"]

  /** `getRouteName`: the table's name, else the segment with its first
      letter upper-cased. Every name in the table is non-empty, so the
      fallback is taken exactly for unknown segments. */
  function RouteName(segment: string): (name: string)
    ensures segment in RouteNames ==> name == RouteNames[segment]
    ensures segment !in RouteNames ==> |name| == |segment|
    ensures segment !in RouteNames && |segment| > 0 ==>
              name[0] == UpperChar(segment[0]) && name[1..] == segment[1..]
  {
    if segment in RouteNames && Truthy(RouteNames[segment]) then RouteNames[segment] else Capitalize(segment)
  }

  /** `routeTo` of crumb `i`: '/' and the first `i + 1` segments joined by '/'. */
  function RouteTo(segs: seq<string>, i: nat): string
    requires i < |segs|
  {
    [Slash] + Join(segs[..i + 1], Slash)
  }

  datatype Crumb = HomeLink(to: string) | LinkCrumb(to: string, caption: string) | TextCrumb(caption: string)

  function SegmentCrumb(segs: seq<string>, i: nat): (c: Crumb)
    requires i < |segs|
    ensures c.TextCrumb? <==> i == |segs| - 1
    ensures c.LinkCrumb? ==> c.to == RouteTo(segs, i)
    ensures !c.HomeLink? ==> c.caption == RouteName(segs[i])
  {
    if i == |segs| - 1 then TextCrumb(RouteName(segs[i])) else LinkCrumb(RouteTo(segs, i), RouteName(segs[i]))
  }

  /** The rendered trail, or nothing on the root and on the login page. */
  function Trail(path: string): (t: Option<seq<Crumb>>)
    ensures t.None? <==> |Segments(path)| == 0 || path == HiddenRoute
    ensures t.Some? ==>
              var segs := Segments(path);
              && |t.value| == 1 + |segs|
              && t.value[0] == HomeLink(HomeRoute)
              && t.value[|segs|].TextCrumb?
              && forall i :: 0 <= i < |segs| ==> t.value[i + 1] == SegmentCrumb(segs, i)
  {
    var segs := Segments(path);
    if |segs| == 0 || path == HiddenRoute then None
    else Some([HomeLink(HomeRoute)] + seq(|segs|, i requires 0 <= i < |segs| => SegmentCrumb(segs, i)))
  }

  /** Only the last crumb is plain text. */
  lemma OnlyLastIsText(path: string, k: nat)
    requires Trail(path).Some? && 0 < k < |Trail(path).value|
    ensures Trail(path).value[k].TextCrumb? <==> k == |Trail(path).value| - 1
    ensures !Trail(path).value[k].TextCrumb? ==> Trail(path).value[k].LinkCrumb?
  {
    var segs := Segments(path);
    assert Trail(path).value[(k - 1) + 1] == SegmentCrumb(segs, k - 1);
  }

  /** Joining one more piece extends the joined string by a separator and
      that piece. */
  lemma {:induction false} JoinSnoc(xs: seq<string>, y: string, sep: char)
    requires |xs| >= 1
    ensures Join(xs + [y], sep) == Join(xs, sep) + [sep] + y
    decreases |xs|
  {
    if |xs| == 1 {
      assert xs + [y] == [xs[0], y];
    } else {
      assert (xs + [y])[1..] == xs[1..] + [y];
      JoinSnoc(xs[1..], y, sep);
    }
  }

  /** Each crumb's link continues into the next one: the next link is this
      link, a '/', and the next segment. */
  lemma {:induction false} RouteToExtends(segs: seq<string>, i: nat)
    requires i + 1 < |segs|
    ensures RouteTo(segs, i + 1) == RouteTo(segs, i) + [Slash] + segs[i + 1]
    ensures StartsWith(RouteTo(segs, i + 1), RouteTo(segs, i))
  {
    assert segs[..i + 2] == segs[..i + 1] + [segs[i + 1]];
    JoinSnoc(segs[..i + 1], segs[i + 1], Slash);
  }

  /** Filtering keeps a list with no empty strings as it is. */
  lemma {:induction false} NonEmptyKeeps(xs: seq<string>)
    requires forall i :: 0 <= i < |xs| ==> xs[i] != ""
    ensures NonEmpty(xs) == xs
    decreases |xs|
  {
    if |xs| > 0 {
      NonEmptyKeeps(xs[1..]);
      assert [xs[0]] + xs[1..] == xs;
    }
  }

  /** Following crumb `i`'s link lands on a page whose own trail is the
      first `i + 1` segments of this one. */
  lemma {:induction false} RouteToSegments(segs: seq<string>, i: nat)
    requires i < |segs|
    requires forall k :: 0 <= k < |segs| ==> segs[k] != "" && Slash !in segs[k]
    ensures Segments(RouteTo(segs, i)) == segs[..i + 1]
  {
    var prefix := segs[..i + 1];
    assert forall k :: 0 <= k < |prefix| ==> prefix[k] == segs[k];
    SplitJoin(prefix, Slash);
    SplitConcat("", Join(prefix, Slash), Slash);
    assert "" + [Slash] + Join(prefix, Slash) == RouteTo(segs, i);
    assert Split("", Slash) == [""];
    NonEmptyConcat([""], prefix);
    NonEmptyKeeps(prefix);
  }

  /** The same for a trail read off a path. */
  lemma CrumbLinksLeadToPrefixes(path: string, i: nat)
    requires i < |Segments(path)|
    ensures Segments(RouteTo(Segments(path), i)) == Segments(path)[..i + 1]
  {
    RouteToSegments(Segments(path), i);
  }

  /** The login page has no trail although it has a segment, while the
      same page with a trailing slash shows one. */
  lemma LoginIsHiddenOnlyVerbatim()
    ensures Trail(HiddenRoute).None?
    ensures Trail(HiddenRoute + "/").Some?
  {
    var login := "login";
    assert HiddenRoute + "/" == "" + [Slash] + (login + [Slash] + "");
    SplitConcat("", login + [Slash] + "", Slash);
    SplitConcat(login, "", Slash);
    SplitNoSep(login, Slash);
    assert Split(HiddenRoute + "/", Slash) == [""] + ([login] + [""]);
    NonEmptyConcat([""], [login] + [""]);
    NonEmptyConcat([login], [""]);
    assert Segments(HiddenRoute + "/") == [login];
  }
}

=== FILE: forms.dfy ===
/** The dashboard's forms: the field rules of the profile, create-admin,
    login and reset-password forms, the multipart data the two admin forms
    send, the image picker they share, the avatar address, and when a form
    can be submitted. */
module Forms {
  import opened JsCore
  import opened Records
  import opened Queries
  import AuthService

  // ---- field rules --------------------------------------------------------

  /** `required()` on a string: not empty. */
  predicate Required(s: string) {
    s != ""
  }

  /** A character of `/^[a-zA-Z0-9_]+$/`. */
  predicate WordChar(c: char) {
    IsUpper(c) || IsLower(c) || IsDigit(c) || c == '_'
  }

  /** Yup's `min` and `max` compare `value.length`, in UTF-16 code units. */
  predicate NameRule(s: string) {
    Required(s) && 2 <= JsLength(s) <= 50
  }

  predicate UsernameRule(s: string) {
    Required(s) && 3 <= JsLength(s) <= 30 && forall i :: 0 <= i < |s| ==> WordChar(s[i])
  }

  /** `required().email()`; the shape of an address is a parameter. */
  predicate EmailRule(s: string, isEmail: string -> bool) {
    Required(s) && isEmail(s)
  }

  predicate AtMost50(s: string) {
    JsLength(s) <= 50
  }

  /** A single character outside the Basic Multilingual Plane is two code
      units long, so on its own it meets the name's minimum of two. */
  lemma AstralCharacterCountsTwice()
    ensures |"\U{1F600}"| == 1 && JsLength("\U{1F600}") == 2
    ensures NameRule("\U{1F600}")
  {
    assert "\U{1F600}"[1..] == "";
  }

  /** The characters `.` does not match in a regular expression. */
  predicate LineBreak(c: char) {
    c == '\n' || c == '\r' || c == '\U{2028}' || c == '\U{2029}'
  }

  /** The text before the first line break. */
  function FirstLine(s: string): (r: string)
    ensures |r| <= |s| && r == s[..|r|]
    ensures forall i :: 0 <= i < |r| ==> !LineBreak(r[i])
    ensures |r| < |s| ==> LineBreak(s[|r|])
    decreases |s|
  {
    if |s| == 0 || LineBreak(s[0]) then "" else [s[0]] + FirstLine(s[1..])
  }

  predicate HasLower(s: string) { exists i :: 0 <= i < |s| && IsLower(s[i]) }
  predicate HasUpper(s: string) { exists i :: 0 <= i < |s| && IsUpper(s[i]) }
  predicate HasDigit(s: string) { exists i :: 0 <= i < |s| && IsDigit(s[i]) }

  /** `required().min(8).matches(/^(?=.*[a-z])(?=.*[A-Z])(?=.*\d)/)`: each
      lookahead scans only the first line. */
  predicate StrongPassword(s: string) {
    var line := FirstLine(s);
    Required(s) && JsLength(s) >= 8 && HasLower(line) && HasUpper(line) && HasDigit(line)
  }

  /** A strong password has the three kinds of character somewhere; on a
      single line that is also enough, together with the length. */
  lemma {:induction false} StrongPasswordMeaning(s: string)
    ensures StrongPassword(s) ==> JsLength(s) >= 8 && HasLower(s) && HasUpper(s) && HasDigit(s)
    ensures (forall i :: 0 <= i < |s| ==> !LineBreak(s[i])) ==>
              (StrongPassword(s) <==> JsLength(s) >= 8 && HasLower(s) && HasUpper(s) && HasDigit(s))
  {
    var line := FirstLine(s);
    assert forall i :: 0 <= i < |line| ==> line[i] == s[i];
    if forall i :: 0 <= i < |s| ==> !LineBreak(s[i]) {
      assert |line| == |s|;
      assert line == s;
    }
  }

  /** The first line of a text is everything before its first break. */
  lemma FirstLineStopsAtBreak(a: string, b: string)
    requires forall i :: 0 <= i < |a| ==> !LineBreak(a[i])
    requires |b| > 0 && LineBreak(b[0])
    ensures FirstLine(a + b) == a
  {
    var r := FirstLine(a + b);
    assert forall i :: 0 <= i < |a| ==> (a + b)[i] == a[i];
    assert (a + b)[|a|] == b[0];
    assert |r| == |a|;
    assert (a + b)[..|a|] == a;
  }

  /** A digit after a line break does not count. */
  lemma DigitAfterLineBreakIgnored()
    ensures HasDigit("abcdefgH\n1") && !StrongPassword("abcdefgH\n1")
  {
    var a, b := "abcdefgH", "\n1";
    assert a + b == "abcdefgH\n1";
    assert IsDigit((a + b)[9]);
    FirstLineStopsAtBreak(a, b);
    assert forall i :: 0 <= i < |a| ==> !IsDigit(a[i]);
  }

  /** The error keys of a form, in schema order. */
  function Check(checks: seq<(string, bool)>): (errs: seq<string>)
    ensures forall k :: k in errs <==> exists i :: 0 <= i < |checks| && checks[i].0 == k && !checks[i].1
    ensures |errs| == 0 <==> forall i :: 0 <= i < |checks| ==> checks[i].1
    decreases |checks|
  {
    if |checks| == 0 then []
    else
      var rest := Check(checks[1..]);
      assert forall i :: 0 < i < |checks| ==> checks[i] == checks[1..][i - 1];
      (if checks[0].1 then [] else [checks[0].0]) + rest
  }

  // ---- the profile form -----------------------------------------------------

  datatype ProfileValues = ProfileValues(name: string, username: string, email: string, department: string, jobRole: string)

  function ProfileChecks(v: ProfileValues, isEmail: string -> bool): seq<(string, bool)> {
    [ ("name", NameRule(v.name)),
      ("username", UsernameRule(v.username)),
      ("email", EmailRule(v.email, isEmail)),
      ("department", AtMost50(v.department)),
      ("jobRole", AtMost50(v.jobRole)) ]
  }

  function ProfileErrors(v: ProfileValues, isEmail: string -> bool): (errs: seq<string>)
    ensures "name" in errs <==> !NameRule(v.name)
    ensures "username" in errs <==> !UsernameRule(v.username)
    ensures "email" in errs <==> !EmailRule(v.email, isEmail)
    ensures "department" in errs <==> !AtMost50(v.department)
    ensures "jobRole" in errs <==> !AtMost50(v.jobRole)
    ensures |errs| == 0 <==>
              NameRule(v.name) && UsernameRule(v.username) && EmailRule(v.email, isEmail)
              && AtMost50(v.department) && AtMost50(v.jobRole)
  {
    var checks := ProfileChecks(v, isEmail);
    var errs := Check(checks);
    assert checks[0].0 == "name" && checks[1].0 == "username" && checks[2].0 == "email";
    assert checks[3].0 == "department" && checks[4].0 == "jobRole";
    errs
  }

  /** The form's values for a profile: each field, or '' when missing. */
  function ProfileInitialValues(p: Option<Profile>): (v: ProfileValues)
    ensures p.None? ==> v.name == "" && v.username == "" && v.email == "" && v.department == "" && v.jobRole == ""
    ensures p.Some? ==>
              v.name == p.value.name && v.username == p.value.username && v.email == p.value.email
              && v.department == p.value.department && v.jobRole == p.value.jobRole
  {
    if p.None? then ProfileValues("", "", "", "", "")
    else ProfileValues(p.value.name, p.value.username, p.value.email, p.value.department, p.value.jobRole)
  }

  const ProfileKeys: seq<string> := ["name", "username", "email", "department", "jobRole", "profileImage"]

  function FileField(key: string, file: Option<File>): Field {
    Field(key, if file.Some? then Some(QFile(file.value)) else None)
  }

  function ProfileFields(v: ProfileValues, file: Option<File>): seq<Field> {
    [ IfTruthy("name", v.name), IfTruthy("username", v.username), IfTruthy("email", v.email),
      IfTruthy("department", v.department), IfTruthy("jobRole", v.jobRole),
      FileField("profileImage", file) ]
  }

  /** The profile form's multipart body: every non-empty value in key order,
      then the selected file. */
  function ProfileFormData(v: ProfileValues, file: Option<File>): (fd: Query)
    ensures Lookup(fd, "name") == (if Truthy(v.name) then Some(QStr(v.name)) else None)
    ensures Lookup(fd, "username") == (if Truthy(v.username) then Some(QStr(v.username)) else None)
    ensures Lookup(fd, "email") == (if Truthy(v.email) then Some(QStr(v.email)) else None)
    ensures Lookup(fd, "department") == (if Truthy(v.department) then Some(QStr(v.department)) else None)
    ensures Lookup(fd, "jobRole") == (if Truthy(v.jobRole) then Some(QStr(v.jobRole)) else None)
    ensures Lookup(fd, "profileImage").Some? <==> file.Some?
    ensures file.Some? ==> Lookup(fd, "profileImage") == Some(QFile(file.value))
    ensures InOrder(fd, ProfileKeys)
  {
    var fields := ProfileFields(v, file);
    assert KeysOf(fields) == ProfileKeys;
    BuildFacts(fields);
    assert fields[0].key == "name" && fields[1].key == "username" && fields[2].key == "email";
    assert fields[3].key == "department" && fields[4].key == "jobRole" && fields[5].key == "profileImage";
    Build(fields)
  }

  // ---- the create-admin form --------------------------------------------------

  datatype AdminValues = AdminValues(
    name: string, username: string, email: string, password: string,
    department: string, jobRole: string, isActive: bool)

  const AdminInitialValues: AdminValues := AdminValues("", "", "", "", "", "", true)

  function AdminChecks(v: AdminValues, isEmail: string -> bool): seq<(string, bool)> {
    [ ("name", NameRule(v.name)),
      ("username", UsernameRule(v.username)),
      ("email", EmailRule(v.email, isEmail)),
      ("password", StrongPassword(v.password)),
      ("department", AtMost50(v.department)),
      ("jobRole", AtMost50(v.jobRole)) ]
  }

  function AdminErrors(v: AdminValues, isEmail: string -> bool): (errs: seq<string>)
    ensures "password" in errs <==> !StrongPassword(v.password)
    ensures |errs| == 0 <==>
              NameRule(v.name) && UsernameRule(v.username) && EmailRule(v.email, isEmail)
              && StrongPassword(v.password) && AtMost50(v.department) && AtMost50(v.jobRole)
  {
    var checks := AdminChecks(v, isEmail);
    assert checks[0].1 == NameRule(v.name) && checks[1].1 == UsernameRule(v.username);
    assert checks[2].1 == EmailRule(v.email, isEmail) && checks[3] == ("password", StrongPassword(v.password));
    assert checks[4].1 == AtMost50(v.department) && checks[5].1 == AtMost50(v.jobRole);
    Check(checks)
  }

  /** The profile fields of the create-admin values. */
  function AsProfile(v: AdminValues): ProfileValues {
    ProfileValues(v.name, v.username, v.email, v.department, v.jobRole)
  }

  /** The two admin forms judge their shared fields alike: apart from the
      password, the create-admin form reports exactly the profile form's
      errors. */
  lemma {:induction false} AdminFormExtendsProfileForm(v: AdminValues, isEmail: string -> bool, k: string)
    requires k != "password"
    ensures k in AdminErrors(v, isEmail) <==> k in ProfileErrors(AsProfile(v), isEmail)
  {
    var a := AdminChecks(v, isEmail);
    var p := ProfileChecks(AsProfile(v), isEmail);
    if k in AdminErrors(v, isEmail) {
      var i :| 0 <= i < |a| && a[i].0 == k && !a[i].1;
      var j := if i < 3 then i else i - 1;
      assert p[j] == a[i];
    }
    if k in ProfileErrors(AsProfile(v), isEmail) {
      var j :| 0 <= j < |p| && p[j].0 == k && !p[j].1;
      var i := if j < 3 then j else j + 1;
      assert a[i] == p[j];
    }
  }

  const AdminKeys: seq<string> := ["name", "username", "email", "password", "department", "jobRole", "isActive", "profileImage"]

  function AdminFields(v: AdminValues, file: Option<File>): seq<Field> {
    [ UnlessEmpty("name", v.name), UnlessEmpty("username", v.username), UnlessEmpty("email", v.email),
      UnlessEmpty("password", v.password), UnlessEmpty("department", v.department),
      UnlessEmpty("jobRole", v.jobRole), Field("isActive", Some(QFlag(v.isActive))),
      FileField("profileImage", file) ]
  }

  /** The create-admin form's multipart body: every value other than '' in
      key order, so the active flag is always sent, then the selected file. */
  function AdminFormData(v: AdminValues, file: Option<File>): (fd: Query)
    ensures Lookup(fd, "name") == (if v.name != "" then Some(QStr(v.name)) else None)
    ensures Lookup(fd, "username") == (if v.username != "" then Some(QStr(v.username)) else None)
    ensures Lookup(fd, "email") == (if v.email != "" then Some(QStr(v.email)) else None)
    ensures Lookup(fd, "password") == (if v.password != "" then Some(QStr(v.password)) else None)
    ensures Lookup(fd, "department") == (if v.department != "" then Some(QStr(v.department)) else None)
    ensures Lookup(fd, "jobRole") == (if v.jobRole != "" then Some(QStr(v.jobRole)) else None)
    ensures Lookup(fd, "isActive") == Some(QFlag(v.isActive))
    ensures Lookup(fd, "profileImage").Some? <==> file.Some?
    ensures file.Some? ==> Lookup(fd, "profileImage") == Some(QFile(file.value))
    ensures InOrder(fd, AdminKeys)
  {
    var fields := AdminFields(v, file);
    assert KeysOf(fields) == AdminKeys;
    BuildFacts(fields);
    assert fields[0].key == "name" && fields[1].key == "username" && fields[2].key == "email";
    assert fields[3].key == "password" && fields[4].key == "department" && fields[5].key == "jobRole";
    assert fields[6].key == "isActive" && fields[7].key == "profileImage";
    Build(fields)
  }

  /** JavaScript truthiness of a form value. */
  predicate TruthyValue(x: QVal) {
    match x
    case QNum(n) => n != 0
    case QStr(s) => s != ""
    case QFlag(b) => b
    case QFile(_) => true
  }

  /** The profile form keeps truthy values, the create-admin form every
      value but ''; on strings the two tests agree, and an inactive flag is
      the value only the second keeps. */
  lemma SendTestsDiffer(s: string)
    ensures TruthyValue(QStr(s)) <==> QStr(s) != QStr("")
    ensures !TruthyValue(QFlag(false)) && QFlag(false) != QStr("")
    ensures Lookup(AdminFormData(AdminInitialValues.(isActive := false), None), "isActive") == Some(QFlag(false))
  {
  }

  // ---- the image picker ----------------------------------------------------

  const ValidImageTypes: seq<string> := ["image/jpeg", "image/jpg", "image/png", "image/gif", "image/webp"]
  const MaxImageBytes: int := 5 * 1024 * 1024

  predicate AcceptableImage(f: File) {
    f.mime in ValidImageTypes && f.size <= MaxImageBytes
  }

  datatype ImageAlert = WrongType | TooLarge

  /** The selected file and its preview (a data URL once read). */
  datatype Picker = Picker(selected: Option<File>, preview: Option<string>)

  const EmptyPicker: Picker := Picker(None, None)

  datatype PickerEvent = Chosen(file: Option<File>) | PreviewRead(dataUrl: string) | Removed | Closed

  /** One picker event and the alert it raises. The type is checked before
      the size; a rejected file leaves the picker as it was. Removing the
      image and closing the dialog both clear file and preview. */
  function Pick(p: Picker, e: PickerEvent): (r: (Picker, Option<ImageAlert>))
    ensures e.Chosen? && e.file.None? ==> r == (p, None)
    ensures e.Chosen? && e.file.Some? && e.file.value.mime !in ValidImageTypes ==> r == (p, Some(WrongType))
    ensures e.Chosen? && e.file.Some? && e.file.value.mime in ValidImageTypes && e.file.value.size > MaxImageBytes ==>
              r == (p, Some(TooLarge))
    ensures e.Chosen? && e.file.Some? && AcceptableImage(e.file.value) ==>
              r.0 == p.(selected := e.file) && r.1 == None
    ensures e.PreviewRead? ==> r.0 == p.(preview := Some(e.dataUrl)) && r.1 == None
    ensures e.Removed? || e.Closed? ==> r == (EmptyPicker, None)
  {
    match e
    case Chosen(f) =>
      if f.None? then (p, None)
      else if f.value.mime !in ValidImageTypes then (p, Some(WrongType))
      else if f.value.size > MaxImageBytes then (p, Some(TooLarge))
      else (p.(selected := f), None)
    case PreviewRead(u) => (p.(preview := Some(u)), None)
    case Removed => (EmptyPicker, None)
    case Closed => (EmptyPicker, None)
  }

  /** The picker never holds a file the checks would refuse. */
  predicate PickerSound(p: Picker) {
    p.selected.Some? ==> AcceptableImage(p.selected.value)
  }

  /** The picker after a run of events. */
  function PickAll(p: Picker, es: seq<PickerEvent>): Picker
    decreases |es|
  {
    if |es| == 0 then p else PickAll(Pick(p, es[0]).0, es[1..])
  }

  lemma {:induction false} PickerStaysSound(p: Picker, es: seq<PickerEvent>)
    requires PickerSound(p)
    ensures PickerSound(PickAll(p, es))
    decreases |es|
  {
    if |es| > 0 {
      assert PickerSound(Pick(p, es[0]).0);
      PickerStaysSound(Pick(p, es[0]).0, es[1..]);
    }
  }

  /** A file of exactly five mebibytes passes although the alert speaks of
      "less than 5MB". */
  lemma FiveMebibytesAccepted()
    ensures Pick(EmptyPicker, Chosen(Some(File("image/png", MaxImageBytes)))).0.selected.Some?
    ensures Pick(EmptyPicker, Chosen(Some(File("image/png", MaxImageBytes + 1)))).1 == Some(TooLarge)
  {
  }

  // ---- avatar addresses ------------------------------------------------------

  /** A template literal's rendering of a possibly undefined variable. */
  function TemplateText(env: Option<string>): string {
    if env.Some? then env.value else "undefined"
  }

  /** `getAvatarUrl`: no address without an image, an absolute 'http' address
      as it is, otherwise the image path behind the configured base. */
  function ImageUrl(env: Option<string>, image: Option<string>): (u: Option<string>)
    ensures u.None? <==> !Present(image)
    ensures Present(image) && StartsWith(image.value, "http") ==> u == image
    ensures Present(image) && !StartsWith(image.value, "http") ==>
              u.Some? && StartsWith(u.value, TemplateText(env)) && u.value[|TemplateText(env)|..] == image.value
  {
    if !Present(image) then None
    else if StartsWith(image.value, "http") then image
    else Some(TemplateText(env) + image.value)
  }

  /** For every base and every non-empty image path: the address ends with
      the path; a relative path is the base text followed by the path, so
      two relative paths share an address only when they are equal. */
  lemma ImageUrlKeepsPath(env: Option<string>, path: string, other: string)
    requires path != ""
    ensures var u := ImageUrl(env, Some(path));
            u.Some? && |path| <= |u.value| && u.value[|u.value| - |path|..] == path
    ensures !StartsWith(path, "http") ==> ImageUrl(env, Some(path)) == Some(TemplateText(env) + path)
    ensures (other != "" && !StartsWith(path, "http") && !StartsWith(other, "http")
             && ImageUrl(env, Some(path)) == ImageUrl(env, Some(other))) ==> path == other
  {
    var b := TemplateText(env);
    if !StartsWith(path, "http") {
      assert (b + path)[|b + path| - |path|..] == path;
      if other != "" && !StartsWith(other, "http") && b + path == b + other {
        assert path == (b + path)[|b|..];
        assert other == (b + other)[|b|..];
      }
    }
  }

  /** Without the base variable a relative image points at "undefined…". */
  lemma MissingBaseIsUndefined(path: string)
    requires path != "" && !StartsWith(path, "http")
    ensures ImageUrl(None, Some(path)) == Some("undefined" + path)
  {
  }

  /** The profile form's avatar: the local preview first, then the stored
      image's address. */
  function ProfileAvatar(preview: Option<string>, env: Option<string>, image: Option<string>): (u: Option<string>)
    ensures Present(preview) ==> u == preview
    ensures !Present(preview) ==> u == ImageUrl(env, image)
  {
    if Present(preview) then preview else ImageUrl(env, image)
  }

  // ---- submission ----------------------------------------------------------

  /** Formik submits only when validation finds no error. */
  function SubmitProfile(v: ProfileValues, p: Picker, isEmail: string -> bool): (fd: Option<Query>)
    ensures fd.Some? <==>
              NameRule(v.name) && UsernameRule(v.username) && EmailRule(v.email, isEmail)
              && AtMost50(v.department) && AtMost50(v.jobRole)
    ensures fd.Some? ==> (Lookup(fd.value, "profileImage").Some? <==> p.selected.Some?)
  {
    if |ProfileErrors(v, isEmail)| == 0 then Some(ProfileFormData(v, p.selected)) else None
  }

  /** Submitting the form untouched, for a profile whose fields pass the
      rules and with no file chosen, sends that profile's name, user name
      and e-mail, its department and job role when non-empty, and no image. */
  lemma UntouchedProfileFormResubmits(p: Profile, isEmail: string -> bool)
    requires NameRule(p.name) && UsernameRule(p.username) && EmailRule(p.email, isEmail)
    requires AtMost50(p.department) && AtMost50(p.jobRole)
    ensures var fd := SubmitProfile(ProfileInitialValues(Some(p)), EmptyPicker, isEmail);
            && fd.Some?
            && Lookup(fd.value, "name") == Some(QStr(p.name))
            && Lookup(fd.value, "username") == Some(QStr(p.username))
            && Lookup(fd.value, "email") == Some(QStr(p.email))
            && Lookup(fd.value, "department") == (if p.department != "" then Some(QStr(p.department)) else None)
            && Lookup(fd.value, "jobRole") == (if p.jobRole != "" then Some(QStr(p.jobRole)) else None)
            && Lookup(fd.value, "profileImage").None?
  {
    var v := ProfileInitialValues(Some(p));
    assert SubmitProfile(v, EmptyPicker, isEmail) == Some(ProfileFormData(v, None));
  }

  /** Without a loaded profile the form starts empty and cannot be sent. */
  lemma EmptyProfileFormRefused(isEmail: string -> bool)
    ensures SubmitProfile(ProfileInitialValues(None), EmptyPicker, isEmail).None?
  {
  }

  /** A submitted profile always carries a valid name, username and
      e-mail, and an image only when one passed the checks. */
  lemma {:induction false} SubmittedProfileIsComplete(v: ProfileValues, p: Picker, isEmail: string -> bool)
    requires PickerSound(p) && SubmitProfile(v, p, isEmail).Some?
    ensures var fd := SubmitProfile(v, p, isEmail).value;
            && Lookup(fd, "name") == Some(QStr(v.name)) && 2 <= JsLength(v.name) <= 50
            && Lookup(fd, "username") == Some(QStr(v.username)) && UsernameRule(v.username)
            && Lookup(fd, "email") == Some(QStr(v.email)) && isEmail(v.email)
            && (forall f :: Lookup(fd, "profileImage") == Some(QFile(f)) ==> AcceptableImage(f))
  {
  }

  function SubmitAdmin(v: AdminValues, p: Picker, isEmail: string -> bool): (fd: Option<Query>)
    ensures fd.Some? <==>
              NameRule(v.name) && UsernameRule(v.username) && EmailRule(v.email, isEmail)
              && StrongPassword(v.password) && AtMost50(v.department) && AtMost50(v.jobRole)
    ensures fd.Some? ==> (Lookup(fd.value, "profileImage").Some? <==> p.selected.Some?)
  {
    if |AdminErrors(v, isEmail)| == 0 then Some(AdminFormData(v, p.selected)) else None
  }

  /** A created admin always gets a strong password and an explicit active
      flag. */
  lemma {:induction false} SubmittedAdminIsComplete(v: AdminValues, p: Picker, isEmail: string -> bool)
    requires SubmitAdmin(v, p, isEmail).Some?
    ensures var fd := SubmitAdmin(v, p, isEmail).value;
            && Lookup(fd, "password") == Some(QStr(v.password)) && StrongPassword(v.password)
            && Lookup(fd, "isActive") == Some(QFlag(v.isActive))
  {
  }

  /** The untouched create-admin form is refused. */
  lemma EmptyAdminFormRefused(p: Picker, isEmail: string -> bool)
    ensures SubmitAdmin(AdminInitialValues, p, isEmail).None?
  {
  }

  // ---- login and password reset ----------------------------------------------

  datatype LoginValues = LoginValues(emailOrUsername: string, password: string)

  /** The login schema: at least 3 units of e-mail or user name and at
      least 6 of password; `required` adds nothing beyond the minimums. */
  function LoginValid(v: LoginValues): (ok: bool)
    ensures ok <==> JsLength(v.emailOrUsername) >= 3 && JsLength(v.password) >= 6
    ensures ok ==> |v.emailOrUsername| >= 2 && |v.password| >= 3
  {
    && Required(v.emailOrUsername) && JsLength(v.emailOrUsername) >= 3
    && Required(v.password) && JsLength(v.password) >= 6
  }

  datatype ResetValues = ResetValues(password: string, confirmPassword: string)

  /** `confirmPassword`: required, and one of the password and `null`. */
  function ResetValid(v: ResetValues): (ok: bool)
    ensures ok <==> StrongPassword(v.password) && v.confirmPassword == v.password
    ensures ok ==> ResetValid(ResetValues(v.confirmPassword, v.password))
  {
    StrongPassword(v.password) && Required(v.confirmPassword) && v.confirmPassword == v.password
  }

  /** Formik's `isValid`: true until the first validation has run, then
      true exactly when that validation found no error. */
  datatype Validation = NotYetValidated | Validated(errorCount: nat)

  function IsValid(x: Validation): bool {
    x.NotYetValidated? || x.errorCount == 0
  }

  /** The login button's `disabled`. */
  function LoginDisabled(isLoading: bool, x: Validation): (d: bool)
    ensures !d <==> !isLoading && IsValid(x)
  {
    isLoading || !IsValid(x)
  }

  /** The reset button's `disabled`: also once the reset has succeeded. */
  function ResetDisabled(isLoading: bool, x: Validation, isSuccess: bool): (d: bool)
    ensures !d <==> !isLoading && IsValid(x) && !isSuccess
    ensures !d ==> !LoginDisabled(isLoading, x)
  {
    isLoading || !IsValid(x) || isSuccess
  }

  /** What the reset page sends: the token from the address and both
      password fields. */
  datatype ResetRequest = ResetRequest(url: string, password: string, confirmPassword: string)

  function SubmitReset(token: string, v: ResetValues): (r: Option<ResetRequest>)
    ensures r.Some? <==> ResetValid(v)
    ensures r.Some? ==> r.value.url == AuthService.ResetPasswordUrl(token)
    ensures r.Some? ==> r.value.password == v.password && r.value.confirmPassword == v.confirmPassword
  {
    if ResetValid(v) then Some(ResetRequest(AuthService.ResetPasswordUrl(token), v.password, v.confirmPassword)) else None
  }

  /** The untouched reset form's button is enabled, but pressing it sends
      nothing: validation runs first. */
  lemma UntouchedResetFormSendsNothing(token: string)
    ensures !ResetDisabled(false, NotYetValidated, false)
    ensures SubmitReset(token, ResetValues("", "")).None?
  {
  }

  /** Every request the reset page sends carries two equal passwords that
      the login form would also accept. */
  lemma {:induction false} SentResetIsConsistent(token: string, v: ResetValues)
    requires SubmitReset(token, v).Some?
    ensures var r := SubmitReset(token, v).value;
            && r.password == r.confirmPassword
            && LoginValid(LoginValues("you", r.password))
  {
  }
}

=== FILE: jscore.dfy ===
/** The JavaScript value semantics the dashboard relies on, stated once:
    `undefined`/`null` as an Option, truthiness of strings and numbers,
    the truncating remainder operator, `Array.prototype.slice`, and the
    handful of `String` methods the helpers call (on ASCII letters). */
module JsCore {

  /** A value that may be `undefined` or `null` (`None`). */
  datatype Option<+T> = None | Some(value: T) {
    /** Destructuring default `{ x = d } = params`: `d` only when missing. */
    function GetOr(default: T): T {
      if Some? then value else default
    }
  }

  /** A string is truthy in JavaScript exactly when it is non-empty. */
  predicate Truthy(s: string) {
    s != ""
  }

  /** A possibly missing string is truthy: present and non-empty. */
  predicate Present(s: Option<string>) {
    s.Some? && s.value != ""
  }

  /** `s || d` on a possibly missing string. */
  function OrElse(s: Option<string>, d: string): string {
    if Present(s) then s.value else d
  }

  /** A possibly missing number is truthy: present and not zero. */
  predicate NumTruthy(n: Option<int>) {
    n.Some? && n.value != 0
  }

  /** `n || d` on a possibly missing number (0 is falsy). */
  function NumOr(n: Option<int>, d: int): int {
    if NumTruthy(n) then n.value else d
  }

  /** `Math.floor(a / b)` for a positive divisor. */
  function FloorDiv(a: int, b: int): (q: int)
    requires b > 0
    ensures b * q <= a < b * q + b
  {
    a / b
  }

  /** The quotient `a / b` truncated toward zero, as JavaScript's `%` uses it. */
  function TruncDiv(a: int, b: int): (q: int)
    requires b > 0
    ensures a >= 0 ==> b * q <= a < b * q + b
    ensures a < 0 ==> b * q - b < a <= b * q
  {
    if a >= 0 then a / b else -((-a) / b)
  }

  /** JavaScript's `a % b`: the remainder takes the sign of the dividend. */
  function Rem(a: int, b: int): (r: int)
    requires b > 0
    ensures a == b * TruncDiv(a, b) + r
    ensures -b < r < b
    ensures a >= 0 ==> 0 <= r
    ensures a < 0 ==> r <= 0
  {
    a - b * TruncDiv(a, b)
  }

  /** Index normalisation used by `Array.prototype.slice`. */
  function RelativeIndex(i: int, len: nat): (k: nat)
    ensures k <= len
  {
    if i < 0 then (if len + i < 0 then 0 else len + i)
    else if i > len then len else i
  }

  /** `s.slice(start, end)`: clips both bounds, counts negative ones from the end. */
  function Slice<T>(s: seq<T>, start: int, end: int): (r: seq<T>)
    ensures |r| <= |s|
    ensures 0 <= start <= end <= |s| ==> r == s[start..end]
    ensures 0 <= start && start <= end ==> |r| <= end - start
    ensures 0 <= start ==>
              forall i :: 0 <= i < |r| ==> start + i < |s| && r[i] == s[start + i]
  {
    var from := RelativeIndex(start, |s|);
    var to := RelativeIndex(end, |s|);
    if from < to then s[from..to] else []
  }

  /** `s.startsWith(p)`. */
  predicate StartsWith(s: string, p: string) {
    |p| <= |s| && s[..|p|] == p
  }

  /** `hay.includes(needle)`. */
  predicate Includes(hay: string, needle: string) {
    exists i | 0 <= i <= |hay| - |needle| :: StartsWith(hay[i..], needle)
  }

  predicate IsUpper(c: char) { 'A' <= c <= 'Z' }
  predicate IsLower(c: char) { 'a' <= c <= 'z' }
  predicate IsDigit(c: char) { '0' <= c <= '9' }

  function LowerChar(c: char): char {
    if IsUpper(c) then (c as int + 32) as char else c
  }

  function UpperChar(c: char): char {
    if IsLower(c) then (c as int - 32) as char else c
  }

  /** The UTF-16 code units of one character: two for a character outside
      the Basic Multilingual Plane, one otherwise. */
  function CodeUnits(c: char): nat {
    if c as int >= 0x1_0000 then 2 else 1
  }

  /** `s.length`: JavaScript counts UTF-16 code units, so it is at least the
      number of characters and at most twice it. */
  function JsLength(s: string): (n: nat)
    ensures |s| <= n <= 2 * |s|
    decreases |s|
  {
    if |s| == 0 then 0 else CodeUnits(s[0]) + JsLength(s[1..])
  }

  /** For text inside the Basic Multilingual Plane the two lengths agree. */
  lemma {:induction false} JsLengthOfBmp(s: string)
    requires forall i :: 0 <= i < |s| ==> s[i] as int < 0x1_0000
    ensures JsLength(s) == |s|
    decreases |s|
  {
    if |s| > 0 {
      JsLengthOfBmp(s[1..]);
    }
  }

  /** `s.toLowerCase()` on ASCII letters. */
  function ToLower(s: string): (r: string)
    ensures |r| == |s|
    ensures forall i :: 0 <= i < |s| ==> r[i] == LowerChar(s[i])
  {
    seq(|s|, i requires 0 <= i < |s| => LowerChar(s[i]))
  }

  lemma ToLowerIdempotent(s: string)
    ensures ToLower(ToLower(s)) == ToLower(s)
  {
  }

  /** A string without upper-case letters is its own lower case. */
  lemma ToLowerOfLower(s: string)
    requires forall i :: 0 <= i < |s| ==> !IsUpper(s[i])
    ensures ToLower(s) == s
  {
  }

  /** `s.charAt(0).toUpperCase() + s.slice(1)` on ASCII letters. */
  function Capitalize(s: string): (r: string)
    ensures |r| == |s|
    ensures |s| > 0 ==> r[0] == UpperChar(s[0]) && r[1..] == s[1..]
  {
    if |s| == 0 then "" else [UpperChar(s[0])] + s[1..]
  }

  /** `s.split(sep)`: the pieces between separators, always at least one. */
  function Split(s: string, sep: char): (r: seq<string>)
    ensures |r| >= 1
    ensures forall i :: 0 <= i < |r| ==> sep !in r[i]
    decreases |s|
  {
    if |s| == 0 then [""]
    else
      var rest := Split(s[1..], sep);
      if s[0] == sep then [""] + rest
      else [[s[0]] + rest[0]] + rest[1..]
  }

  /** `parts.join(sep)`. */
  function Join(parts: seq<string>, sep: char): string
    decreases |parts|
  {
    if |parts| == 0 then ""
    else if |parts| == 1 then parts[0]
    else parts[0] + [sep] + Join(parts[1..], sep)
  }

  /** Joining the pieces of a split gives back the string. */
  lemma {:induction false} JoinSplit(s: string, sep: char)
    ensures Join(Split(s, sep), sep) == s
    decreases |s|
  {
    if |s| > 0 {
      var rest := Split(s[1..], sep);
      JoinSplit(s[1..], sep);
      if s[0] == sep {
        assert Split(s, sep) == [""] + rest;
        assert ([""] + rest)[1..] == rest;
        assert s == [sep] + s[1..];
      } else {
        var r := Split(s, sep);
        assert r == [[s[0]] + rest[0]] + rest[1..];
        if |rest| == 1 {
          assert s[1..] == rest[0];
        } else {
          assert r[1..] == rest[1..];
          assert Join(rest, sep) == rest[0] + [sep] + Join(rest[1..], sep);
          assert s == [s[0]] + s[1..];
        }
      }
    }
  }

  /** Splitting a string made of separator-free pieces gives the pieces back. */
  lemma {:induction false} SplitJoin(parts: seq<string>, sep: char)
    requires |parts| >= 1
    requires forall i :: 0 <= i < |parts| ==> sep !in parts[i]
    ensures Split(Join(parts, sep), sep) == parts
    decreases |parts|
  {
    if |parts| == 1 {
      SplitNoSep(parts[0], sep);
    } else {
      SplitJoin(parts[1..], sep);
      SplitConcat(parts[0], Join(parts[1..], sep), sep);
      SplitNoSep(parts[0], sep);
      assert [parts[0]] + parts[1..] == parts;
    }
  }

  /** A string without the separator splits into itself. */
  lemma {:induction false} SplitNoSep(s: string, sep: char)
    requires sep !in s
    ensures Split(s, sep) == [s]
    decreases |s|
  {
    if |s| > 0 {
      assert sep !in s[1..];
      SplitNoSep(s[1..], sep);
      assert [s[0]] + s[1..] == s;
    }
  }

  /** Splitting `a + sep + b` splits `a` and `b` independently. */
  lemma {:induction false} SplitConcat(a: string, b: string, sep: char)
    ensures Split(a + [sep] + b, sep) == Split(a, sep) + Split(b, sep)
    decreases |a|
  {
    var s := a + [sep] + b;
    if |a| == 0 {
      assert s == [sep] + b;
      assert s[1..] == b;
    } else {
      assert s[1..] == a[1..] + [sep] + b;
      SplitConcat(a[1..], b, sep);
      var ra := Split(a[1..], sep);
      var rb := Split(b, sep);
      if a[0] == sep {
      } else {
        assert Split(s[1..], sep) == ra + rb;
        assert (ra + rb)[0] == ra[0];
        assert (ra + rb)[1..] == ra[1..] + rb;
      }
    }
  }

  /** `arr.filter((x) => x)` on strings: keeps the non-empty ones, in order. */
  function NonEmpty(xs: seq<string>): (r: seq<string>)
    ensures |r| <= |xs|
    ensures forall i :: 0 <= i < |r| ==> r[i] != "" && r[i] in xs
    decreases |xs|
  {
    if |xs| == 0 then []
    else if xs[0] == "" then NonEmpty(xs[1..])
    else [xs[0]] + NonEmpty(xs[1..])
  }

  lemma {:induction false} NonEmptyConcat(a: seq<string>, b: seq<string>)
    ensures NonEmpty(a + b) == NonEmpty(a) + NonEmpty(b)
    decreases |a|
  {
    if |a| > 0 {
      assert (a + b)[1..] == a[1..] + b;
      NonEmptyConcat(a[1..], b);
    } else {
      assert a + b == b;
    }
  }
}

=== FILE: notifications.dfy ===
/** The notifications page and drawer: a tab that selects read, unread or
    all notifications, a page counter that load-more advances, and the
    requests each interaction sends. */
module Notifications {
  import opened JsCore
  import Queries

  /** The `isRead` filter of a tab: 'false' for the Unread tab (1), 'true'
      for the Read tab (2), and '' (no filter) for every other tab. */
  function TabFilter(tab: int): (isRead: string)
    ensures isRead == "false" <==> tab == 1
    ensures isRead == "true" <==> tab == 2
    ensures isRead == "" <==> tab != 1 && tab != 2
  {
    if tab == 1 then "false" else if tab == 2 then "true" else ""
  }

  /** The local paging filters of the page and of the drawer. */
  datatype Filters = Filters(page: int, limit: int)

  const FirstPage: Filters := Filters(1, 10)

  /** The local state: the selected tab and the filters. */
  datatype View = View(tab: int, filters: Filters)

  const InitialView: View := View(0, FirstPage)

  /** The parameters `{ ...filters, isRead }` handed to `getNotifications`. */
  function Params(v: View): Queries.NotificationParams {
    Queries.NotificationParams(Some(v.filters.page), Some(v.filters.limit), None, None, Some(TabFilter(v.tab)))
  }

  /** The request a view sends: its page and size, and the read filter
      exactly on the Unread and Read tabs. */
  function ListQuery(v: View): (q: Queries.Query)
    ensures Queries.Lookup(q, "page") == Some(Queries.QNum(v.filters.page))
    ensures Queries.Lookup(q, "limit") == Some(Queries.QNum(v.filters.limit))
    ensures Queries.Lookup(q, "type") == None && Queries.Lookup(q, "priority") == None
    ensures Queries.Lookup(q, "isRead") == Some(Queries.QStr("false")) <==> v.tab == 1
    ensures Queries.Lookup(q, "isRead") == Some(Queries.QStr("true")) <==> v.tab == 2
    ensures Queries.Lookup(q, "isRead") == None <==> v.tab != 1 && v.tab != 2
  {
    Queries.NotificationsQuery(Params(v))
  }

  /** What an interaction dispatches. */
  datatype Dispatch =
    | Fetch(params: Queries.NotificationParams)
    | FetchStats
    | MarkRead(id: string)
    | MarkAllRead
    | DeleteOne(id: string)
    | DeleteRead

  datatype Event =
    | TabChanged(tab: int)
    | LoadMore
    | ItemClicked(id: string, isRead: bool)
    | Deleted(id: string)
    | MarkAllClicked
    | ClearReadClicked
    | Refreshed

  /** The view after an event: a tab change selects the tab and returns to
      the first page of ten, load-more advances the page by one, and nothing
      else touches the view. */
  function Next(v: View, e: Event): (r: View)
    ensures e.TabChanged? ==> r.tab == e.tab && r.filters == FirstPage
    ensures e.LoadMore? ==> r.tab == v.tab && r.filters.page == v.filters.page + 1 && r.filters.limit == v.filters.limit
    ensures !e.TabChanged? && !e.LoadMore? ==> r == v
  {
    match e
    case TabChanged(t) => View(t, FirstPage)
    case LoadMore => v.(filters := v.filters.(page := v.filters.page + 1))
    case _ => v
  }

  /** True for the events after which the list effect runs again: a tab
      change always stores a new filters object, load-more does too. */
  predicate ReloadsList(e: Event) {
    e.TabChanged? || e.LoadMore?
  }

  /** The direct dispatches of an event handler. */
  function Direct(v: View, e: Event): (ds: seq<Dispatch>)
    ensures e.ItemClicked? ==> (ds == [MarkRead(e.id)] <==> !e.isRead) && (e.isRead ==> ds == [])
    ensures e.Refreshed? ==> ds == [Fetch(Params(v))]
    ensures ReloadsList(e) ==> ds == []
  {
    match e
    case ItemClicked(id, read) => if read then [] else [MarkRead(id)]
    case Deleted(id) => [DeleteOne(id)]
    case MarkAllClicked => [MarkAllRead]
    case ClearReadClicked => [DeleteRead]
    case Refreshed => [Fetch(Params(v))]
    case _ => []
  }

  /** The notifications page: an event's handler dispatches, then the list
      effect re-fetches the list and the counts when the view changed. */
  function PageStep(v: View, e: Event): (r: (View, seq<Dispatch>))
    ensures r.0 == Next(v, e)
    ensures ReloadsList(e) ==> r.1 == [Fetch(Params(r.0)), FetchStats]
    ensures !ReloadsList(e) ==> r.1 == Direct(v, e)
  {
    var w := Next(v, e);
    (w, Direct(v, e) + if ReloadsList(e) then [Fetch(Params(w)), FetchStats] else [])
  }

  /** The drawer has no refresh button and shows no counts. */
  predicate DrawerEvent(e: Event) {
    !e.Refreshed?
  }

  /** The drawer: the same handlers, but its list effect fetches only while
      the drawer is open, and never the counts. */
  function DrawerStep(open: bool, v: View, e: Event): (r: (View, seq<Dispatch>))
    requires DrawerEvent(e)
    ensures r.0 == Next(v, e)
    ensures ReloadsList(e) && open ==> r.1 == [Fetch(Params(r.0))]
    ensures ReloadsList(e) && !open ==> r.1 == []
    ensures !ReloadsList(e) ==> r.1 == Direct(v, e)
    ensures forall i :: 0 <= i < |r.1| ==> !r.1[i].FetchStats?
  {
    var w := Next(v, e);
    (w, Direct(v, e) + if ReloadsList(e) && open then [Fetch(Params(w))] else [])
  }

  /** Opening or closing the drawer: the list effect runs on opening only. */
  function DrawerToggled(v: View, open: bool): (ds: seq<Dispatch>)
    ensures |ds| == 1 <==> open
    ensures open ==> ds == [Fetch(Params(v))]
    ensures !open ==> ds == []
  {
    if open then [Fetch(Params(v))] else []
  }

  /** A closed drawer never asks for the list. */
  lemma {:induction false} ClosedDrawerNeverFetches(v: View, e: Event)
    requires DrawerEvent(e)
    ensures forall i :: 0 <= i < |DrawerStep(false, v, e).1| ==> !DrawerStep(false, v, e).1[i].Fetch?
  {
    var ds := DrawerStep(false, v, e).1;
    assert ds == Direct(v, e);
  }

  /** An open drawer requests exactly the list the page would request. */
  lemma OpenDrawerAgreesWithPage(v: View, e: Event)
    requires DrawerEvent(e)
    ensures DrawerStep(true, v, e).0 == PageStep(v, e).0
    ensures ReloadsList(e) ==> DrawerStep(true, v, e).1 == PageStep(v, e).1[..1]
    ensures !ReloadsList(e) ==> DrawerStep(true, v, e).1 == PageStep(v, e).1
  {
  }

  /** `hasMore={pagination.page < pagination.totalPages}`: a comparison with a
      missing value is false. */
  datatype ListPagination = ListPagination(page: Option<int>, totalPages: Option<int>)

  function HasMore(p: ListPagination): (more: bool)
    ensures p.page.None? || p.totalPages.None? ==> !more
    ensures more ==> p.page.value < p.totalPages.value
  {
    p.page.Some? && p.totalPages.Some? && p.page.value < p.totalPages.value
  }

  /** When the list offers more for the page on screen, the request that
      load-more sends asks for a page the server has. */
  lemma LoadMoreStaysInRange(v: View, p: ListPagination)
    requires HasMore(p) && p.page == Some(v.filters.page)
    ensures var w := PageStep(v, LoadMore);
            && w.1 == [Fetch(Params(w.0)), FetchStats]
            && 1 <= w.0.filters.page - v.filters.page
            && w.0.filters.page <= p.totalPages.value
  {
  }

  /** The view after a run of events. */
  function Run(v: View, es: seq<Event>): View
    decreases |es|
  {
    if |es| == 0 then v else Run(Next(v, es[0]), es[1..])
  }

  function LoadMores(n: nat): (es: seq<Event>)
    ensures |es| == n
    ensures forall i :: 0 <= i < n ==> es[i] == LoadMore
  {
    if n == 0 then [] else [LoadMore] + LoadMores(n - 1)
  }

  /** Loading more `n` times advances the page by `n` and keeps the tab and
      the page size. */
  lemma {:induction false} LoadMoreAdvances(v: View, n: nat)
    ensures Run(v, LoadMores(n)) == v.(filters := v.filters.(page := v.filters.page + n))
    decreases n
  {
    if n > 0 {
      var es := LoadMores(n);
      assert es[0] == LoadMore && es[1..] == LoadMores(n - 1);
      LoadMoreAdvances(Next(v, LoadMore), n - 1);
    }
  }

  /** After switching to a tab and loading more `n` times, the request is
      page `n + 1` of ten under that tab's read filter, wherever the view
      was before. */
  lemma {:induction false} TabThenLoadMore(v: View, tab: int, n: nat)
    ensures var w := Run(v, [TabChanged(tab)] + LoadMores(n));
            w == View(tab, Filters(1 + n, 10))
  {
    var es := [TabChanged(tab)] + LoadMores(n);
    assert es[0] == TabChanged(tab) && es[1..] == LoadMores(n);
    LoadMoreAdvances(View(tab, FirstPage), n);
  }
}

=== FILE: paging.dfy ===
/** Paging and filtering of the list screens: the 1-based server pages shown
    through a 0-based paginator, client-side page slicing, the rows-per-page
    reset, the order in which a table picks what to render, and the filter
    and dialog state of the admin management page. */
module Paging {
  import opened JsCore
  import Queries

  // ---- server-side paging -------------------------------------------------

  /** The `pagination` object a list response carries; fields may be missing. */
  datatype Pagination = Pagination(total: Option<int>, limit: Option<int>, page: Option<int>)

  /** What the paginator is given: row count, page size and 0-based page. */
  datatype Pager = Pager(count: int, rowsPerPage: int, page: int)

  /** `count={total || 0} rowsPerPage={limit || 10} page={(page || 1) - 1}`. */
  function TablePager(p: Pagination): (t: Pager)
    ensures NumTruthy(p.total) ==> t.count == p.total.value
    ensures !NumTruthy(p.total) ==> t.count == 0
    ensures NumTruthy(p.limit) ==> t.rowsPerPage == p.limit.value
    ensures !NumTruthy(p.limit) ==> t.rowsPerPage == 10
    ensures NumTruthy(p.page) ==> t.page + 1 == p.page.value
    ensures !NumTruthy(p.page) ==> t.page == 0
  {
    Pager(NumOr(p.total, 0), NumOr(p.limit, 10), NumOr(p.page, 1) - 1)
  }

  /** `onPageChange(newPage + 1)`: the 1-based page handed back to the page. */
  function FromTablePage(newPage: int): (page: int)
    ensures page - 1 == newPage
  {
    newPage + 1
  }

  /** The two conversions are inverse: a server page shown and picked again
      is the same page, and a paginator page sent and echoed back is the same
      paginator page. */
  lemma PageConversionRoundTrip(p: Pagination, newPage: int)
    ensures NumTruthy(p.page) ==> FromTablePage(TablePager(p).page) == p.page.value
    ensures newPage >= 0 ==> TablePager(p.(page := Some(FromTablePage(newPage)))).page == newPage
  {
  }

  // ---- client-side paging -------------------------------------------------

  /** `data.slice(page * rowsPerPage, page * rowsPerPage + rowsPerPage)`. */
  function VisibleRows<T>(data: seq<T>, page: int, rowsPerPage: int): (rows: seq<T>)
    requires page >= 0 && rowsPerPage >= 0
    ensures |rows| <= rowsPerPage
    ensures forall i :: 0 <= i < |rows| ==> page * rowsPerPage + i < |data| && rows[i] == data[page * rowsPerPage + i]
    ensures page * rowsPerPage + rowsPerPage <= |data| ==> |rows| == rowsPerPage
    ensures page * rowsPerPage <= |data| <= page * rowsPerPage + rowsPerPage ==> |rows| == |data| - page * rowsPerPage
    ensures page * rowsPerPage >= |data| ==> rows == []
  {
    Slice(data, page * rowsPerPage, page * rowsPerPage + rowsPerPage)
  }

  /** The pages from `page` on, one after the other. */
  function PagesFrom<T>(data: seq<T>, rowsPerPage: nat, page: nat): seq<T>
    requires rowsPerPage > 0
    decreases |data| - page * rowsPerPage
  {
    if page * rowsPerPage >= |data| then []
    else VisibleRows(data, page, rowsPerPage) + PagesFrom(data, rowsPerPage, page + 1)
  }

  /** Reading the pages in order shows every row once, in data order. */
  lemma {:induction false} PagesFromCover<T>(data: seq<T>, rowsPerPage: nat, page: nat)
    requires rowsPerPage > 0
    ensures page * rowsPerPage <= |data| ==> PagesFrom(data, rowsPerPage, page) == data[page * rowsPerPage..]
    ensures page * rowsPerPage >= |data| ==> PagesFrom(data, rowsPerPage, page) == []
    decreases |data| - page * rowsPerPage
  {
    var start := page * rowsPerPage;
    if start < |data| {
      var next := (page + 1) * rowsPerPage;
      assert next == start + rowsPerPage;
      PagesFromCover(data, rowsPerPage, page + 1);
      if next <= |data| {
        assert VisibleRows(data, page, rowsPerPage) == data[start..next];
        assert data[start..] == data[start..next] + data[next..];
      } else {
        assert VisibleRows(data, page, rowsPerPage) == data[start..];
      }
    }
  }

  lemma PagesCoverData<T>(data: seq<T>, rowsPerPage: nat)
    requires rowsPerPage > 0
    ensures PagesFrom(data, rowsPerPage, 0) == data
  {
    PagesFromCover(data, rowsPerPage, 0);
  }

  /** The local paginator of the history tables. */
  datatype ClientPager = ClientPager(page: int, rowsPerPage: int)

  const InitialClientPager: ClientPager := ClientPager(0, 10)

  /** `handleChangeRowsPerPage`: the new size, back to the first page. */
  function ChangeRowsPerPage(p: ClientPager, rowsPerPage: int): (r: ClientPager)
    ensures r.page == 0 && r.rowsPerPage == rowsPerPage
  {
    ClientPager(0, rowsPerPage)
  }

  /** `handleChangePage`: only the page changes. */
  function ChangePage(p: ClientPager, page: int): (r: ClientPager)
    ensures r.page == page && r.rowsPerPage == p.rowsPerPage
  {
    p.(page := page)
  }

  /** After a size change the first rows of the data are on screen. */
  lemma SizeChangeShowsFirstRows<T>(data: seq<T>, p: ClientPager, rowsPerPage: int)
    requires rowsPerPage >= 0
    ensures var r := ChangeRowsPerPage(p, rowsPerPage);
            VisibleRows(data, r.page, r.rowsPerPage) == data[..if rowsPerPage <= |data| then rowsPerPage else |data|]
  {
  }

  // ---- render precedence --------------------------------------------------

  /** What a history or log table renders. */
  datatype TableView<T> = Spinner | ErrorAlert(error: string) | Placeholder | Rows(rows: seq<T>, count: int)

  /** Loading first, then the error, then the empty placeholder, then the
      rows of the current page with the paginator count. */
  function RenderHistory<T>(isLoading: bool, error: Option<string>, data: Option<seq<T>>, p: ClientPager): (v: TableView<T>)
    requires p.page >= 0 && p.rowsPerPage >= 0
    ensures v.Spinner? <==> isLoading
    ensures v.ErrorAlert? <==> !isLoading && Present(error)
    ensures v.ErrorAlert? ==> v.error == error.value
    ensures v.Placeholder? <==> !isLoading && !Present(error) && (data.None? || |data.value| == 0)
    ensures v.Rows? ==> data.Some? && v.rows == VisibleRows(data.value, p.page, p.rowsPerPage) && v.count == |data.value|
  {
    if isLoading then Spinner
    else if Present(error) then ErrorAlert(error.value)
    else if data.None? || |data.value| == 0 then Placeholder
    else Rows(VisibleRows(data.value, p.page, p.rowsPerPage), |data.value|)
  }

  /** The login-log table: the same precedence, the rows of the server page
      as they are, and the server's total as the count. */
  function RenderLogs<T>(isLoading: bool, error: Option<string>, data: Option<seq<T>>, pagination: Pagination): (v: TableView<T>)
    ensures v.Spinner? <==> isLoading
    ensures v.ErrorAlert? <==> !isLoading && Present(error)
    ensures v.Placeholder? <==> !isLoading && !Present(error) && (data.None? || |data.value| == 0)
    ensures v.Rows? ==> data.Some? && v.rows == data.value && v.count == TablePager(pagination).count
  {
    if isLoading then Spinner
    else if Present(error) then ErrorAlert(error.value)
    else if data.None? || |data.value| == 0 then Placeholder
    else Rows(data.value, TablePager(pagination).count)
  }

  /** The rows a table view puts on screen: none unless it shows rows. */
  function Shown<T>(v: TableView<T>): seq<T> {
    if v.Rows? then v.rows else []
  }

  /** The rows the history table shows on each page from `page` on, read in
      order with the data loaded and no error. */
  function RenderedFrom<T>(data: seq<T>, rowsPerPage: nat, page: nat): seq<T>
    requires rowsPerPage > 0
    decreases |data| - page * rowsPerPage
  {
    if page * rowsPerPage >= |data| then []
    else Shown(RenderHistory(false, None, Some(data), ClientPager(page, rowsPerPage)))
         + RenderedFrom(data, rowsPerPage, page + 1)
  }

  /** On every page that has rows, the history table shows exactly the
      pager's slice of the data. */
  lemma {:induction false} RenderedFromIsPages<T>(data: seq<T>, rowsPerPage: nat, page: nat)
    requires rowsPerPage > 0
    ensures RenderedFrom(data, rowsPerPage, page) == PagesFrom(data, rowsPerPage, page)
    decreases |data| - page * rowsPerPage
  {
    if page * rowsPerPage < |data| {
      RenderedFromIsPages(data, rowsPerPage, page + 1);
    }
  }

  /** Paging through the history table from the first page shows every row
      of the data once, in order. */
  lemma RenderedPagesCoverData<T>(data: seq<T>, rowsPerPage: nat)
    requires rowsPerPage > 0
    ensures RenderedFrom(data, rowsPerPage, 0) == data
  {
    RenderedFromIsPages(data, rowsPerPage, 0);
    PagesCoverData(data, rowsPerPage);
  }

  /** The login-log table shows the server page as the history table would
      show it if the whole page were the client pager's first page: the same
      view kind and the same rows; only the count differs, the server's
      total against the local length. */
  lemma RenderLogsIsOneClientPage<T>(isLoading: bool, error: Option<string>, data: Option<seq<T>>, pagination: Pagination)
    ensures var n := if data.Some? then |data.value| else 0;
            var logs := RenderLogs(isLoading, error, data, pagination);
            var hist := RenderHistory(isLoading, error, data, ClientPager(0, n));
            && logs.Rows? == hist.Rows?
            && Shown(logs) == Shown(hist)
            && (logs.Rows? ==> logs.count == TablePager(pagination).count && hist.count == n)
            && (!logs.Rows? ==> logs == hist)
  {
    if data.Some? {
      assert VisibleRows(data.value, 0, |data.value|) == data.value;
    }
  }

  // ---- filtered server tables -------------------------------------------------

  /** The admin and attendance tables: either the empty placeholder alone, or
      the filter controls above the rows. */
  datatype FilteredView<T> = EmptyNotice(showsFilters: bool) | FilteredRows(rows: seq<T>)

  /** As written: empty data returns the placeholder before the filter
      controls are laid out. */
  function FilteredTableAsWritten<T>(data: Option<seq<T>>): (v: FilteredView<T>)
    ensures v.EmptyNotice? <==> data.None? || |data.value| == 0
    ensures v.EmptyNotice? ==> !v.showsFilters
    ensures v.FilteredRows? ==> data.Some? && v.rows == data.value
  {
    if data.None? || |data.value| == 0 then EmptyNotice(false) else FilteredRows(data.value)
  }

  predicate ShowsFilters<T>(v: FilteredView<T>) {
    v.FilteredRows? || v.showsFilters
  }

  /** A search that matches nothing leaves a screen without the search box,
      so the filter that emptied the list cannot be changed back. */
  lemma FilteredTableAsWrittenStrandsFilter<T>()
    ensures !ShowsFilters(FilteredTableAsWritten<T>(Some([])))
  {
  }

  /** With the controls kept above the placeholder, every state offers them. */
  function FilteredTable<T>(data: Option<seq<T>>): (v: FilteredView<T>)
    ensures ShowsFilters(v)
    ensures v.EmptyNotice? <==> data.None? || |data.value| == 0
    ensures v.FilteredRows? ==> v.rows == data.value
  {
    if data.None? || |data.value| == 0 then EmptyNotice(true) else FilteredRows(data.value)
  }

  /** The two agree on every non-empty list. */
  lemma FilteredTableAgreesWhenNonEmpty<T>(data: seq<T>)
    requires |data| > 0
    ensures FilteredTableAsWritten(Some(data)) == FilteredTable(Some(data))
  {
  }

  /** A filter control of the admin table: the value is kept locally and
      forwarded to the page's handler when one is given. */
  function FilterInput(handlerGiven: bool, value: string): (r: (string, Option<string>))
    ensures r.0 == value
    ensures r.1.Some? <==> handlerGiven
    ensures r.1.Some? ==> r.1.value == r.0
  {
    (value, if handlerGiven then Some(value) else None)
  }

  // ---- the admin management page --------------------------------------------------

  datatype Filters = Filters(page: int, limit: int, search: string, department: string, isActive: string)

  const InitialFilters: Filters := Filters(1, 10, "", "", "")

  datatype FilterEvent =
    | PageChanged(page: int)
    | RowsPerPageChanged(limit: int)
    | Searched(search: string)
    | DepartmentChosen(department: string)
    | StatusChosen(isActive: string)

  /** The five handlers: a page change sets only the page, every other
      change sets its own field and goes back to page 1. */
  function ApplyFilter(f: Filters, e: FilterEvent): (r: Filters)
    ensures e.PageChanged? ==> r == f.(page := e.page)
    ensures !e.PageChanged? ==> r.page == 1
    ensures e.RowsPerPageChanged? ==> r == f.(limit := e.limit, page := 1)
    ensures e.Searched? ==> r == f.(search := e.search, page := 1)
    ensures e.DepartmentChosen? ==> r == f.(department := e.department, page := 1)
    ensures e.StatusChosen? ==> r == f.(isActive := e.isActive, page := 1)
  {
    match e
    case PageChanged(p) => f.(page := p)
    case RowsPerPageChanged(l) => f.(limit := l, page := 1)
    case Searched(s) => f.(search := s, page := 1)
    case DepartmentChosen(d) => f.(department := d, page := 1)
    case StatusChosen(a) => f.(isActive := a, page := 1)
  }

  /** The filters passed to `getAllAdmins`: every property present. */
  function FilterParams(f: Filters): Queries.AdminsParams {
    Queries.AdminsParams(Some(f.page), Some(f.limit), Some(f.search), Some(f.department), Some(f.isActive))
  }

  /** The first request asks for page 1 of 10 and nothing else. */
  lemma InitialQuery()
    ensures var q := Queries.AdminsQuery(FilterParams(InitialFilters));
            && Queries.Lookup(q, "page") == Some(Queries.QNum(1))
            && Queries.Lookup(q, "limit") == Some(Queries.QNum(10))
            && Queries.Lookup(q, "search") == None
            && Queries.Lookup(q, "department") == None
            && Queries.Lookup(q, "isActive") == None
  {
  }

  /** Typing in the table's search box reaches the request: the term is sent
      exactly when non-empty, from page 1, with the other filters kept. */
  lemma {:induction false} SearchReachesQuery(f: Filters, term: string)
    ensures var typed := FilterInput(true, term);
            var r := ApplyFilter(f, Searched(typed.1.value));
            var q := Queries.AdminsQuery(FilterParams(r));
            && Queries.Lookup(q, "page") == Some(Queries.QNum(1))
            && Queries.Lookup(q, "limit") == Some(Queries.QNum(f.limit))
            && (Queries.Lookup(q, "search").Some? <==> term != "")
            && Queries.Lookup(q, "department") == Queries.Lookup(Queries.AdminsQuery(FilterParams(f)), "department")
  {
  }

  /** The page's dialogs and the admin they act on. */
  datatype Dialogs = Dialogs(
    createOpen: bool,
    editOpen: bool,
    detailsOpen: bool,
    deleteOpen: bool,
    resetPwdOpen: bool,
    selectedAdmin: Option<string>)

  const NoDialogs: Dialogs := Dialogs(false, false, false, false, false, None)

  /** One of the four dialogs that submit something is open. */
  predicate ActionDialogOpen(d: Dialogs) {
    d.createOpen || d.editOpen || d.deleteOpen || d.resetPwdOpen
  }

  datatype PageEvent =
    | Filter(event: FilterEvent)
    | CreateClicked
    | EditClicked(admin: string)
    | DeleteClicked(admin: string)
    | ViewClicked(admin: string)
    | ResetPasswordClicked(admin: string)
    | CreateClosed
    | EditClosed
    | DetailsClosed
    | DeleteClosed
    | ResetPasswordClosed
    | SliceSettled(isSuccess: bool, message: string)

  datatype ManageState = ManageState(filters: Filters, dialogs: Dialogs)

  /** One event on the page: the new state and the list requests it makes.
      Filter changes re-request through the filters effect; a success message
      while a submitting dialog is open closes those dialogs, clears the
      selection and re-requests with the current filters. */
  function Handle(s: ManageState, e: PageEvent): (r: (ManageState, seq<Filters>))
    ensures e.Filter? ==> r.0 == s.(filters := ApplyFilter(s.filters, e.event)) && r.1 == [r.0.filters]
    ensures e.SliceSettled? && e.isSuccess && e.message != "" && ActionDialogOpen(s.dialogs) ==>
              && r.0.filters == s.filters && r.1 == [s.filters]
              && !ActionDialogOpen(r.0.dialogs) && r.0.dialogs.selectedAdmin == None
              && r.0.dialogs.detailsOpen == s.dialogs.detailsOpen
    ensures e.SliceSettled? && !(e.isSuccess && e.message != "" && ActionDialogOpen(s.dialogs)) ==>
              r == (s, [])
    ensures !e.Filter? && !e.SliceSettled? ==> r.1 == [] && r.0.filters == s.filters
    ensures e.EditClicked? ==> r.0.dialogs == s.dialogs.(selectedAdmin := Some(e.admin), editOpen := true)
    ensures e.DeleteClicked? ==> r.0.dialogs == s.dialogs.(selectedAdmin := Some(e.admin), deleteOpen := true)
    ensures e.ViewClicked? ==> r.0.dialogs == s.dialogs.(selectedAdmin := Some(e.admin), detailsOpen := true)
    ensures e.ResetPasswordClicked? ==> r.0.dialogs == s.dialogs.(selectedAdmin := Some(e.admin), resetPwdOpen := true)
    ensures e.EditClosed? ==> r.0.dialogs == s.dialogs.(editOpen := false, selectedAdmin := None)
    ensures e.DetailsClosed? ==> r.0.dialogs == s.dialogs.(detailsOpen := false, selectedAdmin := None)
    ensures e.DeleteClosed? ==> r.0.dialogs == s.dialogs.(deleteOpen := false)
  {
    var d := s.dialogs;
    match e
    case Filter(fe) =>
      var f := ApplyFilter(s.filters, fe);
      (s.(filters := f), [f])
    case CreateClicked => (s.(dialogs := d.(createOpen := true)), [])
    case EditClicked(a) => (s.(dialogs := d.(selectedAdmin := Some(a), editOpen := true)), [])
    case DeleteClicked(a) => (s.(dialogs := d.(selectedAdmin := Some(a), deleteOpen := true)), [])
    case ViewClicked(a) => (s.(dialogs := d.(selectedAdmin := Some(a), detailsOpen := true)), [])
    case ResetPasswordClicked(a) => (s.(dialogs := d.(selectedAdmin := Some(a), resetPwdOpen := true)), [])
    case CreateClosed => (s.(dialogs := d.(createOpen := false)), [])
    case EditClosed => (s.(dialogs := d.(editOpen := false, selectedAdmin := None)), [])
    case DetailsClosed => (s.(dialogs := d.(detailsOpen := false, selectedAdmin := None)), [])
    case DeleteClosed => (s.(dialogs := d.(deleteOpen := false)), [])
    case ResetPasswordClosed => (s.(dialogs := d.(resetPwdOpen := false)), [])
    case SliceSettled(ok, m) =>
      if ok && m != "" && ActionDialogOpen(d) then
        (s.(dialogs := d.(createOpen := false, editOpen := false, deleteOpen := false,
                          resetPwdOpen := false, selectedAdmin := None)), [s.filters])
      else (s, [])
  }

  /** Every request the page makes carries the filters in force after the
      event, and a filter event always makes exactly one. */
  lemma {:induction false} RequestsUseCurrentFilters(s: ManageState, e: PageEvent)
    ensures forall i :: 0 <= i < |Handle(s, e).1| ==> Handle(s, e).1[i] == Handle(s, e).0.filters
    ensures |Handle(s, e).1| <= 1
    ensures e.Filter? ==> |Handle(s, e).1| == 1
  {
  }
}

=== FILE: profile_slice.dfy ===
/** The admin-profile slice: six thunks that call the backend directly with
    a hand-built bearer header, and a reducer whose cases follow one uniform
    discipline of loading, success and error flags. */
module ProfileSlice {
  import opened JsCore
  import opened Records
  import opened Storage
  import Api

  /** The six thunks of the slice. */
  datatype ProfileThunk =
    | GetProfile | UpdateProfile | GetDashboardStats
    | GetLoginHistory | GetEditHistory | DeleteProfileImage

  /** The slice state. A fulfilled history fetch stores `response.data.data`
      as it is, which may be missing; hence the histories are optional. */
  datatype ProfileState = ProfileState(
    profile: Option<Profile>,
    dashboardStats: Option<Stats>,
    loginHistory: Option<seq<LoginRecord>>,
    editHistory: Option<seq<EditRecord>>,
    isLoading: bool,
    isSuccess: bool,
    isError: bool,
    message: string)

  const Initial: ProfileState :=
    ProfileState(None, None, Some([]), Some([]), false, false, false, "")

  /** What each fulfilled case receives. */
  datatype Payload =
    | ProfileLoaded(profile: Option<Profile>)
    | ProfileUpdated(profile: Option<Profile>)
    | StatsLoaded(stats: Option<Stats>)
    | LoginHistoryLoaded(logins: Option<seq<LoginRecord>>)
    | EditHistoryLoaded(edits: Option<seq<EditRecord>>)
    | ImageDeleted

  datatype ProfileAction =
    | Reset
    | ClearError
    | Pending(thunk: ProfileThunk)
    | Fulfilled(payload: Payload)
    | Rejected(thunk: ProfileThunk, error: string)

  /** The thunk a payload belongs to. */
  function PayloadThunk(p: Payload): ProfileThunk {
    match p
    case ProfileLoaded(_) => GetProfile
    case ProfileUpdated(_) => UpdateProfile
    case StatsLoaded(_) => GetDashboardStats
    case LoginHistoryLoaded(_) => GetLoginHistory
    case EditHistoryLoaded(_) => GetEditHistory
    case ImageDeleted => DeleteProfileImage
  }

  /** The four data fields of the state. */
  datatype DataField = ProfileField | StatsField | LoginHistoryField | EditHistoryField

  /** The data field each thunk writes. */
  function OwnField(t: ProfileThunk): DataField {
    match t
    case GetProfile | UpdateProfile | DeleteProfileImage => ProfileField
    case GetDashboardStats => StatsField
    case GetLoginHistory => LoginHistoryField
    case GetEditHistory => EditHistoryField
  }

  /** Field `f` holds the same value in both states. */
  predicate SameField(s: ProfileState, r: ProfileState, f: DataField) {
    match f
    case ProfileField => r.profile == s.profile
    case StatsField => r.dashboardStats == s.dashboardStats
    case LoginHistoryField => r.loginHistory == s.loginHistory
    case EditHistoryField => r.editHistory == s.editHistory
  }

  /** All four data fields are kept. */
  predicate DataKept(s: ProfileState, r: ProfileState) {
    forall f: DataField :: SameField(s, r, f)
  }

  const ProfileUpdatedMessage: string := "Profile updated successfully"
  const ImageDeletedMessage: string := "Profile image deleted successfully"

  /** The slice's reducer. */
  function Reduce(s: ProfileState, a: ProfileAction): (r: ProfileState)
    ensures a.Reset? ==>
              DataKept(s, r) && !r.isLoading && !r.isSuccess && !r.isError && r.message == ""
    ensures a.ClearError? ==>
              DataKept(s, r) && !r.isError && r.message == ""
              && r.isLoading == s.isLoading && r.isSuccess == s.isSuccess
    // a pending case raises isLoading and nothing else
    ensures a.Pending? ==>
              DataKept(s, r) && r.isLoading && r.isSuccess == s.isSuccess
              && r.isError == s.isError && r.message == s.message
    // a fulfilled case writes only its own data field
    ensures a.Fulfilled? ==>
              !r.isLoading && r.isSuccess && r.isError == s.isError
              && forall f :: f != OwnField(PayloadThunk(a.payload)) ==> SameField(s, r, f)
    ensures a.Fulfilled? && (a.payload.ProfileLoaded? || a.payload.ProfileUpdated?) ==>
              r.profile == a.payload.profile
    ensures a.Fulfilled? && a.payload.StatsLoaded? ==> r.dashboardStats == a.payload.stats
    ensures a.Fulfilled? && a.payload.LoginHistoryLoaded? ==> r.loginHistory == a.payload.logins
    ensures a.Fulfilled? && a.payload.EditHistoryLoaded? ==> r.editHistory == a.payload.edits
    ensures a.Fulfilled? && a.payload.ProfileUpdated? ==> r.message == ProfileUpdatedMessage
    ensures a.Fulfilled? && a.payload.ImageDeleted? ==>
              r.message == ImageDeletedMessage
              && (s.profile.None? ==> r.profile == None)
              && (s.profile.Some? ==> r.profile == Some(s.profile.value.(profileImage := None)))
    ensures a.Fulfilled? && !a.payload.ProfileUpdated? && !a.payload.ImageDeleted? ==>
              r.message == s.message
    // a rejected case keeps every data field
    ensures a.Rejected? ==>
              DataKept(s, r) && !r.isLoading && r.isError && r.message == a.error
              && r.isSuccess == s.isSuccess
  {
    match a
    case Reset => s.(isLoading := false, isSuccess := false, isError := false, message := "")
    case ClearError => s.(isError := false, message := "")
    case Pending(_) => s.(isLoading := true)
    case Rejected(_, m) => s.(isLoading := false, isError := true, message := m)
    case Fulfilled(p) =>
      var done := s.(isLoading := false, isSuccess := true);
      match p
      case ProfileLoaded(v) => done.(profile := v)
      case ProfileUpdated(v) => done.(profile := v, message := ProfileUpdatedMessage)
      case StatsLoaded(v) => done.(dashboardStats := v)
      case LoginHistoryLoaded(v) => done.(loginHistory := v)
      case EditHistoryLoaded(v) => done.(editHistory := v)
      case ImageDeleted =>
        var profile := if s.profile.Some? then Some(s.profile.value.(profileImage := None)) else None;
        done.(profile := profile, message := ImageDeletedMessage)
  }

  /** The fixed message each thunk rejects with when the server sent none. */
  function Fallback(t: ProfileThunk): (m: string)
    ensures m != ""
  {
    match t
    case GetProfile => "Failed to fetch profile"
    case UpdateProfile => "Failed to update profile"
    case GetDashboardStats => "Failed to fetch dashboard stats"
    case GetLoginHistory => "Failed to fetch login history"
    case GetEditHistory => "Failed to fetch edit history"
    case DeleteProfileImage => "Failed to delete profile image"
  }

  /** The rejection value: the server's message when present, else the
      thunk's fallback. The transport message is never used. */
  function RejectValue(t: ProfileThunk, e: Api.HttpError): (m: string)
    ensures m != ""
    ensures e.body.Some? && Present(e.body.value.message) ==> m == e.body.value.message.value
    ensures !(e.body.Some? && Present(e.body.value.message)) ==> m == Fallback(t)
  {
    if e.body.Some? && Present(e.body.value.message) then e.body.value.message.value else Fallback(t)
  }

  /** Where the shared client would report the transport message, the slice
      reports its own fallback instead. */
  lemma RejectValueIgnoresTransport(t: ProfileThunk, e: Api.HttpError)
    requires !(e.body.Some? && Present(e.body.value.message)) && Present(e.message)
    requires e.message.value != Fallback(t)
    ensures RejectValue(t, e) != Api.ErrorMessage(e)
  {
  }

  /** The endpoint each thunk calls, under the configured base URL. */
  function ThunkPath(t: ProfileThunk): string {
    match t
    case GetProfile | UpdateProfile => "/admin/profile"
    case GetDashboardStats => "/admin/dashboard"
    case GetLoginHistory => "/admin/login-history"
    case GetEditHistory => "/admin/edit-history"
    case DeleteProfileImage => "/admin/profile/image"
  }

  function ThunkUrl(env: Option<string>, t: ProfileThunk): (u: string)
    ensures StartsWith(u, Api.BaseUrl(env))
    ensures u[|Api.BaseUrl(env)|..] == ThunkPath(t)
  {
    Api.BaseUrl(env) + ThunkPath(t)
  }

  /** The `Authorization` value the thunks build by hand: the stored token
      interpolated into a template, so a missing token becomes `null`. */
  function DirectAuthorization(st: Store): (h: string)
    ensures StoredToken(st).Some? ==> h == Api.Bearer(StoredToken(st).value)
    ensures StoredToken(st).None? ==> h == "Bearer null"
  {
    Api.Bearer(if StoredToken(st).Some? then StoredToken(st).value else "null")
  }

  /** Without a stored token the shared client sends an `Authorization`
      header only when an earlier refresh left one in its defaults (never at
      start-up), while the profile thunks always send `Bearer null`. */
  lemma DirectAuthorizationDiffersWithoutToken(st: Store, defaults: map<string, string>, req: Api.Request)
    requires StoredToken(st).None? && Api.Authorization !in req.headers
    ensures Api.Authorization in Api.AttachToken(st, defaults, req).headers <==> Api.Authorization in defaults
    ensures Api.Authorization !in Api.AttachToken(st, Api.InitialDefaults, req).headers
    ensures DirectAuthorization(st) == "Bearer null"
  {
  }

  /** The profile fields other than the image survive an image deletion. */
  lemma {:induction false} ImageDeletionKeepsDetails(s: ProfileState)
    requires s.profile.Some?
    ensures var p := Reduce(s, Fulfilled(ImageDeleted)).profile;
            && p.Some? && p.value.profileImage == None
            && p.value.name == s.profile.value.name && p.value.username == s.profile.value.username
            && p.value.email == s.profile.value.email && p.value.department == s.profile.value.department
            && p.value.jobRole == s.profile.value.jobRole
  {
  }

  /** A whole thunk run — pending, then fulfilled or rejected — touches at
      most the thunk's own data field and ends with loading off. */
  lemma {:induction false} ThunkRunWritesOwnField(s: ProfileState, t: ProfileThunk, outcome: ProfileAction)
    requires outcome.Fulfilled? ==> PayloadThunk(outcome.payload) == t
    requires outcome.Rejected? ==> outcome.thunk == t
    requires outcome.Fulfilled? || outcome.Rejected?
    ensures var r := Reduce(Reduce(s, Pending(t)), outcome);
            && !r.isLoading && (r.isSuccess || r.isError)
            && forall f :: f != OwnField(t) ==> SameField(s, r, f)
  {
    var mid := Reduce(s, Pending(t));
    var r := Reduce(mid, outcome);
    forall f | f != OwnField(t)
      ensures SameField(s, r, f)
    {
      assert SameField(s, mid, f);
      assert SameField(mid, r, f);
    }
  }
}

=== FILE: queries.dfy ===
/** Request builders of the super-admin and notification services: the
    query strings built with conditional spreads, the per-id paths, and the
    method, body kind and return shape of every call. A query is the
    ordered list of key/value pairs handed to `URLSearchParams`; multipart
    form data is an ordered list of the same kind. */
module Queries {
  import opened JsCore
  import opened Records
  import Api

  /** A value of an ordered key/value list: a number (`page`, `limit`), a
      string, and, in multipart form data, a boolean or a file. */
  datatype QVal = QNum(n: int) | QStr(s: string) | QFlag(b: bool) | QFile(file: File)

  type Query = seq<(string, QVal)>

  /** The value of the first pair with key `k`. */
  function Lookup(q: Query, k: string): Option<QVal>
    decreases |q|
  {
    if |q| == 0 then None
    else if q[0].0 == k then Some(q[0].1)
    else Lookup(q[1..], k)
  }

  /** One entry of the object literal passed to `URLSearchParams`: the key,
      and its value when the entry is spread in. */
  datatype Field = Field(key: string, value: Option<QVal>)

  /** The query of an object literal: the entries that are present, in
      literal order. */
  function Build(fields: seq<Field>): (q: Query)
    ensures |q| <= |fields|
    decreases |fields|
  {
    if |fields| == 0 then []
    else
      var head := match fields[0].value
        case Some(v) => [(fields[0].key, v)]
        case None => [];
      head + Build(fields[1..])
  }

  function KeysOf(fields: seq<Field>): (ks: seq<string>)
    ensures |ks| == |fields|
    ensures forall i :: 0 <= i < |fields| ==> ks[i] == fields[i].key
  {
    seq(|fields|, i requires 0 <= i < |fields| => fields[i].key)
  }

  predicate Distinct(ks: seq<string>) {
    forall i, j :: 0 <= i < j < |ks| ==> ks[i] != ks[j]
  }

  /** Position of `k` in `ks`, or `|ks|` when absent. */
  function IndexOf(ks: seq<string>, k: string): (n: nat)
    ensures n <= |ks|
    ensures n < |ks| ==> ks[n] == k && forall i :: 0 <= i < n ==> ks[i] != k
    ensures n == |ks| <==> k !in ks
    decreases |ks|
  {
    if |ks| == 0 then 0
    else if ks[0] == k then 0
    else 1 + IndexOf(ks[1..], k)
  }

  /** Every key of `q` is in `order`, and keys appear in `order`'s order
      (so no key appears twice). */
  predicate InOrder(q: Query, order: seq<string>) {
    && (forall i :: 0 <= i < |q| ==> q[i].0 in order)
    && (forall i, j :: 0 <= i < j < |q| ==> IndexOf(order, q[i].0) < IndexOf(order, q[j].0))
  }

  lemma {:induction false} KeysOfTail(fields: seq<Field>, k: string)
    requires |fields| > 0 && k != fields[0].key
    ensures k in KeysOf(fields) <==> k in KeysOf(fields[1..])
    ensures IndexOf(KeysOf(fields), k) == 1 + IndexOf(KeysOf(fields[1..]), k)
  {
    assert KeysOf(fields)[1..] == KeysOf(fields[1..]);
    assert KeysOf(fields) == [fields[0].key] + KeysOf(fields[1..]);
  }

  lemma {:induction false} DistinctTail(fields: seq<Field>)
    requires |fields| > 0 && Distinct(KeysOf(fields))
    ensures Distinct(KeysOf(fields[1..]))
    ensures fields[0].key !in KeysOf(fields[1..])
  {
    assert KeysOf(fields)[1..] == KeysOf(fields[1..]);
    forall j | 0 <= j < |fields| - 1
      ensures KeysOf(fields[1..])[j] != fields[0].key
    {
      assert KeysOf(fields[1..])[j] == KeysOf(fields)[j + 1];
    }
  }

  /** In a list of distinct keys, each key is found at its own position. */
  lemma IndexOfDistinct(ks: seq<string>, i: nat)
    requires Distinct(ks) && i < |ks|
    ensures IndexOf(ks, ks[i]) == i
  {
  }

  /** With distinct keys, looking a key up in the built query gives that
      entry's value: present exactly when it was spread in. */
  lemma {:induction false} BuildLookup(fields: seq<Field>, k: string)
    requires Distinct(KeysOf(fields))
    ensures k in KeysOf(fields) ==> Lookup(Build(fields), k) == fields[IndexOf(KeysOf(fields), k)].value
    ensures k !in KeysOf(fields) ==> Lookup(Build(fields), k) == None
    decreases |fields|
  {
    if |fields| > 0 {
      var tail := fields[1..];
      DistinctTail(fields);
      BuildLookup(tail, k);
      var q := Build(fields);
      if fields[0].value.Some? {
        assert q == [(fields[0].key, fields[0].value.value)] + Build(tail);
        assert q[1..] == Build(tail);
      } else {
        assert q == Build(tail);
      }
      if k == fields[0].key {
        assert KeysOf(fields)[0] == k;
      } else {
        KeysOfTail(fields, k);
        if k in KeysOf(fields) {
          assert fields[IndexOf(KeysOf(fields), k)] == tail[IndexOf(KeysOf(tail), k)];
        }
      }
    }
  }

  /** Prepending a new key to the order shifts every position by one. */
  lemma {:induction false} InOrderShift(q: Query, k0: string, order: seq<string>)
    requires InOrder(q, order) && k0 !in order
    ensures InOrder(q, [k0] + order)
  {
    var big := [k0] + order;
    assert big[1..] == order;
    forall i | 0 <= i < |q|
      ensures q[i].0 in big && IndexOf(big, q[i].0) == 1 + IndexOf(order, q[i].0)
    {
    }
  }

  /** A pair with the first key of the order can lead the query. */
  lemma {:induction false} InOrderCons(q: Query, k0: string, v: QVal, order: seq<string>)
    requires InOrder(q, [k0] + order) && k0 !in order
    requires forall i :: 0 <= i < |q| ==> q[i].0 in order
    ensures InOrder([(k0, v)] + q, [k0] + order)
  {
    var big := [k0] + order;
    var r := [(k0, v)] + q;
    assert IndexOf(big, k0) == 0;
    forall i | 0 <= i < |q|
      ensures IndexOf(big, q[i].0) > 0
    {
    }
    forall i, j | 0 <= i < j < |r|
      ensures IndexOf(big, r[i].0) < IndexOf(big, r[j].0)
    {
      assert r[j] == q[j - 1];
      if i > 0 {
        assert r[i] == q[i - 1];
      }
    }
  }

  /** The built query keeps the literal's key order. */
  lemma {:induction false} BuildInOrder(fields: seq<Field>)
    requires Distinct(KeysOf(fields))
    ensures InOrder(Build(fields), KeysOf(fields))
    ensures forall i :: 0 <= i < |Build(fields)| ==> Build(fields)[i].0 in KeysOf(fields)
    decreases |fields|
  {
    if |fields| > 0 {
      var tail := fields[1..];
      var k0 := fields[0].key;
      DistinctTail(fields);
      BuildInOrder(tail);
      var rest := Build(tail);
      assert KeysOf(fields) == [k0] + KeysOf(tail);
      InOrderShift(rest, k0, KeysOf(tail));
      if fields[0].value.Some? {
        assert Build(fields) == [(k0, fields[0].value.value)] + rest;
        InOrderCons(rest, k0, fields[0].value.value, KeysOf(tail));
      } else {
        assert Build(fields) == rest;
      }
    }
  }

  /** Everything a query builder promises, derived once for any literal
      with distinct keys. */
  lemma {:induction false} BuildFacts(fields: seq<Field>)
    requires Distinct(KeysOf(fields))
    ensures InOrder(Build(fields), KeysOf(fields))
    ensures forall i :: 0 <= i < |fields| ==> Lookup(Build(fields), fields[i].key) == fields[i].value
  {
    BuildInOrder(fields);
    forall i | 0 <= i < |fields|
      ensures Lookup(Build(fields), fields[i].key) == fields[i].value
    {
      BuildLookup(fields, fields[i].key);
      IndexOfDistinct(KeysOf(fields), i);
    }
  }

  // ---- super-admin service ------------------------------------------------

  /** Parameters of `getAllAdmins`; `None` is a missing property, which the
      destructuring replaces by its default. */
  datatype AdminsParams = AdminsParams(
    page: Option<int>,
    limit: Option<int>,
    search: Option<string>,
    department: Option<string>,
    isActive: Option<string>)

  const AdminsOrder: seq<string> := ["page", "limit", "search", "department", "isActive"]

  /** `value && {key: value}` on a string: spread in only when non-empty. */
  function IfTruthy(key: string, value: string): Field {
    Field(key, if Truthy(value) then Some(QStr(value)) else None)
  }

  /** `value !== '' && {key: value}`: spread in unless it is the empty string. */
  function UnlessEmpty(key: string, value: string): Field {
    Field(key, if value != "" then Some(QStr(value)) else None)
  }

  function AdminsFields(p: AdminsParams): seq<Field> {
    [ Field("page", Some(QNum(p.page.GetOr(1)))),
      Field("limit", Some(QNum(p.limit.GetOr(10)))),
      IfTruthy("search", p.search.GetOr("")),
      IfTruthy("department", p.department.GetOr("")),
      UnlessEmpty("isActive", p.isActive.GetOr("")) ]
  }

  /** The query of `getAllAdmins`. */
  function AdminsQuery(p: AdminsParams): (q: Query)
    ensures Lookup(q, "page") == Some(QNum(p.page.GetOr(1)))
    ensures Lookup(q, "limit") == Some(QNum(p.limit.GetOr(10)))
    ensures Lookup(q, "search") == (if Present(p.search) then Some(QStr(p.search.value)) else None)
    ensures Lookup(q, "department") == (if Present(p.department) then Some(QStr(p.department.value)) else None)
    ensures Lookup(q, "isActive") == (if Present(p.isActive) then Some(QStr(p.isActive.value)) else None)
    ensures InOrder(q, AdminsOrder)
    ensures |q| >= 2 && q[0] == ("page", QNum(p.page.GetOr(1))) && q[1] == ("limit", QNum(p.limit.GetOr(10)))
  {
    var fields := AdminsFields(p);
    assert KeysOf(fields) == AdminsOrder;
    BuildFacts(fields);
    assert fields[0].key == "page" && fields[1].key == "limit" && fields[2].key == "search";
    assert fields[3].key == "department" && fields[4].key == "isActive";
    var q := Build(fields);
    assert q == [("page", QNum(p.page.GetOr(1)))] + ([("limit", QNum(p.limit.GetOr(10)))] + Build(fields[2..]));
    q
  }

  /** The status filter `'false'` is a non-empty string and is sent. */
  lemma InactiveFilterIsSent(p: AdminsParams)
    requires p.isActive == Some("false")
    ensures Lookup(AdminsQuery(p), "isActive") == Some(QStr("false"))
  {
  }

  /** Parameters of `getLoginLogs`. */
  datatype LogsParams = LogsParams(
    page: Option<int>,
    limit: Option<int>,
    adminId: Option<string>,
    startDate: Option<string>,
    endDate: Option<string>)

  const LogsOrder: seq<string> := ["page", "limit", "adminId", "startDate", "endDate"]

  function LogsFields(p: LogsParams): seq<Field> {
    [ Field("page", Some(QNum(p.page.GetOr(1)))),
      Field("limit", Some(QNum(p.limit.GetOr(10)))),
      IfTruthy("adminId", p.adminId.GetOr("")),
      IfTruthy("startDate", p.startDate.GetOr("")),
      IfTruthy("endDate", p.endDate.GetOr("")) ]
  }

  /** The query of `getLoginLogs`. */
  function LoginLogsQuery(p: LogsParams): (q: Query)
    ensures Lookup(q, "page") == Some(QNum(p.page.GetOr(1)))
    ensures Lookup(q, "limit") == Some(QNum(p.limit.GetOr(10)))
    ensures Lookup(q, "adminId") == (if Present(p.adminId) then Some(QStr(p.adminId.value)) else None)
    ensures Lookup(q, "startDate") == (if Present(p.startDate) then Some(QStr(p.startDate.value)) else None)
    ensures Lookup(q, "endDate") == (if Present(p.endDate) then Some(QStr(p.endDate.value)) else None)
    ensures InOrder(q, LogsOrder)
  {
    var fields := LogsFields(p);
    assert KeysOf(fields) == LogsOrder;
    BuildFacts(fields);
    assert fields[0].key == "page" && fields[1].key == "limit" && fields[2].key == "adminId";
    assert fields[3].key == "startDate" && fields[4].key == "endDate";
    Build(fields)
  }

  /** What follows the admin id in a per-admin path. */
  datatype AdminResource = AdminRecord | PasswordInfo | PasswordReset

  const AdminBase: string := "/super-admin/admin"

  function ResourceSuffix(r: AdminResource): string {
    match r
    case AdminRecord => ""
    case PasswordInfo => "/password-info"
    case PasswordReset => "/reset-password"
  }

  /** `${GET_ADMIN}/${id}`, optionally followed by the resource suffix. */
  function AdminPath(id: string, r: AdminResource): (path: string)
    ensures |path| == |AdminBase| + 1 + |id| + |ResourceSuffix(r)|
    ensures StartsWith(path, AdminBase + "/")
    ensures path[|AdminBase| + 1..|AdminBase| + 1 + |id|] == id
    ensures path[|AdminBase| + 1 + |id|..] == ResourceSuffix(r)
  {
    AdminBase + "/" + id + ResourceSuffix(r)
  }

  /** The segments of a per-admin path. */
  function AdminSegments(id: string, r: AdminResource): seq<string> {
    ["", "super-admin", "admin", id] + (if r.AdminRecord? then [] else [ResourceSuffix(r)[1..]])
  }

  /** Reads an admin id and resource back from a path. */
  function ParseAdminPath(path: string): Option<(string, AdminResource)> {
    var parts := Split(path, '/');
    if |parts| < 4 || parts[0] != "" || parts[1] != "super-admin" || parts[2] != "admin" || parts[3] == "" then None
    else if |parts| == 4 then Some((parts[3], AdminRecord))
    else if |parts| == 5 && parts[4] == "password-info" then Some((parts[3], PasswordInfo))
    else if |parts| == 5 && parts[4] == "reset-password" then Some((parts[3], PasswordReset))
    else None
  }

  lemma {:induction false} JoinCons(x: string, rest: seq<string>, sep: char)
    requires |rest| >= 1
    ensures Join([x] + rest, sep) == x + [sep] + Join(rest, sep)
  {
    assert ([x] + rest)[1..] == rest;
  }

  /** The segments after `admin`: the id, then the resource name if any. */
  function ResourceSegments(id: string, r: AdminResource): seq<string> {
    if r.AdminRecord? then [id] else [id, ResourceSuffix(r)[1..]]
  }

  lemma {:induction false} ResourceSegmentsJoin(id: string, r: AdminResource)
    ensures Join(ResourceSegments(id, r), '/') == id + ResourceSuffix(r)
  {
    if !r.AdminRecord? {
      JoinCons(id, [ResourceSuffix(r)[1..]], '/');
      assert ResourceSuffix(r) == "/" + ResourceSuffix(r)[1..];
    }
  }

  lemma AdminBaseSegments(rest: string)
    ensures "" + "/" + ("super-admin" + "/" + ("admin" + "/" + rest)) == AdminBase + "/" + rest
  {
  }

  /** A per-admin path is its segments joined by `/`. */
  lemma {:induction false} AdminPathIsJoin(id: string, r: AdminResource)
    ensures AdminPath(id, r) == Join(AdminSegments(id, r), '/')
  {
    var tail := ResourceSegments(id, r);
    ResourceSegmentsJoin(id, r);
    JoinCons("admin", tail, '/');
    JoinCons("super-admin", ["admin"] + tail, '/');
    JoinCons("", ["super-admin"] + (["admin"] + tail), '/');
    assert AdminSegments(id, r) == [""] + (["super-admin"] + (["admin"] + tail));
    AdminBaseSegments(id + ResourceSuffix(r));
  }

  lemma {:induction false} AdminSegmentsSepFree(id: string, r: AdminResource)
    requires '/' !in id
    ensures forall i :: 0 <= i < |AdminSegments(id, r)| ==> '/' !in AdminSegments(id, r)[i]
  {
    var segs := AdminSegments(id, r);
    assert segs[0] == "" && segs[1] == "super-admin" && segs[2] == "admin" && segs[3] == id;
    if !r.AdminRecord? {
      assert segs[4] == ResourceSuffix(r)[1..];
    }
  }

  /** A per-admin path names its admin and resource unambiguously, as long
      as the id is a single non-empty path segment. */
  lemma {:induction false} ParseAdminPathRoundTrip(id: string, r: AdminResource)
    requires id != "" && '/' !in id
    ensures ParseAdminPath(AdminPath(id, r)) == Some((id, r))
  {
    var segs := AdminSegments(id, r);
    AdminPathIsJoin(id, r);
    AdminSegmentsSepFree(id, r);
    SplitJoin(segs, '/');
    assert Split(AdminPath(id, r), '/') == segs;
    assert segs[0] == "" && segs[1] == "super-admin" && segs[2] == "admin" && segs[3] == id;
    if !r.AdminRecord? {
      assert segs[4] == ResourceSuffix(r)[1..];
    }
  }

  lemma AdminPathInjective(id1: string, r1: AdminResource, id2: string, r2: AdminResource)
    requires id1 != "" && '/' !in id1 && id2 != "" && '/' !in id2
    requires AdminPath(id1, r1) == AdminPath(id2, r2)
    ensures id1 == id2 && r1 == r2
  {
    ParseAdminPathRoundTrip(id1, r1);
    ParseAdminPathRoundTrip(id2, r2);
  }

  // ---- calls ----------------------------------------------------------------

  datatype HttpMethod = Get | Post | Put | Delete

  /** What a service function hands back: the whole response body (the
      `{success, data, pagination}` envelope), or only its `data` field. */
  datatype Shape = WholeBody | DataOnly

  /** One service call: method, path, query, whether the body is multipart
      form data, and the shape of what the caller receives. */
  datatype Call = Call(verb: HttpMethod, path: string, query: Query, multipart: bool, shape: Shape)

  datatype AdminOp =
    | CreateAdmin
    | GetAllAdmins(params: AdminsParams)
    | GetAdminById(id: string)
    | UpdateAdmin(id: string)
    | DeleteAdmin(id: string)
    | GetPasswordInfo(id: string)
    | ResetAdminPassword(id: string)
    | GetLoginLogs(logs: LogsParams)
    | GetStatistics

  /** The call each super-admin service function makes. */
  function AdminCall(op: AdminOp): (c: Call)
    // the list and mutating calls that report pagination or a status
    // return the whole envelope; the rest return its data
    ensures c.shape == WholeBody <==>
              op.GetAllAdmins? || op.DeleteAdmin? || op.ResetAdminPassword? || op.GetLoginLogs?
    // both create and update go through the upload helper: a multipart POST
    ensures c.multipart <==> op.CreateAdmin? || op.UpdateAdmin?
    ensures c.multipart ==> c.verb == Post
    ensures op.GetAllAdmins? ==> c.query == AdminsQuery(op.params) && c.path == "/super-admin/admins"
    ensures op.GetLoginLogs? ==> c.query == LoginLogsQuery(op.logs) && c.path == "/super-admin/login-logs"
    ensures !op.GetAllAdmins? && !op.GetLoginLogs? ==> c.query == []
    ensures op.GetAdminById? || op.UpdateAdmin? || op.DeleteAdmin? ==> c.path == AdminPath(op.id, AdminRecord)
    ensures op.GetPasswordInfo? ==> c.path == AdminPath(op.id, PasswordInfo) && c.verb == Get
    ensures op.ResetAdminPassword? ==> c.path == AdminPath(op.id, PasswordReset) && c.verb == Post
    ensures op.DeleteAdmin? <==> c.verb == Delete
  {
    match op
    case CreateAdmin => Call(Post, "/super-admin/create-admin", [], true, DataOnly)
    case GetAllAdmins(p) => Call(Get, "/super-admin/admins", AdminsQuery(p), false, WholeBody)
    case GetAdminById(id) => Call(Get, AdminPath(id, AdminRecord), [], false, DataOnly)
    case UpdateAdmin(id) => Call(Post, AdminPath(id, AdminRecord), [], true, DataOnly)
    case DeleteAdmin(id) => Call(Delete, AdminPath(id, AdminRecord), [], false, WholeBody)
    case GetPasswordInfo(id) => Call(Get, AdminPath(id, PasswordInfo), [], false, DataOnly)
    case ResetAdminPassword(id) => Call(Post, AdminPath(id, PasswordReset), [], false, WholeBody)
    case GetLoginLogs(p) => Call(Get, "/super-admin/login-logs", LoginLogsQuery(p), false, WholeBody)
    case GetStatistics => Call(Get, "/super-admin/statistics", [], false, DataOnly)
  }

  /** The headers a multipart call carries when the caller passes none. */
  lemma MultipartCallHeaders(op: AdminOp)
    requires AdminCall(op).multipart
    ensures Api.UploadHeaders(map[])[Api.ContentType] == "multipart/form-data"
  {
  }

  // ---- notification service ---------------------------------------------------

  /** Parameters of `getNotifications`. */
  datatype NotificationParams = NotificationParams(
    page: Option<int>,
    limit: Option<int>,
    kind: Option<string>,
    priority: Option<string>,
    isRead: Option<string>)

  const NotificationOrder: seq<string> := ["page", "limit", "type", "priority", "isRead"]

  function NotificationFields(p: NotificationParams): seq<Field> {
    [ Field("page", Some(QNum(p.page.GetOr(1)))),
      Field("limit", Some(QNum(p.limit.GetOr(10)))),
      IfTruthy("type", p.kind.GetOr("")),
      IfTruthy("priority", p.priority.GetOr("")),
      UnlessEmpty("isRead", p.isRead.GetOr("")) ]
  }

  /** The query of `getNotifications`. */
  function NotificationsQuery(p: NotificationParams): (q: Query)
    ensures Lookup(q, "page") == Some(QNum(p.page.GetOr(1)))
    ensures Lookup(q, "limit") == Some(QNum(p.limit.GetOr(10)))
    ensures Lookup(q, "type") == (if Present(p.kind) then Some(QStr(p.kind.value)) else None)
    ensures Lookup(q, "priority") == (if Present(p.priority) then Some(QStr(p.priority.value)) else None)
    ensures Lookup(q, "isRead").Some? <==> Present(p.isRead)
    ensures Present(p.isRead) ==> Lookup(q, "isRead") == Some(QStr(p.isRead.value))
    ensures InOrder(q, NotificationOrder)
  {
    var fields := NotificationFields(p);
    assert KeysOf(fields) == NotificationOrder;
    BuildFacts(fields);
    assert fields[0].key == "page" && fields[1].key == "limit" && fields[2].key == "type";
    assert fields[3].key == "priority" && fields[4].key == "isRead";
    Build(fields)
  }

  const NotificationBase: string := "/notifications"

  datatype NotificationOp =
    | GetNotifications(params: NotificationParams)
    | GetNotificationById(id: string)
    | GetNotificationStats
    | MarkAsRead(id: string)
    | MarkAllAsRead
    | DeleteNotification(id: string)
    | DeleteReadNotifications

  /** The call each notification service function makes. */
  function NotificationCall(op: NotificationOp): (c: Call)
    ensures (op.GetNotificationById? || op.GetNotificationStats?) ==> c.shape == DataOnly
    ensures (op.GetNotifications? || op.MarkAsRead? || op.MarkAllAsRead? || op.DeleteNotification? || op.DeleteReadNotifications?) ==>
              c.shape == WholeBody
    ensures op.GetNotifications? ==> c.query == NotificationsQuery(op.params) && c.path == NotificationBase
    ensures !op.GetNotifications? ==> c.query == []
    ensures op.MarkAsRead? ==> c.verb == Put && c.path == NotificationBase + "/" + op.id + "/read"
    ensures op.DeleteNotification? ==> c.verb == Delete && c.path == NotificationBase + "/" + op.id
    ensures op.GetNotificationById? ==> c.verb == Get && c.path == NotificationBase + "/" + op.id
    ensures !c.multipart
  {
    match op
    case GetNotifications(p) => Call(Get, NotificationBase, NotificationsQuery(p), false, WholeBody)
    case GetNotificationById(id) => Call(Get, NotificationBase + "/" + id, [], false, DataOnly)
    case GetNotificationStats => Call(Get, NotificationBase + "/stats", [], false, DataOnly)
    case MarkAsRead(id) => Call(Put, NotificationBase + "/" + id + "/read", [], false, WholeBody)
    case MarkAllAsRead => Call(Put, NotificationBase + "/read-all", [], false, WholeBody)
    case DeleteNotification(id) => Call(Delete, NotificationBase + "/" + id, [], false, WholeBody)
    case DeleteReadNotifications => Call(Delete, NotificationBase + "/delete-read", [], false, WholeBody)
  }

  /** The fixed paths share the per-id pattern: an id spelled like one of
      them addresses the fixed endpoint instead. */
  lemma FixedPathsShadowIds()
    ensures NotificationCall(DeleteNotification("delete-read")) == NotificationCall(DeleteReadNotifications)
    ensures NotificationCall(GetNotificationById("stats")).path == NotificationCall(GetNotificationStats).path
  {
  }
}

=== FILE: records.dfy ===
/** The entities the dashboard receives from its backend, reduced to the
    fields the modelled logic reads. Dates are integer milliseconds. */
module Records {
  import opened JsCore

  /** The signed-in account (`admin` in the login payload, `/auth/me`). */
  datatype User = User(id: string, name: string, role: string, profileImage: Option<string>)

  /** The admin's own profile held by the profile slice. */
  datatype Profile = Profile(
    name: string,
    username: string,
    email: string,
    department: string,
    jobRole: string,
    profileImage: Option<string>)

  /** Dashboard statistics: opaque named counters. */
  datatype Stats = Stats(counters: map<string, int>)

  /** One login session of an admin. */
  datatype LoginRecord = LoginRecord(
    id: Option<string>,
    loginTime: Option<int>,
    logoutTime: Option<int>,
    ipAddress: Option<string>,
    userAgent: Option<string>)

  /** The old and new value of one edited profile field. */
  datatype FieldChange = FieldChange(oldValue: Option<string>, newValue: Option<string>)

  /** One profile edit; `editedFields` is `None` when missing or not an object,
      otherwise its entries in `Object.entries` order. */
  datatype EditRecord = EditRecord(
    id: Option<string>,
    editedAt: Option<int>,
    editedFields: Option<seq<(string, FieldChange)>>)

  /** A notification as the list shows it. */
  datatype Notification = Notification(id: string, isRead: bool)

  /** An employee offered on the mark-attendance page. */
  datatype Employee = Employee(
    id: Option<string>,
    name: string,
    employeeId: string,
    department: string,
    hasActiveAttendance: bool,
    attendanceId: Option<string>)

  /** An attendance row of the attendance table. */
  datatype AttendanceRecord = AttendanceRecord(
    status: string,
    checkInTime: Option<int>,
    checkOutTime: Option<int>,
    workingHours: Option<string>)

  /** A file picked for upload: its MIME type and size in bytes. */
  datatype File = File(mime: string, size: int)
}

=== FILE: storage.dfy ===
/** Browser `localStorage` as a map from key to stored entry. A user record
    is kept as its JSON text; serialising and parsing it back is taken to be
    the identity on user records, so the entry holds the record itself. */
module Storage {
  import opened JsCore
  import opened Records

  datatype Entry = Text(text: string) | UserJson(user: User)

  type Store = map<string, Entry>

  const TokenKey: string := "token"
  const RefreshTokenKey: string := "refreshToken"
  const UserKey: string := "user"

  /** The three entries that make up the persisted session. */
  const SessionKeys: set<string> := {TokenKey, RefreshTokenKey, UserKey}

  /** `localStorage.getItem(key)` for a key that holds text. */
  function GetText(st: Store, key: string): Option<string> {
    if key in st && st[key].Text? then Some(st[key].text) else None
  }

  /** The stored access token (possibly empty). */
  function StoredToken(st: Store): Option<string> {
    GetText(st, TokenKey)
  }

  /** `getUserFromStorage`: the parsed user record, `null` when absent. */
  function StoredUser(st: Store): Option<User> {
    if UserKey in st && st[UserKey].UserJson? then Some(st[UserKey].user) else None
  }

  /** Removes `token`, `refreshToken` and `user`; every other key is kept. */
  function ClearSession(st: Store): (r: Store)
    ensures forall k :: k in SessionKeys ==> k !in r
    ensures forall k :: k !in SessionKeys ==> (k in r <==> k in st)
    ensures forall k :: k in r ==> r[k] == st[k]
    ensures StoredToken(r) == None && StoredUser(r) == None
    ensures GetText(r, RefreshTokenKey) == None
  {
    st - SessionKeys
  }
}

=== FILE: tables.dfy ===
/** The cell logic of the history, log and attendance tables: session
    durations, session status, the changed-field rows of an edit, and the
    attendance status colours. Numbers reach the screen as decimal text. */
module Tables {
  import opened JsCore
  import opened Records

  // ---- decimal text -------------------------------------------------------

  function DigitChar(d: int): (c: char)
    requires 0 <= d < 10
    ensures IsDigit(c)
  {
    ('0' as int + d) as char
  }

  function DigitValue(c: char): int {
    c as int - '0' as int
  }

  /** The decimal text of a natural number, as template literals print it. */
  function NatText(n: nat): (s: string)
    ensures |s| >= 1
    ensures forall i :: 0 <= i < |s| ==> IsDigit(s[i])
    decreases n
  {
    if n < 10 then [DigitChar(n)] else NatText(n / 10) + [DigitChar(n % 10)]
  }

  /** Reading decimal digits back. */
  function ParseNat(s: string): int
    decreases |s|
  {
    if |s| == 0 then 0 else ParseNat(s[..|s| - 1]) * 10 + DigitValue(s[|s| - 1])
  }

  /** Printing a number and reading it back gives the number. */
  lemma {:induction false} ParseNatText(n: nat)
    ensures ParseNat(NatText(n)) == n
    decreases n
  {
    if n >= 10 {
      var s := NatText(n);
      assert s[..|s| - 1] == NatText(n / 10);
      ParseNatText(n / 10);
    }
  }

  /** The decimal text of an integer, with a leading '-' when negative. */
  function IntText(n: int): (s: string)
    ensures n >= 0 ==> s == NatText(n)
    ensures n < 0 ==> s == ['-'] + NatText(-n)
  {
    if n >= 0 then NatText(n) else ['-'] + NatText(-n)
  }

  // ---- session durations --------------------------------------------------

  /** What `calculateDuration` shows: '-', "Hh Mm" or "Mm". */
  datatype Duration = Dash | HoursMinutes(hours: int, minutes: int) | MinutesOnly(minutes: int)

  const MsPerMinute: int := 60000

  /** `calculateDuration(loginTime, logoutTime)`: whole minutes by floor
      division, whole hours by floor division, minutes by JavaScript's `%`. */
  function CalculateDuration(loginTime: Option<int>, logoutTime: Option<int>): (d: Duration)
    ensures d.Dash? <==> loginTime.None? || logoutTime.None?
    ensures d.HoursMinutes? ==> d.hours > 0
  {
    if loginTime.None? || logoutTime.None? then Dash
    else
      var diffMins := FloorDiv(logoutTime.value - loginTime.value, MsPerMinute);
      var hours := FloorDiv(diffMins, 60);
      var mins := Rem(diffMins, 60);
      if hours > 0 then HoursMinutes(hours, mins) else MinutesOnly(mins)
  }

  /** The minutes a shown duration stands for. */
  function ShownMinutes(d: Duration): int {
    match d
    case Dash => 0
    case HoursMinutes(h, m) => 60 * h + m
    case MinutesOnly(m) => m
  }

  /** For a session that ended after it began, the shown duration is the
      elapsed whole minutes, split into whole hours and a minute part below
      sixty, the hours shown only when there is at least one. */
  lemma {:induction false} DurationMeasuresSession(login: int, logout: int)
    requires login <= logout
    ensures var d := CalculateDuration(Some(login), Some(logout));
            && !d.Dash?
            && ShownMinutes(d) == FloorDiv(logout - login, MsPerMinute)
            && (d.HoursMinutes? ==> 0 <= d.minutes < 60)
            && (d.MinutesOnly? ==> 0 <= d.minutes < 60)
            && (d.HoursMinutes? <==> logout - login >= 60 * MsPerMinute)
  {
    var diffMins := FloorDiv(logout - login, MsPerMinute);
    assert diffMins >= 0;
    var hours := FloorDiv(diffMins, 60);
    assert Rem(diffMins, 60) == diffMins - 60 * hours;
    assert hours > 0 <==> diffMins >= 60;
  }

  /** A logout recorded 61 minutes before the login shows as "-1m": the
      negative whole hours are dropped and `%` keeps the sign. */
  lemma NegativeDurationDropsHours()
    ensures CalculateDuration(Some(61 * MsPerMinute), Some(0)) == MinutesOnly(-1)
    ensures ShownMinutes(CalculateDuration(Some(61 * MsPerMinute), Some(0))) != -61
  {
    assert FloorDiv(-61 * MsPerMinute, MsPerMinute) == -61;
    assert FloorDiv(-61, 60) == -2;
    assert TruncDiv(-61, 60) == -1;
  }

  /** The duration as template text. */
  function DurationText(d: Duration): (s: string)
    ensures d.Dash? <==> s == "-"
    ensures !d.Dash? ==> |s| >= 2 && s[|s| - 1] == 'm'
  {
    match d
    case Dash => "-"
    case HoursMinutes(h, m) => IntText(h) + "h " + IntText(m) + "m"
    case MinutesOnly(m) => IntText(m) + "m"
  }

  lemma NegativeDurationText()
    ensures DurationText(CalculateDuration(Some(61 * MsPerMinute), Some(0))) == "-1m"
  {
    NegativeDurationDropsHours();
    assert NatText(1) == "1";
  }

  // ---- session status -----------------------------------------------------

  datatype SessionStatus = Completed | ActiveSession

  datatype LogoutCell = LoggedOutAt(time: int) | StillActive

  /** The status chip: 'Completed' once the session has a logout time. */
  function Status(r: LoginRecord): (s: SessionStatus)
    ensures s == Completed <==> r.logoutTime.Some?
  {
    if r.logoutTime.Some? then Completed else ActiveSession
  }

  /** The logout column: the time, or 'Still Active'. */
  function LogoutColumn(r: LoginRecord): (c: LogoutCell)
    ensures c.StillActive? <==> r.logoutTime.None?
    ensures c.LoggedOutAt? ==> c.time == r.logoutTime.value
  {
    if r.logoutTime.Some? then LoggedOutAt(r.logoutTime.value) else StillActive
  }

  /** The three session cells agree: an active session has 'Still Active'
      in its logout column and no duration, a completed one a logout time
      and, with a login time, a duration. */
  lemma SessionCellsAgree(r: LoginRecord)
    ensures Status(r) == ActiveSession <==> LogoutColumn(r).StillActive?
    ensures Status(r) == ActiveSession ==> CalculateDuration(r.loginTime, r.logoutTime).Dash?
    ensures Status(r) == Completed && r.loginTime.Some? ==> !CalculateDuration(r.loginTime, r.logoutTime).Dash?
  {
  }

  // ---- edited fields ------------------------------------------------------

  /** One row of the changes table of an edit. */
  datatype FieldRow = FieldRow(field: string, oldValue: string, newValue: string)

  /** `getEditedFields`: one row per entry of `editedFields`, in entry order,
      with '-' standing in for a missing or empty value. */
  function EditedFields(r: EditRecord): (rows: seq<FieldRow>)
    ensures r.editedFields.None? ==> rows == []
    ensures r.editedFields.Some? ==> |rows| == |r.editedFields.value|
    ensures forall i :: 0 <= i < |rows| ==> rows[i].oldValue != "" && rows[i].newValue != ""
  {
    if r.editedFields.None? then []
    else
      var entries := r.editedFields.value;
      seq(|entries|, i requires 0 <= i < |entries| =>
        FieldRow(entries[i].0, OrElse(entries[i].1.oldValue, "-"), OrElse(entries[i].1.newValue, "-")))
  }

  /** Every entry appears as its own row under its own key, and a value is
      replaced by '-' exactly when it was missing or empty. */
  lemma EditedFieldsKeepEntries(r: EditRecord, i: nat)
    requires r.editedFields.Some? && i < |r.editedFields.value|
    ensures var row := EditedFields(r)[i];
            var e := r.editedFields.value[i];
            && row.field == e.0
            && (Present(e.1.oldValue) ==> row.oldValue == e.1.oldValue.value)
            && (!Present(e.1.oldValue) <==> row.oldValue == "-" && e.1.oldValue != Some("-"))
            && (Present(e.1.newValue) ==> row.newValue == e.1.newValue.value)
  {
  }

  /** The chip of an edit: "1 field", otherwise "N fields". */
  function FieldsLabel(n: nat): (s: string)
    ensures StartsWith(s, NatText(n))
    ensures s[|s| - 1] == 's' <==> n != 1
  {
    NatText(n) + " field" + (if n != 1 then "s" else "")
  }

  /** The number on the chip is the number of rows in the changes table. */
  lemma {:induction false} FieldsLabelCountsRows(r: EditRecord)
    ensures var s := FieldsLabel(|EditedFields(r)|);
            ParseNat(s[..|NatText(|EditedFields(r)|)|]) == |EditedFields(r)|
  {
    ParseNatText(|EditedFields(r)|);
  }

  // ---- attendance cells ---------------------------------------------------

  datatype ChipColor = Success | Failure | Warning | Info | Neutral

  /** `getStatusColor`: the colour of a known status, else the default. */
  function StatusColor(status: string): (c: ChipColor)
    ensures c == Success <==> status == "present"
    ensures c == Failure <==> status == "absent"
    ensures c == Warning <==> status == "late"
    ensures c == Info <==> status == "half-day"
    ensures c == Neutral <==> status !in {"present", "absent", "late", "half-day"}
  {
    if status == "present" then Success
    else if status == "absent" then Failure
    else if status == "late" then Warning
    else if status == "half-day" then Info
    else Neutral
  }

  /** The status a chip colour stands for; `Neutral` stands for none. */
  function StatusOfColor(c: ChipColor): (s: Option<string>)
    ensures s.None? <==> c == Neutral
  {
    match c
    case Success => Some("present")
    case Failure => Some("absent")
    case Warning => Some("late")
    case Info => Some("half-day")
    case Neutral => None
  }

  /** The colour identifies a known status, and every colour but the
      default is the colour of its status. */
  lemma StatusColorRoundTrip(status: string, c: ChipColor)
    ensures status in {"present", "absent", "late", "half-day"} ==> StatusOfColor(StatusColor(status)) == Some(status)
    ensures status !in {"present", "absent", "late", "half-day"} ==> StatusOfColor(StatusColor(status)) == None
    ensures c != Neutral ==> StatusColor(StatusOfColor(c).value) == c
  {
  }

  datatype CheckOutCell = CheckedOutAt(time: int) | ActiveChip

  /** The check-out time a cell shows, `None` for the 'Active' chip. */
  function CheckOutOf(c: CheckOutCell): (t: Option<int>)
    ensures t.None? <==> c.ActiveChip?
  {
    if c.CheckedOutAt? then Some(c.time) else None
  }

  /** The check-out column: the time, or the 'Active' chip. */
  function CheckOutColumn(r: AttendanceRecord): (c: CheckOutCell)
    ensures c.ActiveChip? <==> r.checkOutTime.None?
    ensures c.CheckedOutAt? ==> c.time == r.checkOutTime.value
  {
    if r.checkOutTime.Some? then CheckedOutAt(r.checkOutTime.value) else ActiveChip
  }

  /** Reading the check-out column gives back the record's check-out time,
      so records with different check-out times never share a cell. */
  lemma CheckOutColumnRoundTrip(r: AttendanceRecord, q: AttendanceRecord)
    ensures CheckOutOf(CheckOutColumn(r)) == r.checkOutTime
    ensures CheckOutColumn(r) == CheckOutColumn(q) ==> r.checkOutTime == q.checkOutTime
  {
  }

  /** The working-hours column: the value, or '-' when missing or empty. */
  function WorkingHoursCell(r: AttendanceRecord): (s: string)
    ensures s != ""
    ensures Present(r.workingHours) ==> s == r.workingHours.value
    ensures !Present(r.workingHours) ==> s == "-"
  {
    OrElse(r.workingHours, "-")
  }

  /** The hours a cell shows, `None` for the '-' placeholder. */
  function HoursOf(s: string): (h: Option<string>)
    ensures h.None? <==> s == "-"
  {
    if s == "-" then None else Some(s)
  }

  /** Reading the working-hours cell gives back the record's hours when they
      are truthy, and nothing when they are missing or empty; only a stored
      value of '-' itself reads back as missing. */
  lemma WorkingHoursCellRoundTrip(r: AttendanceRecord)
    ensures Present(r.workingHours) && r.workingHours.value != "-" ==> HoursOf(WorkingHoursCell(r)) == r.workingHours
    ensures !Present(r.workingHours) ==> HoursOf(WorkingHoursCell(r)) == None
    ensures r.workingHours == Some("-") ==> WorkingHoursCell(r) == WorkingHoursCell(r.(workingHours := None))
  {
  }
}
